=== FILE: README.md ===
# singularity, modelled in Dafny

singularity is a compile-time dependency-injection library for Rust. A
service type implements `Injectable` by naming the shape of its
dependencies (`Deps`: `()`, one type, or a tuple) and a constructor
`inject(Deps) -> Self`. `Container::resolve::<T>()` resolves `T::Deps` and
passes the result to `T::inject`. `ResolveDepsFrom` does that resolution:
`()` resolves to `()`, a bare type resolves recursively, and a tuple of 2 to
16 types resolves element by element. Rust's trait solver rejects cyclic
graphs at compile time. Implementations are written by hand, by the
`injectable!` macro, or by `#[derive(Injectable)]`.

This project models three pieces:

- **The derive generator** (`InjectableStruct`). A struct's fields are
  split into dependencies (unmarked fields) and locally computed fields
  (marked with `#[inject(...)]`). Positional dependencies are named with
  `to_snake_case` (`SnakeCase`). The generated impl is an abstract `Impl`:
  the `Deps` shape, the parameter pattern and a named, positional or unit
  constructor body. Every panic of the generator is a `DeriveError`.
- **The resolution engine** (`Container`). Each implemented type has a
  `Decl` holding its `Deps` shape and an `inject` function. Resolution is
  `Resolve` / `ResolveDeps` / `ResolveEach`. The trait solver's acyclicity
  check is a rank on the types reachable from the resolved one: it strictly
falls along every dependency edge among them, and implementations outside
it are unconstrained.
  `inject` may read and change an external world `W`. This makes evaluation
  order and purity observable.
- **The `injectable!` macro** (`InjectableMacro`). Its seven arms are chosen
  by `SelectArm` and expanded by `Expand` into a struct declaration and the
  same `Impl` datatype.

`Generated.Inject` evaluates a generated `inject` on a dependency value. It
is used to state what the generated constructors build
(`DeriveSemantics`, `InjectableMacroProperties`). `Scenarios` works the
repository's own test cases through the model.

The doc comments give a lower tuple arity cap than the code. They say 8
dependency parameters (src/container.rs:33,
src/container/resolve_deps_from.rs:5), but `ResolveDepsFrom` is implemented
for tuples of up to 16 types (src/container/resolve_deps_from.rs:55-70). The
model follows the code: `Container.MaxTupleArity` is 16.

In Rust, a tuple struct's constructor `Self(a0, a1, ...)` initialises field
`i` from argument `i`. When a marked field comes before a dependency, the
derive's argument list does not follow the field order. The model keeps
both the generator as written (`InjectableStruct.Derive`) and a corrected
one (`InjectableStruct.DeriveInOrder`), and records the difference under
"## Findings".

## Model

| member | source | states |
|---|---|---|
| Syntax.StripParens | singularity_proc_macros/src/injectable_struct.rs:69-72 | the loop that unwraps `Expr::Paren` ends at a non-parenthesised expression and leaves such an expression unchanged |
| Syntax.StripParensOfParens | singularity_proc_macros/src/injectable_struct.rs:69-72 | any number of enclosing parentheses is stripped back to the inner non-parenthesised expression |
| Syntax.ParenDepth | singularity_proc_macros/src/injectable_struct.rs:69-72 | every expression is some number of parentheses around a non-parenthesised core, so the unwrapping loop always has a core to reach |
| SnakeCase.ToAsciiLowercase | singularity_proc_macros/src/injectable_struct.rs:180 | `to_ascii_lowercase` lowers each ASCII capital to the same letter in lower case (same offset from `a` as from `A`) and keeps every other character, so no ASCII capital survives |
| SnakeCase.SnakeTail | singularity_proc_macros/src/injectable_struct.rs:175-184 | after index 0, each uppercase character turns into `_` plus its lowered form: the length and the underscore count each grow by the number of uppercase characters, and no ASCII capital is left |
| SnakeCase.ToSnakeCase | singularity_proc_macros/src/injectable_struct.rs:172-186 | no underscore before index 0; output length is input length plus the uppercase characters after index 0; the first character is only lowered; no ASCII capital in the output |
| SnakeCase.SnakeTailAt | singularity_proc_macros/src/injectable_struct.rs:175-184 | character `k` of the tail lands at `k` plus the number of uppercase characters before it: an uppercase one as `_` and its lowered form, any other one unchanged; with the length this fixes every output character |
| SnakeCase.ToSnakeCaseAt | singularity_proc_macros/src/injectable_struct.rs:172-186 | for every index `k >= 1` of the name, character `k` appears at `k` plus the uppercase count of indices `1..k`, as `_` and its lowered form when uppercase, unchanged otherwise |
| SnakeCase.ToSnakeCasePositions | singularity_proc_macros/src/injectable_struct.rs:172-186 | the first output character is the first input character lowered, and every later input character is placed as `SnakeCase.ToSnakeCaseAt` says, so `to_snake_case` is fixed character by character |
| SnakeCase.UppercaseSurvivesLowering | singularity_proc_macros/src/injectable_struct.rs:176-180 | lowering an uppercase character loses nothing: raising it again gives it back |
| SnakeCase.SnakeTailRoundTrip | singularity_proc_macros/src/injectable_struct.rs:175-184 | for text with no underscore, dropping each `_` and raising the next character undoes the tail transformation |
| SnakeCase.SnakeCaseRoundTrip | singularity_proc_macros/src/injectable_struct.rs:172-186 | for names with no underscore, `to_snake_case` loses no information: the name comes back once we know whether its first character was uppercase |
| SnakeCase.SnakeCaseNotInjective | singularity_proc_macros/src/injectable_struct.rs:86-89 | two different type names can get the same parameter name: `aB` and `a_b` both become `a_b` |
| Values.EvalIgnoresParens | singularity_proc_macros/src/injectable_struct.rs:69-72 | removing parentheses does not change an expression's value |
| Generated.ShapeOf | singularity_proc_macros/src/injectable_struct.rs:138 | `( #(#dep_types),* )` gives `()` for no type, the bare type for one, and a tuple of two or more otherwise; its elements are the listed types in order |
| Generated.ShapeOfElements | singularity_proc_macros/src/injectable_struct.rs:153 | round trip: every well-formed shape is the parenthesised list of its own elements |
| Generated.BindAll | singularity_proc_macros/src/injectable_struct.rs:127 | destructuring a tuple into distinct names binds exactly those names, name `i` to element `i` |
| Generated.BindingsOfShapeValue | singularity_proc_macros/src/injectable_struct.rs:124-128 | the pattern `( d1, ..., dn )` with distinct names accepts the parenthesised list of `n` values and binds name `i` to value `i` |
| Generated.DuplicateNamesNeverBind | singularity_proc_macros/src/injectable_struct.rs:127 | a parameter pattern that repeats a name never type-checks |
| Generated.EvalArgs | singularity_proc_macros/src/injectable_struct.rs:155 | constructor arguments evaluate exactly when each one does, giving one value per argument in order |
| Generated.EvalFieldInits | singularity_proc_macros/src/injectable_struct.rs:140 | a struct literal evaluates exactly when each field initialiser does, giving one named value per initialiser in order and under its name |
| Generated.Inject | singularity_proc_macros/src/injectable_struct.rs:124-168 | when the parameter pattern does not bind the argument, `inject` fails with that binding error; when it succeeds, a unit body builds the unit struct, a struct literal a named value with one field per initialiser under its name, a positional call a tuple value with one element per argument |
| Container.ResolveDeps | src/container/resolve_deps_from.rs:14-48 | `()` resolves to `()` without touching the container or the world; a bare type resolves to its own `resolve` value; a tuple resolves to the tuple of its elements, each resolved with `resolve`, left to right |
| Container.ResolveEach | src/container/resolve_deps_from.rs:46-48 | `( container.resolve::<T>(), ... )` yields one value per element type |
| ContainerProperties.ShapeOfHasImpl | src/container/resolve_deps_from.rs:55-70 | a parenthesised list of types has a `ResolveDepsFrom` impl exactly when it has at most 16 elements |
| ContainerProperties.ResolveInjectsResolvedElements | src/container.rs:49-55 | `resolve::<T>()` is `T::inject` applied to the resolved dependency list, in the world those resolutions leave behind |
| ContainerProperties.ResolveReadsOnlyRanked | src/container.rs:49-55 | resolution reads only the implementations of the ranked types: changing or adding any other implementation, unresolvable ones included, leaves the result and the world unchanged |
| ContainerProperties.ResolveEachLeftToRight | src/container/resolve_deps_from.rs:46-48 | element `i` of a resolved tuple is `resolve::<Ti>()` run in the world left by the elements before it |
| ContainerProperties.RankFallsAlongPath | src/container/resolve_deps_from.rs:23-25 | along any chain of dependency edges that starts at a ranked type, every type is ranked and the rank strictly falls |
| ContainerProperties.NoDependencyCycle | src/container/resolve_deps_from.rs:41-43 | no type reachable from a ranked type depends on itself, directly or transitively |
| ContainerProperties.ResolveIgnoresRank | src/container.rs:49-55 | the resolved value and world depend only on the implementations, not on which rank proves acyclicity |
| ContainerProperties.ResolveEachIgnoresRank | src/container/resolve_deps_from.rs:46-48 | the same holds for tuple elements |
| ContainerProperties.PureResolve | src/container.rs:49-55 | when every `inject` is pure, resolution leaves the world unchanged and its value does not depend on the world |
| ContainerProperties.PureResolveEach | src/container/resolve_deps_from.rs:46-48 | the same holds for a tuple of dependencies |
| ContainerProperties.ResolveTwiceAgrees | src/container.rs:54 | with pure `inject`s, nothing is cached or threaded between calls: resolving a type twice gives equal values and leaves the world as it was |
| ContainerProperties.ImpureResolveDiffers | src/container.rs:54 | the purity condition is needed: an `inject` that reads and bumps a counter gives two different values on two resolutions |
| ContainerProperties.ResolveLogsPostOrder | src/container.rs:54 | side effects run in post-order: a type's dependencies first, left to right and recursively, then the type itself |
| ContainerProperties.ResolveEachLogsPostOrder | src/container/resolve_deps_from.rs:46-48 | a tuple's side effects are those of its elements, concatenated by position |
| InjectableStruct.New | singularity_proc_macros/src/injectable_struct.rs:14-32 | only structs are accepted, and anything else fails with the struct-only panic; the kind (named, tuple, unit) follows the declaration, and `fields()` lists the declared fields |
| InjectableStruct.FindInjectFindsFirst | singularity_proc_macros/src/injectable_struct.rs:56 | the attribute found is the first one whose path is `inject`, and none is found exactly when no attribute is `inject` |
| InjectableStructProperties.InjectExprIsFallbackChain | singularity_proc_macros/src/injectable_struct.rs:57-67 | `parse_args`, with `require_list` + `parse2` as fallback, yields the attribute's expression exactly when it is a list whose tokens parse as one; the fallback never succeeds where `parse_args` failed, and it panics with "expected #[inject(...)]" on a non-list and with the closure message on an unparsable list |
| InjectableStruct.FactoryInitIgnoresParens | singularity_proc_macros/src/injectable_struct.rs:69-77 | any number of parentheses changes nothing: a closure under them is called as `(closure)()`, and any other expression under them becomes `Default::default()` |
| InjectableStruct.ParseField | singularity_proc_macros/src/injectable_struct.rs:55-112 | a field is a dependency exactly when it has no `inject` attribute; a dependency keeps its type; the attribute's expression is checked before the name; the part carries the field's name and initialiser |
| InjectableStructProperties.ParseFieldErrors | singularity_proc_macros/src/injectable_struct.rs:56-111 | which panic a failing field raises: a marked field's attribute error comes first whatever its type; then a marked tuple field of non-path type gets the inject-field message and an unmarked one the dependency message; a named field without a name gets the `unwrap` panic |
| InjectableStructProperties.SingleFieldDeriveError | singularity_proc_macros/src/injectable_struct.rs:55-112 | a tuple struct with one field fails to derive exactly when that field fails to parse, and with that field's panic |
| InjectableStructProperties.TupleFieldNameRecoversType | singularity_proc_macros/src/injectable_struct.rs:84-92 | a tuple-struct field of path type is named by `to_snake_case` of its type's last segment, and for a segment without underscores that name, with the case of the first letter, gives the segment back |
| InjectableStruct.ParseFields | singularity_proc_macros/src/injectable_struct.rs:55-115 | the loop succeeds exactly when every field parses, giving one part per field in order; otherwise the first failing field's panic is reported |
| InjectableStruct.Select | singularity_proc_macros/src/injectable_struct.rs:81-111 | picking the dependency parts, or the local parts, gives parts of that kind only |
| InjectableStruct.IntoTokenStream | singularity_proc_macros/src/injectable_struct.rs:118-171 | generation succeeds exactly when every field passes the loop; the generated impl then has a well-formed `Deps` shape, a pattern that is `_` exactly when `Deps` is `()` and otherwise binds one name per element, and a body of the struct's own kind |
| InjectableStruct.Derive | singularity_proc_macros/src/lib.rs:8-21 | a derived impl comes only from a struct; it is well-formed, its body is a struct literal exactly for named fields and `Self` exactly for a unit struct |
| InjectableStruct.DeriveInOrder | singularity_proc_macros/src/injectable_struct.rs:118-171 | the corrected generator keeps the same guarantees: struct input only, a well-formed impl, and a body of the struct's own kind |
| InjectableStructProperties.FieldIndices | singularity_proc_macros/src/injectable_struct.rs:55-113 | every listed position is a field of the chosen kind, unmarked (or marked), at or after the starting position |
| InjectableStructProperties.FieldIndicesAscending | singularity_proc_macros/src/injectable_struct.rs:55-113 | the loop visits the fields in declaration order, so the positions are strictly ascending and each is listed once |
| InjectableStructProperties.FieldIndicesCover | singularity_proc_macros/src/injectable_struct.rs:55-113 | no field is skipped: every field of the chosen kind at or after the starting position is listed |
| InjectableStructProperties.SelectAtAllIndices | singularity_proc_macros/src/injectable_struct.rs:55-113 | the dependency (or local) vector holds exactly the parts of the unmarked (or marked) fields, in declaration order |
| InjectableStructProperties.SelectPartitionsNames | singularity_proc_macros/src/injectable_struct.rs:55-113 | every field's name goes into exactly one of the dependency and local vectors |
| InjectableStructProperties.DeriveDependencies | singularity_proc_macros/src/injectable_struct.rs:99-153 | the `Deps` elements are exactly the types of the unmarked fields, in declaration order, and the shape is well-formed; a marked field never appears |
| InjectableStructProperties.DeriveParams | singularity_proc_macros/src/injectable_struct.rs:124-128 | the pattern is `_` exactly when there is no unmarked field; otherwise it binds each unmarked field's name, in order |
| InjectableStructProperties.DeriveUnit | singularity_proc_macros/src/injectable_struct.rs:161-168 | a unit struct gets `Deps = ()`, `_` and `Self` |
| InjectableStructProperties.DeriveNamedBody | singularity_proc_macros/src/injectable_struct.rs:131-141 | a named struct's literal lists the dependencies by shorthand, in order, then the marked fields as `name: value`, in order |
| InjectableStructProperties.DeriveNamedInitialisesEachFieldOnce | singularity_proc_macros/src/injectable_struct.rs:131-141 | every field of a named struct is initialised exactly once, under its own name |
| InjectableStructProperties.DeriveTupleBody | singularity_proc_macros/src/injectable_struct.rs:146-156 | as written, a tuple struct's constructor takes all dependency names first, then all local values, wherever the fields were declared |
| InjectableStructProperties.DeriveInOrderTupleBody | singularity_proc_macros/src/injectable_struct.rs:146-156 | corrected: argument `i` is field `i`'s own value, its snake-cased dependency name or its local initialiser |
| InjectableStructProperties.DeriveInOrderAgrees | singularity_proc_macros/src/injectable_struct.rs:118-171 | the correction changes only a tuple struct's constructor: it accepts and rejects the same inputs, and keeps the same `Deps` and pattern |
| InjectableStructProperties.DeriveRejectsExactlyNonStructs | singularity_proc_macros/src/injectable_struct.rs:18-25 | the struct-only panic happens exactly for enums and unions |
| InjectableStructProperties.ParseFieldNeverNotAStruct | singularity_proc_macros/src/injectable_struct.rs:55-112 | no field can raise the struct-only panic |
| InjectableStructProperties.DeriveFailsOnFirstBadField | singularity_proc_macros/src/injectable_struct.rs:55-112 | a struct is rejected exactly when some field panics, and the first such field decides the message |
| InjectableStructProperties.TupleFieldNeedsPathType | singularity_proc_macros/src/injectable_struct.rs:86-110 | a tuple-struct field whose type is not a path makes the derive panic, marked or not |
| DeriveSemantics.DeriveNamedInject | singularity_proc_macros/src/injectable_struct.rs:124-141 | on the resolved dependencies, the named struct's `inject` always succeeds; each unmarked field reads as its own dependency, each marked field as its local value |
| DeriveSemantics.DeriveTupleInject | singularity_proc_macros/src/injectable_struct.rs:124-156 | as written, a tuple struct's `inject` type-checks exactly when the snake-cased names are distinct; it then fills the first positions with the dependencies and the rest with the local values |
| DeriveSemantics.DeriveInOrderTupleInject | singularity_proc_macros/src/injectable_struct.rs:124-156 | corrected: it type-checks under the same condition and puts each dependency and each local value at its own field's position |
| DeriveSemantics.IndicesPartition | singularity_proc_macros/src/injectable_struct.rs:55-113 | every field is either a dependency or a local field, never both |
| DeriveSemantics.DeriveResolvable | singularity_proc_macros/src/injectable_struct.rs:138-153 | a derived service has a `ResolveDepsFrom` impl for its `Deps` exactly when it has at most 16 unmarked fields |
| InjectableMacroProperties.FirstMatch | src/container/injectable.rs:16-164 | `macro_rules!` picks the first arm, in order, whose pattern accepts the input, and none exactly when no arm does |
| InjectableMacroProperties.ArmsDisjoint | src/container/injectable.rs:16-164 | no input is accepted by two of the seven arm patterns |
| InjectableMacroProperties.SelectArmIsFirstMatch | src/container/injectable.rs:16-164 | the arm the model selects is exactly the first arm, in source order, whose matcher accepts the input, and no arm is selected when none does |
| InjectableMacro.Expand | src/container/injectable.rs:16-164 | a successful expansion declares a struct under the input's name, with the body kind of the input's form (unit, braced, parenthesised), and a well-formed impl |
| InjectableMacroProperties.ExpandAccepts | src/container/injectable.rs:16-164 | an input expands exactly when some arm's pattern accepts it; in closed form, exactly when it is not a unit form with parameters, and it has a trailing parameter comma only with two or more parameters and a braced body |
| InjectableMacroProperties.ExpandLayout | src/container/injectable.rs:80-148 | in every arm, the struct holds the parameters first, in order, then the local fields, in order; the unit arm gives a unit struct |
| InjectableMacroProperties.ExpandDeps | src/container/injectable.rs:23-151 | `Deps` is `()` with no parameter, the parameter's own type with one, and the tuple of the parameter types in order with more; `inject` ignores its argument exactly when there is no parameter |
| InjectableMacroProperties.ExpandResolvable | src/container/injectable.rs:127-151 | a macro-declared service has a `ResolveDepsFrom` impl for its `Deps` exactly when it has at most 16 parameters |
| InjectableMacroProperties.ExpandInjectNamed | src/container/injectable.rs:36-133 | named form: `inject` stores each resolved dependency under its parameter's name, then each local field's expression under its own name |
| InjectableMacroProperties.ExpandInjectTuple | src/container/injectable.rs:57-162 | tuple form: `inject` puts the resolved dependencies first, in order, then the local expressions |
| InjectableMacroProperties.ExpandInject | src/container/injectable.rs:16-164 | in every arm, `inject` applied to the resolved dependencies builds the struct `ExpandLayout` describes, with the dependencies and local values in place |
| Scenarios.ResolvesDummyThroughContainer | src/container/injectable/injectable_trait_test.rs:8-45 | the `Dummy -> Dummy2 -> ()` chain is acyclic, and resolving `Dummy` gives `Dummy(Dummy2(10))` |
| Scenarios.ResolvesDummyBesideUnresolvable | src/container.rs:49-55 | with the derive test's `TestService` (whose `Deps = (i32)` has no impl) also in scope, `Dummy` still resolves to `Dummy(Dummy2(10))`: only what the resolved type reaches must resolve |
| Scenarios.NoDepWithFieldInjects | src/container/injectable/injectable_trait_test.rs:76-77 | for the service declared at line 59, `NoDepWithField::inject(())` has `a == 5` |
| Scenarios.OneDepWithFieldInjects | src/container/injectable/injectable_trait_test.rs:84-86 | for the service declared at line 63, `OneDepWithField::inject(Dummy2(20))` has `d == Dummy2(20)` and `a == 5` |
| Scenarios.MultiDepWithFieldInjects | src/container/injectable/injectable_trait_test.rs:89-92 | the service declared at line 65, `MultiDepWithField`, has `Deps = (Dummy2, Dummy2)`, and `inject((Dummy2(7), Dummy2(8)))` has `a.0 == 7`, `b.0 == 8` and `x == 5` |
| Scenarios.TupleDeriveSwapsFields | singularity_proc_macros/src/injectable_struct.rs:146-156 | as written, for any type names `L` and `D`, the tuple struct `S(#[inject(\|\| 1)] L, D)` gets the arguments `d`, then the closure call: `inject` puts the resolved `D` value in the `L` slot and 1 in the `D` slot |
| Scenarios.TupleDeriveInOrderKeepsFields | singularity_proc_macros/src/injectable_struct.rs:146-156 | corrected, the same struct gets the closure call first, then `d`, so `inject` puts 1 in the `L` slot and the `D` value in the `D` slot |
| Scenarios.NonClosureInjectDefaults | singularity_proc_macros/src/injectable_struct.rs:74-77 | for any field name, type and integer `n`, the derive accepts `struct S { #[inject(n)] a: T }`, and its `inject` gives `a` the value `Default::default()`, not `n` |
| Scenarios.DeriveNamedService | singularity_proc_macros/src/injectable_struct.rs:269-300 | `struct TestService { a: i32 }` gets `Deps = (i32)`, the pattern `(a)` and the body `Self { a }` |
| Scenarios.TupleFieldPanicMessages | singularity_proc_macros/src/injectable_struct.rs:57-110 | for a `(u8, u8)` tuple field: a bare `#[inject]` panics with "expected #[inject(...)]", `#[inject(|| 1)]` with the inject-field message, and no attribute with the dependency message |
| Scenarios.DeriveOnEnumPanics | singularity_proc_macros/src/injectable_struct.rs:257-265 | deriving on an enum panics with "Injectable can only be derived on structs." |

## Left out

- Token rendering (`quote!`, `format_ident!`) and `syn` parsing are not modelled. The generated impl is an abstract `Impl`, and an attribute's argument is an already-parsed `Tokens` value. Of the tests that match substrings of rendered tokens, `generated_impl_matches_expected` (singularity_proc_macros/src/injectable_struct.rs:269-300) is modelled by `Scenarios.DeriveNamedService` on the abstract impl; `generated_impl_for_generic_struct` (singularity_proc_macros/src/injectable_struct.rs:306-341) is not, because it is about generics, which are left out below.
- Generics (`split_for_impl`, singularity_proc_macros/src/injectable_struct.rs:120) are copied through unchanged and are not represented.
- `Field.ident.as_ref().unwrap()` on a named field: `syn` always supplies an identifier there. The model still carries the `MissingFieldIdent` panic for it.
- `StructKind::Unit => continue` (singularity_proc_macros/src/injectable_struct.rs:94) is unreachable, because a unit struct has no fields.
- singularity_proc_macros/src/lib.rs only chains parse, `new` and `into_token_stream`. `InjectableStruct.Derive` is that chain.
- src/container/invokable.rs is not wired into `Container`: its uses are commented out. The `scope` and `resolver` modules are not part of this model. The `SCOPE` constant has no effect on resolution and is not represented.
- Rust's trait solver is not simulated. Its compile-time rejection of cyclic or unresolvable dependencies is the `Ranked` precondition of `Container.Resolve`, which covers only the types the resolved type reaches.
- The runtime `type_name` checks of the trait tests are type identity, which the model's value types do not carry.
- `Values.EvalExpr` gives closures and other expressions opaque values. Local-field expressions cannot read the world `W`, nor the bound dependency names (`EvalExpr` takes no environment): in Rust `#[inject(|| a)]` with a `Copy` dependency `a` evaluates to that dependency, here to an opaque value. So the left-to-right order is shown on `inject` side effects (`ContainerProperties.ResolveLogsPostOrder`), not on local-field expressions.
- SnakeCase.IsUppercase: Rust's `char::is_uppercase` covers all of Unicode. The model covers ASCII `A`-`Z` and the Latin-1 capitals U+00C0-U+00DE except U+00D7. Characters outside that range are treated as not uppercase.
- The `injectable!` arms are modelled from their parsed fragments (`MacroInput`), not from token trees. Among the token-level details, only the optional trailing comma after the parameter list decides acceptance, and it is the one represented (`MacroInput.trailingComma`): only the braced arm with two or more parameters (src/container/injectable.rs:116) accepts it. The `$(,)?` after each local-field list is optional in every arm, never decides acceptance and is not represented. Visibility is dropped.
- Generated.Inject: type checking of the generated code is modelled only as far as it concerns the parameter pattern (duplicate names, shape mismatch, unbound names). Field types are not checked against values.
- Generated.ShapeOf: a single dependency whose type is itself a tuple or `()` is not distinguished. In Rust, `Deps = ((A, B))` is the tuple `(A, B)`, resolved by the tuple impl; the model treats every single dependency type as a bare type that needs its own `Injectable` implementation.
- InjectableStruct.FactoryInit: a closure is called as `(closure)()` whatever its parameter list. `#[inject(|x| x)]` is accepted, although the generated call does not compile; `Syntax.Expr` does not carry closure parameters.
- InjectableMacroProperties.ExpandLayout: field names of a braced expansion are not checked for repetition, whether a local field repeats a parameter name or another local field's name (`injectable!(() => S { a: i32 = 1, a: i32 = 2 })`). Rust rejects such a struct (error E0124); the model accepts the input, lays the struct out with the name twice, and `InjectableMacroProperties.ExpandInjectNamed` then builds a value holding that name twice.

## Findings

| source | as written | input that shows it | evidently intended | confidence | as-written member | corrected member |
|---|---|---|---|---|---|---|
| singularity_proc_macros/src/injectable_struct.rs:146-156 | a tuple struct's constructor gets every dependency name, then every `#[inject]` value, whatever the declaration order | a derived tuple struct `S(#[inject(\|\| 1)] L, D)` with a marked field before a dependency, e.g. `L = i32`, `D = Dep`: the constructor is `Self(dep, (\|\| 1)())`, so the `Dep` value goes into the `i32` slot, a type error | each positional argument is its own field's value, in declaration order: `Self(closure(), dep)` (`InjectableStruct.DeriveInOrder`) | not executed | Scenarios.TupleDeriveSwapsFields | DeriveSemantics.DeriveInOrderTupleInject |

=== FILE: container.dfy ===
/**
 * The resolution engine: `Container::resolve::<T>()` is
 * `T::inject(T::Deps::resolve_deps(container))`, and `resolve_deps` is
 * `()` for the empty shape, `resolve::<A>()` for a bare type and the
 * element-wise, left-to-right resolution of a tuple of 2 to 16 types.
 *
 * Rust's trait solver only accepts a `resolve::<T>()` whose dependency
 * graph, as reached from `T`, is finite, acyclic and resolvable; here that
 * is a rank on a dependency-closed set of types holding `T`, strictly
 * decreasing along every dependency edge, which is also what makes the
 * recursion terminate.  Implementations outside that set are unconstrained:
 * they may have unresolvable or cyclic `Deps`, as `type Deps;` carries no
 * bound.  `inject` may observe and change an external world
 * `W` (statics, logs, ...), so that evaluation order is observable.
 */
module Container {

  import opened Syntax
  import opened Values
  import opened Generated

  /** An `impl Injectable for T`: its `Deps` shape and its `inject`. The
      `SCOPE` constant has no effect on resolution and is not represented. */
  datatype Decl<!W> = Decl(deps: Shape<Ty>, inject: (Value, W) -> (Value, W))

  /** The `Injectable` implementations in scope, by implementing type. Only
      those reachable from the resolved type matter. */
  type Graph<!W> = map<Ty, Decl<W>>

  /** `Container` holds only `()`: it has a single value, so every
      container resolves every type alike. */
  datatype Container = Container(private: ())

  function New(): Container {
    Container(())
  }

  /** The largest tuple arity that has a `ResolveDepsFrom` impl. */
  const MaxTupleArity: nat := 16

  /** `ResolveDepsFrom<Container>` has an impl for `()`, for every bare type,
      and for tuples of 2 through 16 elements; there is no 1-tuple impl. */
  predicate HasResolveImpl<T>(s: Shape<T>) {
    s.Tuple? ==> 2 <= |s.ts| <= MaxTupleArity
  }

  /** Every ranked type is implemented, its `Deps` has an impl, every element
      of it is itself ranked, and `rank` strictly decreases along each such
      dependency edge: the ranked types are closed under dependencies. This
      is the `T::Deps: ResolveDepsFrom<Container>` bound of `resolve::<T>`,
      applied transitively to what `T` reaches. */
  predicate Ranked<W>(g: Graph<W>, rank: map<Ty, nat>) {
    forall t :: t in rank ==>
      && t in g
      && HasResolveImpl(g[t].deps)
      && forall u :: u in Elements(g[t].deps) ==> u in g && u in rank && rank[u] < rank[t]
  }

  /** All of `ts` are implemented and rank below `bound`. */
  predicate Below<W>(g: Graph<W>, rank: map<Ty, nat>, ts: seq<Ty>, bound: nat) {
    forall u :: u in ts ==> u in g && u in rank && rank[u] < bound
  }

  /** `Container::resolve::<T>()`. */
  function Resolve<W>(c: Container, g: Graph<W>, rank: map<Ty, nat>, t: Ty, w: W): (r: (Value, W))
    requires Ranked(g, rank) && t in rank
    decreases rank[t], 2, 0
  {
    var (deps, w1) := ResolveDeps(c, g, rank, g[t].deps, rank[t], w);
    g[t].inject(deps, w1)
  }

  /** `<S as ResolveDepsFrom<Container>>::resolve_deps`. */
  function ResolveDeps<W>(c: Container, g: Graph<W>, rank: map<Ty, nat>, s: Shape<Ty>, bound: nat, w: W): (r: (Value, W))
    requires Ranked(g, rank) && HasResolveImpl(s) && Below(g, rank, Elements(s), bound)
    decreases bound, 1, 0
    ensures s.NoDeps? ==> r == (UnitV, w)
    ensures s.Tuple? ==> r.0.TupleV? && |r.0.elems| == |s.ts|
    ensures var (vs, w') := ResolveEach(c, g, rank, Elements(s), bound, w);
            r == (ShapeValue(vs), w')
  {
    match s
    case NoDeps => (UnitV, w)
    case Single(a) =>
      assert [a][1..] == [];
      Resolve(c, g, rank, a, w)
    case Tuple(ts) =>
      var (vs, w1) := ResolveEach(c, g, rank, ts, bound, w);
      (TupleV(vs), w1)
  }

  /** `(container.resolve::<T1>(), ..., container.resolve::<Tn>())`,
      evaluated left to right. */
  function ResolveEach<W>(c: Container, g: Graph<W>, rank: map<Ty, nat>, ts: seq<Ty>, bound: nat, w: W): (r: (seq<Value>, W))
    requires Ranked(g, rank) && Below(g, rank, ts, bound)
    decreases bound, 0, |ts|
    ensures |r.0| == |ts|
  {
    if ts == [] then ([], w)
    else
      var (v, w1) := Resolve(c, g, rank, ts[0], w);
      var (vs, w2) := ResolveEach(c, g, rank, ts[1..], bound, w1);
      ([v] + vs, w2)
  }
}

=== FILE: container_props.dfy ===
/**
 * Properties of resolution: the shape of what `resolve_deps` returns,
 * left-to-right evaluation, acyclicity, independence from the container
 * and from the chosen rank, and repeatability when every `inject` is pure.
 */
module ContainerProperties {

  import opened Syntax
  import opened Values
  import opened Generated
  import opened Container

  /** A parenthesised list of types has a `ResolveDepsFrom` impl exactly
      when it has at most 16 elements. */
  lemma ShapeOfHasImpl<T>(ts: seq<T>)
    ensures HasResolveImpl(ShapeOf(ts)) <==> |ts| <= MaxTupleArity
  {
  }

  /** `resolve::<T>()` hands `T::inject` the parenthesised list of its
      dependencies, each resolved in turn, in the world they leave behind. */
  lemma ResolveInjectsResolvedElements<W>(c: Container, g: Graph<W>, rank: map<Ty, nat>, t: Ty, w: W)
    requires Ranked(g, rank) && t in rank
    ensures var (vs, w') := ResolveEach(c, g, rank, Elements(g[t].deps), rank[t], w);
            Resolve(c, g, rank, t, w) == g[t].inject(ShapeValue(vs), w')
  {
  }

  /** `resolve::<T>()` reads only the ranked implementations: two graphs
      that agree on them resolve every ranked type alike, whatever else
      either holds. */
  lemma {:induction false} ResolveReadsOnlyRanked<W>(c: Container, g1: Graph<W>, g2: Graph<W>, rank: map<Ty, nat>, t: Ty, w: W)
    requires Ranked(g1, rank) && t in rank
    requires forall u :: u in rank ==> u in g2 && g2[u] == g1[u]
    decreases rank[t], 1
    ensures Ranked(g2, rank)
    ensures Resolve(c, g1, rank, t, w) == Resolve(c, g2, rank, t, w)
  {
    assert g2[t] == g1[t];
    match g1[t].deps
    case NoDeps =>
    case Single(a) =>
      ResolveReadsOnlyRanked(c, g1, g2, rank, a, w);
    case Tuple(ts) =>
      ResolveEachReadsOnlyRanked(c, g1, g2, rank, ts, rank[t], w);
  }

  lemma {:induction false} ResolveEachReadsOnlyRanked<W>(c: Container, g1: Graph<W>, g2: Graph<W>, rank: map<Ty, nat>,
                                                         ts: seq<Ty>, bound: nat, w: W)
    requires Ranked(g1, rank) && Below(g1, rank, ts, bound)
    requires forall u :: u in rank ==> u in g2 && g2[u] == g1[u]
    decreases bound, 0, |ts|
    ensures Ranked(g2, rank) && Below(g2, rank, ts, bound)
    ensures ResolveEach(c, g1, rank, ts, bound, w) == ResolveEach(c, g2, rank, ts, bound, w)
  {
    if ts != [] {
      ResolveReadsOnlyRanked(c, g1, g2, rank, ts[0], w);
      var w1 := Resolve(c, g1, rank, ts[0], w).1;
      ResolveEachReadsOnlyRanked(c, g1, g2, rank, ts[1..], bound, w1);
    }
  }

  /** The world in which element `i` of a tuple is resolved: the one left by
      resolving the elements before it. */
  function WorldBefore<W>(c: Container, g: Graph<W>, rank: map<Ty, nat>, ts: seq<Ty>, bound: nat, w: W, i: nat): W
    requires Ranked(g, rank) && Below(g, rank, ts, bound) && i <= |ts|
  {
    ResolveEach(c, g, rank, ts[..i], bound, w).1
  }

  /** Left to right: element `i` of a resolved tuple is `resolve::<Ti>()`
      run in the world left by elements `0..i`. */
  lemma {:induction false} ResolveEachLeftToRight<W>(c: Container, g: Graph<W>, rank: map<Ty, nat>, ts: seq<Ty>, bound: nat, w: W, i: nat)
    requires Ranked(g, rank) && Below(g, rank, ts, bound) && i < |ts|
    ensures ResolveEach(c, g, rank, ts, bound, w).0[i]
            == Resolve(c, g, rank, ts[i], WorldBefore(c, g, rank, ts, bound, w, i)).0
  {
    var w1 := Resolve(c, g, rank, ts[0], w).1;
    if i == 0 {
      assert ts[..0] == [];
    } else {
      ResolveEachLeftToRight(c, g, rank, ts[1..], bound, w1, i - 1);
      assert ts[..i][0] == ts[0];
      assert ts[..i][1..] == ts[1..][..i - 1];
    }
  }

  /** `T` depends directly on `U`: `U` is an element of `T::Deps`. */
  predicate DependsOn<W>(g: Graph<W>, t: Ty, u: Ty) {
    t in g && u in Elements(g[t].deps)
  }

  /** A chain of direct dependencies `p[0] -> p[1] -> ...`. */
  predicate IsPath<W>(g: Graph<W>, p: seq<Ty>) {
    forall i :: 0 <= i < |p| - 1 ==> DependsOn(g, p[i], p[i + 1])
  }

  /** The rank strictly falls along every dependency chain that starts at a
      ranked type. */
  lemma {:induction false} RankFallsAlongPath<W>(g: Graph<W>, rank: map<Ty, nat>, p: seq<Ty>)
    requires Ranked(g, rank) && IsPath(g, p) && |p| >= 2 && p[0] in rank
    ensures p[0] in rank && p[|p| - 1] in rank && rank[p[|p| - 1]] < rank[p[0]]
  {
    assert DependsOn(g, p[0], p[1]);
    if |p| > 2 {
      assert IsPath(g, p[1..]) by {
        forall i | 0 <= i < |p[1..]| - 1
          ensures DependsOn(g, p[1..][i], p[1..][i + 1])
        {
          assert DependsOn(g, p[i + 1], p[i + 2]);
        }
      }
      RankFallsAlongPath(g, rank, p[1..]);
    }
  }

  /** Acyclicity: no type that `resolve` can reach depends on itself,
      directly or transitively. */
  lemma NoDependencyCycle<W>(g: Graph<W>, rank: map<Ty, nat>, p: seq<Ty>)
    requires Ranked(g, rank) && IsPath(g, p) && |p| >= 2 && p[0] in rank
    ensures p[0] != p[|p| - 1]
  {
    RankFallsAlongPath(g, rank, p);
  }

  /** The result of resolution does not depend on which rank witnesses
      acyclicity: it is a function of the implementations alone. */
  lemma {:induction false} ResolveIgnoresRank<W>(c: Container, g: Graph<W>, r1: map<Ty, nat>, r2: map<Ty, nat>, t: Ty, w: W)
    requires Ranked(g, r1) && Ranked(g, r2) && t in r1 && t in r2
    decreases r1[t], 1
    ensures Resolve(c, g, r1, t, w) == Resolve(c, g, r2, t, w)
  {
    var s := g[t].deps;
    match s
    case NoDeps =>
    case Single(a) =>
      ResolveIgnoresRank(c, g, r1, r2, a, w);
    case Tuple(ts) =>
      ResolveEachIgnoresRank(c, g, r1, r2, ts, r1[t], r2[t], w);
  }

  lemma {:induction false} ResolveEachIgnoresRank<W>(c: Container, g: Graph<W>, r1: map<Ty, nat>, r2: map<Ty, nat>,
                                                    ts: seq<Ty>, b1: nat, b2: nat, w: W)
    requires Ranked(g, r1) && Ranked(g, r2) && Below(g, r1, ts, b1) && Below(g, r2, ts, b2)
    decreases b1, 0, |ts|
    ensures ResolveEach(c, g, r1, ts, b1, w) == ResolveEach(c, g, r2, ts, b2, w)
  {
    if ts != [] {
      ResolveIgnoresRank(c, g, r1, r2, ts[0], w);
      var w1 := Resolve(c, g, r1, ts[0], w).1;
      ResolveEachIgnoresRank(c, g, r1, r2, ts[1..], b1, b2, w1);
    }
  }

  /** An `inject` that neither changes nor reads the world. */
  ghost predicate PureDecl<W(!new)>(d: Decl<W>) {
    forall v, w1, w2 :: d.inject(v, w1).1 == w1 && d.inject(v, w1).0 == d.inject(v, w2).0
  }

  /** Every ranked implementation is pure. */
  ghost predicate PureGraph<W(!new)>(g: Graph<W>, rank: map<Ty, nat>) {
    forall t :: t in rank && t in g ==> PureDecl(g[t])
  }

  /** With pure `inject`s, resolution leaves the world as it found it and
      yields the same value whatever the world. */
  lemma {:induction false} PureResolve<W(!new)>(c: Container, g: Graph<W>, rank: map<Ty, nat>, t: Ty, w1: W, w2: W)
    requires Ranked(g, rank) && t in rank && PureGraph(g, rank)
    decreases rank[t], 1
    ensures Resolve(c, g, rank, t, w1).1 == w1
    ensures Resolve(c, g, rank, t, w1).0 == Resolve(c, g, rank, t, w2).0
  {
    var s := g[t].deps;
    assert PureDecl(g[t]);
    match s
    case NoDeps =>
    case Single(a) =>
      PureResolve(c, g, rank, a, w1, w2);
    case Tuple(ts) =>
      PureResolveEach(c, g, rank, ts, rank[t], w1, w2);
  }

  lemma {:induction false} PureResolveEach<W(!new)>(c: Container, g: Graph<W>, rank: map<Ty, nat>, ts: seq<Ty>, bound: nat, w1: W, w2: W)
    requires Ranked(g, rank) && Below(g, rank, ts, bound) && PureGraph(g, rank)
    decreases bound, 0, |ts|
    ensures ResolveEach(c, g, rank, ts, bound, w1).1 == w1
    ensures ResolveEach(c, g, rank, ts, bound, w1).0 == ResolveEach(c, g, rank, ts, bound, w2).0
  {
    if ts != [] {
      PureResolve(c, g, rank, ts[0], w1, w2);
      PureResolve(c, g, rank, ts[0], w2, w1);
      PureResolveEach(c, g, rank, ts[1..], bound, w1, w2);
    }
  }

  /** Resolving the same type twice in a row yields equal values and no
      trace in the world, when every `inject` is pure. */
  lemma ResolveTwiceAgrees<W(!new)>(c: Container, g: Graph<W>, rank: map<Ty, nat>, t: Ty, w: W)
    requires Ranked(g, rank) && t in rank && PureGraph(g, rank)
    ensures var (v1, w1) := Resolve(c, g, rank, t, w);
            var (v2, w2) := Resolve(c, g, rank, t, w1);
            v1 == v2 && w2 == w
  {
    PureResolve(c, g, rank, t, w, w);
    var w1 := Resolve(c, g, rank, t, w).1;
    PureResolve(c, g, rank, t, w1, w);
  }

  /** Without purity the guarantee is gone: an `inject` that reads and
      bumps a counter gives different values on two resolutions. */
  lemma ImpureResolveDiffers()
    ensures var t := PathTy([], "Counter", []);
            var g: Graph<int> := map[t := Decl(NoDeps, (v: Value, n: int) => (IntV(n), n + 1))];
            var rank := map[t := 0];
            Ranked(g, rank)
            && Resolve(New(), g, rank, t, 0).0 != Resolve(New(), g, rank, t, Resolve(New(), g, rank, t, 0).1).0
  {
  }

  /** The order in which resolution runs `inject`s: every dependency, left
      to right and each with its own dependencies first, then the type. */
  function PostOrder<W>(g: Graph<W>, rank: map<Ty, nat>, t: Ty): seq<Ty>
    requires Ranked(g, rank) && t in rank
    decreases rank[t], 1
  {
    PostOrderEach(g, rank, Elements(g[t].deps), rank[t]) + [t]
  }

  function PostOrderEach<W>(g: Graph<W>, rank: map<Ty, nat>, ts: seq<Ty>, bound: nat): seq<Ty>
    requires Ranked(g, rank) && Below(g, rank, ts, bound)
    decreases bound, 0, |ts|
  {
    if ts == [] then [] else PostOrder(g, rank, ts[0]) + PostOrderEach(g, rank, ts[1..], bound)
  }

  /** Every ranked `inject` appends its own type to a log. */
  ghost predicate LogsItself(g: Graph<seq<Ty>>, rank: map<Ty, nat>) {
    forall t, v, w :: t in rank && t in g ==> g[t].inject(v, w).1 == w + [t]
  }

  /** Side effects happen in post-order: dependencies before dependents,
      tuple elements left to right by position. */
  lemma {:induction false} ResolveLogsPostOrder(c: Container, g: Graph<seq<Ty>>, rank: map<Ty, nat>, t: Ty, w: seq<Ty>)
    requires Ranked(g, rank) && t in rank && LogsItself(g, rank)
    decreases rank[t], 1
    ensures Resolve(c, g, rank, t, w).1 == w + PostOrder(g, rank, t)
  {
    var s := g[t].deps;
    match s
    case NoDeps =>
      assert PostOrderEach(g, rank, [], rank[t]) == [];
    case Single(a) =>
      ResolveLogsPostOrder(c, g, rank, a, w);
      assert [a][1..] == [];
      assert PostOrderEach(g, rank, [a], rank[t]) == PostOrder(g, rank, a);
    case Tuple(ts) =>
      ResolveEachLogsPostOrder(c, g, rank, ts, rank[t], w);
  }

  lemma {:induction false} ResolveEachLogsPostOrder(c: Container, g: Graph<seq<Ty>>, rank: map<Ty, nat>, ts: seq<Ty>, bound: nat, w: seq<Ty>)
    requires Ranked(g, rank) && Below(g, rank, ts, bound) && LogsItself(g, rank)
    decreases bound, 0, |ts|
    ensures ResolveEach(c, g, rank, ts, bound, w).1 == w + PostOrderEach(g, rank, ts, bound)
  {
    if ts != [] {
      ResolveLogsPostOrder(c, g, rank, ts[0], w);
      var w1 := Resolve(c, g, rank, ts[0], w).1;
      ResolveEachLogsPostOrder(c, g, rank, ts[1..], bound, w1);
      var head := PostOrder(g, rank, ts[0]);
      var tail := PostOrderEach(g, rank, ts[1..], bound);
      assert w1 == w + head;
      assert ResolveEach(c, g, rank, ts, bound, w).1 == ResolveEach(c, g, rank, ts[1..], bound, w1).1;
      assert PostOrderEach(g, rank, ts, bound) == head + tail;
      assert (w + head) + tail == w + (head + tail);
    }
  }
}

=== FILE: derive_semantics.dfy ===
/**
 * What the derived `inject` builds from the resolved dependencies, and
 * whether the derived `Deps` has a `ResolveDepsFrom` impl at all.
 */
module DeriveSemantics {

  import opened Wrappers
  import opened Syntax
  import opened SnakeCase
  import opened Values
  import opened Generated
  import opened InjectableStruct
  import opened InjectableStructProperties
  import Container

  /** The value a marked field receives: its closure called, or
      `Default::default()`. */
  function LocalValue(f: Field): Value
    requires IsLocal(f)
  {
    match LocalInit(f)
    case CallClosure(body) => EvalExpr(body)
    case _ => DefaultV
  }

  /** A marked field's initialiser needs no binding and yields its value. */
  lemma EvalLocalInit(f: Field, env: Env)
    requires IsLocal(f)
    ensures EvalInit(LocalInit(f), env) == Success(LocalValue(f))
  {
    assert LocalInit(f).CallClosure? || LocalInit(f).DefaultCall?;
  }

  /** `inject` with a tuple constructor whose arguments all evaluate. */
  lemma InjectTuple(impl: Impl, v: Value, env: Env)
    requires Bindings(impl.params, v) == Success(env)
    requires impl.body.TupleBody? && EvalArgs(impl.body.args, env).Success?
    ensures Inject(impl, v) == Success(TupleStructV(EvalArgs(impl.body.args, env).value))
  {
  }

  /** `inject` with a struct literal whose fields all evaluate. */
  lemma InjectNamed(impl: Impl, v: Value, env: Env)
    requires Bindings(impl.params, v) == Success(env)
    requires impl.body.NamedBody? && EvalFieldInits(impl.body.inits, env).Success?
    ensures Inject(impl, v) == Success(NamedStructV(EvalFieldInits(impl.body.inits, env).value))
  {
  }

  /** The names `inject` binds, in `Deps` order. */
  function BoundNames(p: Pattern): seq<Ident> {
    if p.Bind? then p.names else []
  }

  /** The parameter pattern binds dependency `k` to `vs[k]` when the
      dependency names are distinct, and fails otherwise. */
  lemma BindResolved(input: DeriveInput, impl: Impl, vs: seq<Value>) returns (env: Env)
    requires Derive(input) == Success(impl)
    requires |vs| == |DepIndices(DeclaredFields(input.data.fields))|
    requires Distinct(BoundNames(impl.params))
    ensures |BoundNames(impl.params)| == |vs|
    ensures Bindings(impl.params, ShapeValue(vs)) == Success(env)
    ensures forall k :: 0 <= k < |vs| ==> BoundNames(impl.params)[k] in env && env[BoundNames(impl.params)[k]] == vs[k]
  {
    DeriveParams(input, impl);
    if impl.params.Ignore? {
      env := map[];
    } else {
      BindingsOfShapeValue(impl.params.names, vs);
      env := Bindings(impl.params, ShapeValue(vs)).value;
    }
  }

  /** The dependency names of a successful derive are those the field loop
      produced, at the dependency positions. */
  lemma DeriveNames(input: DeriveInput, impl: Impl) returns (parts: seq<FieldPart>)
    requires Derive(input) == Success(impl) || DeriveInOrder(input) == Success(impl)
    ensures input.data.StructData?
    ensures var fs := DeclaredFields(input.data.fields); var idx := DepIndices(fs);
            && Produced(NamingOfFields(input.data.fields), fs, parts)
            && |BoundNames(impl.params)| == |idx|
            && forall k :: 0 <= k < |idx| ==> parts[idx[k]] == DepPart(fs[idx[k]].ty, BoundNames(impl.params)[k])
  {
    parts := DeriveHeader(input, impl);
    DepPartsAtIndices(NamingOfFields(input.data.fields), DeclaredFields(input.data.fields), parts);
    assert BoundNames(impl.params) == Split(parts).depTokens;
  }

  /** The corrected tuple constructor passes each field's part, in order. */
  lemma InOrderTupleArgs(ident: Ident, fs: seq<Field>, impl: Impl) returns (parts: seq<FieldPart>)
    requires DeriveInOrder(DeriveInput(ident, StructData(UnnamedFields(fs)))) == Success(impl)
    ensures Produced(ByTypeName, fs, parts)
    ensures impl.body == TupleBody(ArgsOf(parts))
    ensures Derive(DeriveInput(ident, StructData(UnnamedFields(fs)))).Success?
    ensures impl.params == Derive(DeriveInput(ident, StructData(UnnamedFields(fs)))).value.params
  {
    var input := DeriveInput(ident, StructData(UnnamedFields(fs)));
    DeriveInOrderAgrees(input);
    parts := DeriveParts(input);
  }

  /** Every unmarked position is one of the dependency positions. */
  lemma DepPosition(fs: seq<Field>, i: nat) returns (k: nat)
    requires i < |fs| && !IsLocal(fs[i])
    ensures k < |DepIndices(fs)| && DepIndices(fs)[k] == i
  {
    k := FieldIndicesCover(fs, true, 0, i);
  }

  /** With dependency `k` bound to `vs[k]`, the corrected constructor's
      arguments evaluate to the dependencies at their own positions and the
      marked fields' values at theirs. */
  lemma InOrderTupleValues(fs: seq<Field>, parts: seq<FieldPart>, names: seq<Ident>, env: Env, vs: seq<Value>)
    requires Produced(ByTypeName, fs, parts)
    requires |names| == |vs| == |DepIndices(fs)|
    requires forall k :: 0 <= k < |vs| ==> parts[DepIndices(fs)[k]].DepPart? && parts[DepIndices(fs)[k]].name == names[k]
    requires forall k :: 0 <= k < |vs| ==> names[k] in env && env[names[k]] == vs[k]
    ensures var args := ArgsOf(parts);
            var r := EvalArgs(args, env);
            && r.Success? && |r.value| == |fs|
            && (forall k :: 0 <= k < |vs| ==> r.value[DepIndices(fs)[k]] == vs[k])
            && (forall i :: 0 <= i < |fs| && IsLocal(fs[i]) ==> r.value[i] == LocalValue(fs[i]))
  {
    var idx := DepIndices(fs);
    var args := ArgsOf(parts);
    forall i | 0 <= i < |fs|
      ensures EvalInit(args[i], env).Success?
      ensures IsLocal(fs[i]) ==> EvalInit(args[i], env).value == LocalValue(fs[i])
    {
      if IsLocal(fs[i]) {
        LocalPartInit(ByTypeName, fs[i], parts[i]);
      } else {
        var k := DepPosition(fs, i);
        assert args[i] == Param(names[k]);
      }
    }
    var r := EvalArgs(args, env);
    assert r.Success?;
    forall k | 0 <= k < |vs|
      ensures r.value[idx[k]] == vs[k]
    {
      assert args[idx[k]] == Param(names[k]);
    }
  }

  /** `inject` fails to bind a pattern that names a dependency twice. */
  lemma DuplicateNamesFail(impl: Impl, v: Value)
    requires !Distinct(BoundNames(impl.params))
    ensures Inject(impl, v) == Failure(DuplicateBinding)
  {
    DuplicateNamesNeverBind(impl.params.names, v);
  }

  /** Corrected tuple struct with distinct dependency names. */
  lemma InOrderTupleInjectDistinct(ident: Ident, fs: seq<Field>, impl: Impl, vs: seq<Value>) returns (elems: seq<Value>)
    requires DeriveInOrder(DeriveInput(ident, StructData(UnnamedFields(fs)))) == Success(impl)
    requires |vs| == |DepIndices(fs)|
    requires Distinct(BoundNames(impl.params))
    ensures Inject(impl, ShapeValue(vs)) == Success(TupleStructV(elems))
    ensures |elems| == |fs|
    ensures forall k :: 0 <= k < |vs| ==> elems[DepIndices(fs)[k]] == vs[k]
    ensures forall i :: 0 <= i < |fs| && IsLocal(fs[i]) ==> elems[i] == LocalValue(fs[i])
  {
    var input := DeriveInput(ident, StructData(UnnamedFields(fs)));
    assert DeclaredFields(input.data.fields) == fs;
    assert NamingOfFields(input.data.fields) == ByTypeName;
    var parts := InOrderTupleArgs(ident, fs, impl);
    var written := Derive(input).value;
    assert written.params == impl.params;
    var names := BoundNames(impl.params);
    var parts' := DeriveNames(input, written);
    assert parts' == parts by {
      assert forall i :: 0 <= i < |fs| ==> ParseField(ByTypeName, fs[i]) == Success(parts'[i]);
    }
    var env := BindResolved(input, written, vs);
    elems := InOrderInjectOfParts(fs, parts, impl, ShapeValue(vs), names, env, vs);
  }

  /** The in-order argument list, evaluated in an environment binding the
      dependency names, puts every value at its own field's position. */
  lemma InOrderInjectOfParts(fs: seq<Field>, parts: seq<FieldPart>, impl: Impl, v: Value, names: seq<Ident>, env: Env, vs: seq<Value>)
    returns (elems: seq<Value>)
    requires Produced(ByTypeName, fs, parts)
    requires impl.body == TupleBody(ArgsOf(parts)) && Bindings(impl.params, v) == Success(env)
    requires |names| == |vs| == |DepIndices(fs)|
    requires forall k :: 0 <= k < |vs| ==> parts[DepIndices(fs)[k]].DepPart? && parts[DepIndices(fs)[k]].name == names[k]
    requires forall k :: 0 <= k < |vs| ==> names[k] in env && env[names[k]] == vs[k]
    ensures Inject(impl, v) == Success(TupleStructV(elems))
    ensures |elems| == |fs|
    ensures forall k :: 0 <= k < |vs| ==> elems[DepIndices(fs)[k]] == vs[k]
    ensures forall i :: 0 <= i < |fs| && IsLocal(fs[i]) ==> elems[i] == LocalValue(fs[i])
  {
    InOrderTupleValues(fs, parts, names, env, vs);
    InjectTuple(impl, v, env);
    elems := EvalArgs(ArgsOf(parts), env).value;
  }

  /** Corrected tuple struct: given the resolved dependencies `vs` in `Deps`
      order, `inject` succeeds exactly when the snake-cased dependency
      names are distinct, and then puts dependency `k` at its own field's
      position and every marked field's value at its own position. */
  lemma DeriveInOrderTupleInject(ident: Ident, fs: seq<Field>, impl: Impl, vs: seq<Value>)
    requires DeriveInOrder(DeriveInput(ident, StructData(UnnamedFields(fs)))) == Success(impl)
    requires |vs| == |DepIndices(fs)|
    ensures var r := Inject(impl, ShapeValue(vs));
            && (r.Success? <==> Distinct(BoundNames(impl.params)))
            && (r.Success? ==>
                  && r.value.TupleStructV? && |r.value.elems| == |fs|
                  && (forall k :: 0 <= k < |vs| ==> r.value.elems[DepIndices(fs)[k]] == vs[k])
                  && (forall i :: 0 <= i < |fs| && IsLocal(fs[i]) ==> r.value.elems[i] == LocalValue(fs[i])))
  {
    if !Distinct(BoundNames(impl.params)) {
      DuplicateNamesFail(impl, ShapeValue(vs));
    } else {
      var elems := InOrderTupleInjectDistinct(ident, fs, impl, vs);
    }
  }

  /** Every field is a dependency or a marked field, never both. */
  lemma {:induction false} IndicesPartition(fs: seq<Field>, from: nat)
    requires from <= |fs|
    decreases |fs| - from
    ensures |FieldIndices(fs, true, from)| + |FieldIndices(fs, false, from)| == |fs| - from
  {
    if from < |fs| {
      var local := IsLocal(fs[from]);
      assert FieldIndices(fs, true, from) == (if !local then [from] else []) + FieldIndices(fs, true, from + 1);
      assert FieldIndices(fs, false, from) == (if local then [from] else []) + FieldIndices(fs, false, from + 1);
      IndicesPartition(fs, from + 1);
    }
  }

  /** The as-written tuple constructor: the bound names first, then the
      marked fields' initialisers. */
  lemma TupleArgs(ident: Ident, fs: seq<Field>, impl: Impl)
    requires Derive(DeriveInput(ident, StructData(UnnamedFields(fs)))) == Success(impl)
    ensures impl.body.TupleBody?
    ensures |DepIndices(fs)| + |LocalIndices(fs)| == |fs|
    ensures |impl.body.args| == |fs| && |BoundNames(impl.params)| == |DepIndices(fs)|
    ensures forall k :: 0 <= k < |DepIndices(fs)| ==> impl.body.args[k] == Param(BoundNames(impl.params)[k])
    ensures forall k :: 0 <= k < |LocalIndices(fs)| ==>
              impl.body.args[|DepIndices(fs)| + k] == LocalInit(fs[LocalIndices(fs)[k]])
  {
    var input := DeriveInput(ident, StructData(UnnamedFields(fs)));
    assert DeclaredFields(input.data.fields) == fs;
    assert NamingOfFields(input.data.fields) == ByTypeName;
    DeriveParams(input, impl);
    DeriveTupleBody(ident, fs, impl);
    IndicesPartition(fs, 0);
  }

  /** With dependency `k` bound to `vs[k]`, the as-written arguments
      evaluate to the dependencies followed by the marked fields' values. */
  lemma WrittenTupleValues(fs: seq<Field>, args: seq<Init>, names: seq<Ident>, env: Env, vs: seq<Value>)
    requires |names| == |vs| && |vs| + |LocalIndices(fs)| == |args|
    requires forall k :: 0 <= k < |vs| ==> args[k] == Param(names[k])
    requires forall k :: 0 <= k < |LocalIndices(fs)| ==> args[|vs| + k] == LocalInit(fs[LocalIndices(fs)[k]])
    requires forall k :: 0 <= k < |vs| ==> names[k] in env && env[names[k]] == vs[k]
    ensures var r := EvalArgs(args, env);
            && r.Success? && |r.value| == |args|
            && (forall k :: 0 <= k < |vs| ==> r.value[k] == vs[k])
            && (forall k :: 0 <= k < |LocalIndices(fs)| ==> r.value[|vs| + k] == LocalValue(fs[LocalIndices(fs)[k]]))
  {
    var loc := LocalIndices(fs);
    forall k | 0 <= k < |args|
      ensures EvalInit(args[k], env).Success?
    {
      if k >= |vs| {
        assert args[|vs| + (k - |vs|)] == LocalInit(fs[loc[k - |vs|]]);
        EvalLocalInit(fs[loc[k - |vs|]], env);
      }
    }
    var r := EvalArgs(args, env);
    forall k | 0 <= k < |loc|
      ensures r.value[|vs| + k] == LocalValue(fs[loc[k]])
    {
      EvalLocalInit(fs[loc[k]], env);
    }
  }

  /** Tuple struct as written, with distinct dependency names. */
  lemma TupleInjectDistinct(ident: Ident, fs: seq<Field>, impl: Impl, vs: seq<Value>) returns (elems: seq<Value>)
    requires Derive(DeriveInput(ident, StructData(UnnamedFields(fs)))) == Success(impl)
    requires |vs| == |DepIndices(fs)|
    requires Distinct(BoundNames(impl.params))
    ensures |vs| + |LocalIndices(fs)| == |fs|
    ensures Inject(impl, ShapeValue(vs)) == Success(TupleStructV(elems))
    ensures |elems| == |fs|
    ensures forall k :: 0 <= k < |vs| ==> elems[k] == vs[k]
    ensures forall k :: 0 <= k < |LocalIndices(fs)| ==> elems[|vs| + k] == LocalValue(fs[LocalIndices(fs)[k]])
  {
    var input := DeriveInput(ident, StructData(UnnamedFields(fs)));
    assert DeclaredFields(input.data.fields) == fs;
    var names := BoundNames(impl.params);
    var env := BindResolved(input, impl, vs);
    assert Bindings(impl.params, ShapeValue(vs)) == Success(env);
    TupleArgs(ident, fs, impl);
    var args := impl.body.args;
    assert impl.body == TupleBody(args);
    WrittenTupleValues(fs, args, names, env, vs);
    InjectTuple(impl, ShapeValue(vs), env);
    elems := EvalArgs(args, env).value;
  }

  /** Tuple struct as written: `inject` succeeds exactly when the
      dependency names are distinct, and then fills the first fields with
      the dependencies and the remaining ones with the marked fields'
      values, whatever the declaration order. */
  lemma DeriveTupleInject(ident: Ident, fs: seq<Field>, impl: Impl, vs: seq<Value>)
    requires Derive(DeriveInput(ident, StructData(UnnamedFields(fs)))) == Success(impl)
    requires |vs| == |DepIndices(fs)|
    ensures |vs| + |LocalIndices(fs)| == |fs|
    ensures var r := Inject(impl, ShapeValue(vs));
            && (r.Success? <==> Distinct(BoundNames(impl.params)))
            && (r.Success? ==>
                  && r.value.TupleStructV? && |r.value.elems| == |fs|
                  && (forall k :: 0 <= k < |vs| ==> r.value.elems[k] == vs[k])
                  && (forall k :: 0 <= k < |LocalIndices(fs)| ==>
                        r.value.elems[|vs| + k] == LocalValue(fs[LocalIndices(fs)[k]])))
  {
    IndicesPartition(fs, 0);
    if !Distinct(BoundNames(impl.params)) {
      DuplicateNamesFail(impl, ShapeValue(vs));
    } else {
      var elems := TupleInjectDistinct(ident, fs, impl, vs);
    }
  }

  /** Rust rejects a struct that declares a field name twice. */
  predicate UniqueFieldNames(fs: seq<Field>) {
    forall i, j :: 0 <= i < j < |fs| ==> fs[i].ident != fs[j].ident
  }

  /** No two field values carry the same name. */
  predicate DistinctNames(nvs: seq<NamedValue>) {
    forall p, q :: 0 <= p < |nvs| && 0 <= q < |nvs| && p != q ==> nvs[p].name != nvs[q].name
  }

  /** Looking a name up finds the only field value carrying it. */
  lemma {:induction false} FieldInAt(nvs: seq<NamedValue>, j: nat)
    requires j < |nvs|
    requires forall i :: 0 <= i < |nvs| && i != j ==> nvs[i].name != nvs[j].name
    ensures FieldIn(nvs, nvs[j].name) == Some(nvs[j].value)
  {
    if j > 0 {
      assert nvs[0].name != nvs[j].name;
      assert nvs[1..][j - 1] == nvs[j];
      FieldInAt(nvs[1..], j - 1);
    }
  }

  /** Field values laid out as dependencies then marked fields carry
      pairwise different names when the struct's field names are unique. */
  lemma LayoutNamesDistinct(fs: seq<Field>, nvs: seq<NamedValue>, n: nat)
    requires UniqueFieldNames(fs)
    requires n == |DepIndices(fs)|
    requires |nvs| == n + |LocalIndices(fs)|
    requires forall k :: 0 <= k < n ==> fs[DepIndices(fs)[k]].ident == Some(nvs[k].name)
    requires forall k :: 0 <= k < |LocalIndices(fs)| ==> fs[LocalIndices(fs)[k]].ident == Some(nvs[n + k].name)
    ensures DistinctNames(nvs)
  {
    var idx := DepIndices(fs);
    var loc := LocalIndices(fs);
    FieldIndicesAscending(fs, true, 0);
    FieldIndicesAscending(fs, false, 0);
    forall p, q | 0 <= p < |nvs| && 0 <= q < |nvs| && p != q
      ensures nvs[p].name != nvs[q].name
    {
      var a := if p < n then idx[p] else loc[p - n];
      var b := if q < n then idx[q] else loc[q - n];
      assert fs[a].ident == Some(nvs[p].name);
      assert fs[b].ident == Some(nvs[q].name);
      assert IsLocal(fs[a]) == (p >= n);
      assert IsLocal(fs[b]) == (q >= n);
      if p < n && q < n {
        assert a != b by {
          if p < q { assert idx[p] < idx[q]; } else { assert idx[q] < idx[p]; }
        }
      } else if p >= n && q >= n {
        assert a != b by {
          if p < q { assert loc[p - n] < loc[q - n]; } else { assert loc[q - n] < loc[p - n]; }
        }
      }
      if a < b {
        assert fs[a].ident != fs[b].ident;
      } else {
        assert fs[b].ident != fs[a].ident;
      }
    }
  }

  /** The field names of distinct positions are distinct names. */
  lemma DepNamesDistinct(fs: seq<Field>, names: seq<Ident>)
    requires UniqueFieldNames(fs)
    requires |names| == |DepIndices(fs)|
    requires forall k :: 0 <= k < |names| ==> fs[DepIndices(fs)[k]].ident == Some(names[k])
    ensures Distinct(names)
  {
    var idx := DepIndices(fs);
    FieldIndicesAscending(fs, true, 0);
    forall k, l | 0 <= k < l < |names|
      ensures names[k] != names[l]
    {
      assert idx[k] < idx[l];
      assert fs[idx[k]].ident != fs[idx[l]].ident;
    }
  }

  /** With dependency `k` bound to `vs[k]`, the struct literal's fields
      evaluate to the dependencies under their names followed by the marked
      fields' values under theirs. */
  lemma WrittenNamedValues(fs: seq<Field>, inits: seq<FieldInit>, names: seq<Ident>, env: Env, vs: seq<Value>)
    requires |names| == |vs| == |DepIndices(fs)| && |vs| + |LocalIndices(fs)| == |inits|
    requires forall k :: 0 <= k < |vs| ==> inits[k] == Shorthand(names[k])
    requires forall k :: 0 <= k < |LocalIndices(fs)| ==>
               fs[LocalIndices(fs)[k]].ident.Some?
               && inits[|vs| + k] == Explicit(fs[LocalIndices(fs)[k]].ident.value, LocalInit(fs[LocalIndices(fs)[k]]))
    requires forall k :: 0 <= k < |vs| ==> names[k] in env && env[names[k]] == vs[k]
    ensures var r := EvalFieldInits(inits, env);
            && r.Success? && |r.value| == |inits|
            && (forall k :: 0 <= k < |vs| ==> r.value[k] == NamedValue(names[k], vs[k]))
            && (forall k :: 0 <= k < |LocalIndices(fs)| ==>
                  r.value[|vs| + k] == NamedValue(fs[LocalIndices(fs)[k]].ident.value, LocalValue(fs[LocalIndices(fs)[k]])))
  {
    var loc := LocalIndices(fs);
    var n := |vs|;
    forall k | 0 <= k < n
      ensures EvalFieldInit(inits[k], env) == Success(NamedValue(names[k], vs[k]))
    {
      assert inits[k] == Shorthand(names[k]);
    }
    forall k | 0 <= k < |loc|
      ensures EvalFieldInit(inits[n + k], env) == Success(NamedValue(fs[loc[k]].ident.value, LocalValue(fs[loc[k]])))
    {
      assert inits[n + k] == Explicit(fs[loc[k]].ident.value, LocalInit(fs[loc[k]]));
      EvalLocalInit(fs[loc[k]], env);
    }
    forall k | 0 <= k < |inits|
      ensures EvalFieldInit(inits[k], env).Success?
    {
      if k < n {
        assert EvalFieldInit(inits[k], env) == Success(NamedValue(names[k], vs[k]));
      } else {
        var j := k - n;
        assert k == n + j && 0 <= j < |loc|;
        assert EvalFieldInit(inits[n + j], env) == Success(NamedValue(fs[loc[j]].ident.value, LocalValue(fs[loc[j]])));
      }
    }
    var r := EvalFieldInits(inits, env);
    forall k | 0 <= k < n
      ensures r.value[k] == NamedValue(names[k], vs[k])
    {
    }
    forall k | 0 <= k < |loc|
      ensures r.value[n + k] == NamedValue(fs[loc[k]].ident.value, LocalValue(fs[loc[k]]))
    {
    }
  }

  /** The named-struct literal `inject` builds, field by field. */
  lemma NamedInjectValues(ident: Ident, fs: seq<Field>, impl: Impl, vs: seq<Value>) returns (nvs: seq<NamedValue>)
    requires Derive(DeriveInput(ident, StructData(NamedFields(fs)))) == Success(impl)
    requires |vs| == |DepIndices(fs)|
    requires UniqueFieldNames(fs)
    ensures Inject(impl, ShapeValue(vs)) == Success(NamedStructV(nvs))
    ensures |nvs| == |vs| + |LocalIndices(fs)|
    ensures forall k :: 0 <= k < |vs| ==> fs[DepIndices(fs)[k]].ident == Some(nvs[k].name) && nvs[k].value == vs[k]
    ensures forall k :: 0 <= k < |LocalIndices(fs)| ==>
              fs[LocalIndices(fs)[k]].ident == Some(nvs[|vs| + k].name)
              && nvs[|vs| + k].value == LocalValue(fs[LocalIndices(fs)[k]])
  {
    var names, env := NamedHeader(ident, fs, impl, vs);
    nvs := NamedInjectOfInits(fs, impl, ShapeValue(vs), names, env, vs);
  }

  /** What the derive fixes about a named struct's `inject`: the names its
      pattern binds and how it binds the resolved dependencies, and the
      layout of its struct literal. */
  lemma NamedHeader(ident: Ident, fs: seq<Field>, impl: Impl, vs: seq<Value>) returns (names: seq<Ident>, env: Env)
    requires Derive(DeriveInput(ident, StructData(NamedFields(fs)))) == Success(impl)
    requires |vs| == |DepIndices(fs)|
    requires UniqueFieldNames(fs)
    ensures impl.body.NamedBody? && Bindings(impl.params, ShapeValue(vs)) == Success(env)
    ensures |names| == |vs| && |vs| + |LocalIndices(fs)| == |impl.body.inits|
    ensures forall k :: 0 <= k < |vs| ==>
              fs[DepIndices(fs)[k]].ident == Some(names[k]) && impl.body.inits[k] == Shorthand(names[k])
    ensures forall k :: 0 <= k < |LocalIndices(fs)| ==>
              fs[LocalIndices(fs)[k]].ident.Some?
              && impl.body.inits[|vs| + k] == Explicit(fs[LocalIndices(fs)[k]].ident.value, LocalInit(fs[LocalIndices(fs)[k]]))
    ensures forall k :: 0 <= k < |vs| ==> names[k] in env && env[names[k]] == vs[k]
  {
    var input := DeriveInput(ident, StructData(NamedFields(fs)));
    assert DeclaredFields(input.data.fields) == fs;
    assert NamingOfFields(input.data.fields) == ByFieldName;
    DeriveNamedBody(ident, fs, impl);
    DeriveParams(input, impl);
    names := BoundNames(impl.params);
    NamedHeaderOfParts(fs, impl.body, names, vs);
    DepNamesDistinct(fs, names);
    env := BindResolved(input, impl, vs);
  }

  /** The named-struct layout facts, combined without the derive in scope:
      the body's shorthand initialisers name exactly the bound dependency
      names. */
  lemma NamedHeaderOfParts(fs: seq<Field>, body: Body, names: seq<Ident>, vs: seq<Value>)
    requires body.NamedBody?
    requires var idx := DepIndices(fs); var loc := LocalIndices(fs); var inits := body.inits;
             && |inits| == |idx| + |loc|
             && (forall k :: 0 <= k < |idx| ==> fs[idx[k]].ident.Some? && inits[k] == Shorthand(fs[idx[k]].ident.value))
             && (forall k :: 0 <= k < |loc| ==>
                   fs[loc[k]].ident.Some? && inits[|idx| + k] == Explicit(fs[loc[k]].ident.value, LocalInit(fs[loc[k]])))
    requires |names| == |vs| == |DepIndices(fs)|
    requires forall k :: 0 <= k < |names| ==> FieldName(ByFieldName, fs[DepIndices(fs)[k]], UnsupportedDepFieldType) == Success(names[k])
    ensures |vs| + |LocalIndices(fs)| == |body.inits|
    ensures forall k :: 0 <= k < |vs| ==>
              fs[DepIndices(fs)[k]].ident == Some(names[k]) && body.inits[k] == Shorthand(names[k])
    ensures forall k :: 0 <= k < |LocalIndices(fs)| ==>
              fs[LocalIndices(fs)[k]].ident.Some?
              && body.inits[|vs| + k] == Explicit(fs[LocalIndices(fs)[k]].ident.value, LocalInit(fs[LocalIndices(fs)[k]]))
  {
    var idx := DepIndices(fs);
    forall k | 0 <= k < |vs|
      ensures fs[idx[k]].ident == Some(names[k]) && body.inits[k] == Shorthand(names[k])
    {
      assert FieldName(ByFieldName, fs[idx[k]], UnsupportedDepFieldType) == Success(names[k]);
    }
  }

  /** A named body laid out as the derive writes it, evaluated in an
      environment binding the dependency names, builds the dependencies
      followed by the marked fields' values. */
  lemma NamedInjectOfInits(fs: seq<Field>, impl: Impl, v: Value, names: seq<Ident>, env: Env, vs: seq<Value>)
    returns (nvs: seq<NamedValue>)
    requires impl.body.NamedBody? && Bindings(impl.params, v) == Success(env)
    requires |names| == |vs| == |DepIndices(fs)| && |vs| + |LocalIndices(fs)| == |impl.body.inits|
    requires forall k :: 0 <= k < |vs| ==>
               fs[DepIndices(fs)[k]].ident == Some(names[k]) && impl.body.inits[k] == Shorthand(names[k])
    requires forall k :: 0 <= k < |LocalIndices(fs)| ==>
               fs[LocalIndices(fs)[k]].ident.Some?
               && impl.body.inits[|vs| + k] == Explicit(fs[LocalIndices(fs)[k]].ident.value, LocalInit(fs[LocalIndices(fs)[k]]))
    requires forall k :: 0 <= k < |vs| ==> names[k] in env && env[names[k]] == vs[k]
    ensures Inject(impl, v) == Success(NamedStructV(nvs))
    ensures |nvs| == |vs| + |LocalIndices(fs)|
    ensures forall k :: 0 <= k < |vs| ==> fs[DepIndices(fs)[k]].ident == Some(nvs[k].name) && nvs[k].value == vs[k]
    ensures forall k :: 0 <= k < |LocalIndices(fs)| ==>
              fs[LocalIndices(fs)[k]].ident == Some(nvs[|vs| + k].name)
              && nvs[|vs| + k].value == LocalValue(fs[LocalIndices(fs)[k]])
  {
    var inits := impl.body.inits;
    var idx := DepIndices(fs);
    var loc := LocalIndices(fs);
    WrittenNamedValues(fs, inits, names, env, vs);
    InjectNamed(impl, v, env);
    nvs := EvalFieldInits(inits, env).value;
    forall k | 0 <= k < |vs|
      ensures fs[idx[k]].ident == Some(nvs[k].name) && nvs[k].value == vs[k]
    {
      assert nvs[k] == NamedValue(names[k], vs[k]);
    }
    forall k | 0 <= k < |loc|
      ensures fs[loc[k]].ident == Some(nvs[|vs| + k].name) && nvs[|vs| + k].value == LocalValue(fs[loc[k]])
    {
      assert nvs[|vs| + k] == NamedValue(fs[loc[k]].ident.value, LocalValue(fs[loc[k]]));
    }
  }

  /** The first `|vs|` field values are the dependencies, each under its
      field's name. */
  predicate DepLayout(fs: seq<Field>, nvs: seq<NamedValue>, vs: seq<Value>) {
    && |vs| == |DepIndices(fs)| <= |nvs|
    && forall k :: 0 <= k < |vs| ==> fs[DepIndices(fs)[k]].ident == Some(nvs[k].name) && nvs[k].value == vs[k]
  }

  /** The field values after the first `n` are the marked fields' values,
      each under its field's name. */
  predicate LocalLayout(fs: seq<Field>, nvs: seq<NamedValue>, n: nat) {
    && |nvs| == n + |LocalIndices(fs)|
    && forall k :: 0 <= k < |LocalIndices(fs)| ==>
         fs[LocalIndices(fs)[k]].ident == Some(nvs[n + k].name)
         && nvs[n + k].value == LocalValue(fs[LocalIndices(fs)[k]])
  }

  /** Reading a dependency's field finds the resolved dependency. */
  lemma NamedDepLookups(fs: seq<Field>, nvs: seq<NamedValue>, vs: seq<Value>)
    requires DistinctNames(nvs) && DepLayout(fs, nvs, vs)
    ensures forall k :: 0 <= k < |vs| ==> FieldIn(nvs, fs[DepIndices(fs)[k]].ident.value) == Some(vs[k])
  {
    forall k | 0 <= k < |vs|
      ensures FieldIn(nvs, fs[DepIndices(fs)[k]].ident.value) == Some(vs[k])
    {
      FieldInAt(nvs, k);
    }
  }

  /** Reading a marked field finds its local value. */
  lemma NamedLocalLookups(fs: seq<Field>, nvs: seq<NamedValue>, n: nat)
    requires forall i :: 0 <= i < |fs| ==> fs[i].ident.Some?
    requires DistinctNames(nvs) && LocalLayout(fs, nvs, n)
    ensures forall i :: 0 <= i < |fs| && IsLocal(fs[i]) ==> FieldIn(nvs, fs[i].ident.value) == Some(LocalValue(fs[i]))
  {
    forall i | 0 <= i < |fs| && IsLocal(fs[i])
      ensures FieldIn(nvs, fs[i].ident.value) == Some(LocalValue(fs[i]))
    {
      var k := FieldIndicesCover(fs, false, 0, i);
      assert LocalIndices(fs)[k] == i;
      FieldInAt(nvs, n + k);
    }
  }

  /** Reading a field of the laid-out values finds that field's value. */
  lemma NamedLookups(fs: seq<Field>, nvs: seq<NamedValue>, vs: seq<Value>)
    requires UniqueFieldNames(fs)
    requires forall i :: 0 <= i < |fs| ==> fs[i].ident.Some?
    requires DepLayout(fs, nvs, vs) && LocalLayout(fs, nvs, |vs|)
    ensures forall k :: 0 <= k < |vs| ==> FieldIn(nvs, fs[DepIndices(fs)[k]].ident.value) == Some(vs[k])
    ensures forall i :: 0 <= i < |fs| && IsLocal(fs[i]) ==> FieldIn(nvs, fs[i].ident.value) == Some(LocalValue(fs[i]))
  {
    LayoutNamesDistinct(fs, nvs, |vs|);
    NamedDepLookups(fs, nvs, vs);
    NamedLocalLookups(fs, nvs, |vs|);
  }

  /** Named struct: `inject` always succeeds on the resolved dependencies
      `vs` (in `Deps` order), and reading any field of the result gives the
      dependency of that field or the marked field's value. */
  lemma DeriveNamedInject(ident: Ident, fs: seq<Field>, impl: Impl, vs: seq<Value>)
    requires Derive(DeriveInput(ident, StructData(NamedFields(fs)))) == Success(impl)
    requires |vs| == |DepIndices(fs)|
    requires UniqueFieldNames(fs)
    ensures forall i :: 0 <= i < |fs| ==> fs[i].ident.Some?
    ensures var r := Inject(impl, ShapeValue(vs));
            && r.Success? && r.value.NamedStructV? && |r.value.fields| == |fs|
            && (forall k :: 0 <= k < |vs| ==> FieldOf(r.value, fs[DepIndices(fs)[k]].ident.value) == Some(vs[k]))
            && (forall i :: 0 <= i < |fs| && IsLocal(fs[i]) ==>
                  FieldOf(r.value, fs[i].ident.value) == Some(LocalValue(fs[i])))
  {
    DeriveNamedInitialisesEachFieldOnce(ident, fs, impl);
    IndicesPartition(fs, 0);
    var nvs := NamedInjectValues(ident, fs, impl, vs);
    NamedLookups(fs, nvs, vs);
  }

  /** A derived service can be resolved only when it has at most
      `MaxTupleArity` unmarked fields: more yield a `Deps` tuple without a
      `ResolveDepsFrom` impl. */
  lemma DeriveResolvable(input: DeriveInput, impl: Impl)
    requires Derive(input) == Success(impl)
    ensures input.data.StructData?
    ensures Container.HasResolveImpl(impl.deps)
            <==> |DepIndices(DeclaredFields(input.data.fields))| <= Container.MaxTupleArity
  {
    DeriveDependencies(input, impl);
  }
}

=== FILE: generated.dfy ===
/**
 * What both generators (the `Injectable` derive and the `injectable!`
 * macro) emit: an `impl Injectable` with a `Deps` shape, the parameter
 * pattern of `inject`, and the constructor expression of its body; plus
 * the meaning of such an `inject` as a function on values.
 */
module Generated {

  import opened Wrappers
  import opened Syntax
  import opened Values

  /** The `Deps` associated type: `()`, one bare type, or a tuple. */
  datatype Shape<T> = NoDeps | Single(t: T) | Tuple(ts: seq<T>)

  /** The element types of a shape, in order. */
  function Elements<T>(s: Shape<T>): seq<T> {
    match s
    case NoDeps => []
    case Single(t) => [t]
    case Tuple(ts) => ts
  }

  /** A shape Rust can write: a tuple type always has two or more elements
      (a one-element list in parentheses is the bare type). */
  predicate WellFormedShape<T>(s: Shape<T>) {
    s.Tuple? ==> |s.ts| >= 2
  }

  /** `( T1, ..., Tn )` as a type: `()` when empty, the bare type when
      alone, and a tuple otherwise. */
  function ShapeOf<T>(ts: seq<T>): (r: Shape<T>)
    ensures WellFormedShape(r)
    ensures Elements(r) == ts
    ensures |ts| == 0 <==> r.NoDeps?
    ensures |ts| == 1 <==> r.Single?
  {
    if |ts| == 0 then NoDeps
    else if |ts| == 1 then Single(ts[0])
    else Tuple(ts)
  }

  /** Round trip: every well-formed shape is the parenthesised list of its elements. */
  lemma ShapeOfElements<T>(s: Shape<T>)
    requires WellFormedShape(s)
    ensures ShapeOf(Elements(s)) == s
  {
  }

  /** `( v1, ..., vn )` as a value, the value-level counterpart of `ShapeOf`. */
  function ShapeValue(vs: seq<Value>): (v: Value)
    ensures |vs| == 0 ==> v == UnitV
    ensures |vs| == 1 ==> v == vs[0]
    ensures |vs| >= 2 ==> v.TupleV? && v.elems == vs
  {
    if |vs| == 0 then UnitV
    else if |vs| == 1 then vs[0]
    else TupleV(vs)
  }

  /** The parameter of `inject`: `_` or `( n1, ..., nk )`. */
  datatype Pattern = Ignore | Bind(names: seq<Ident>)

  /** An expression that produces one field of `Self`. */
  datatype Init =
    | Param(name: Ident)        // a name bound by the parameter pattern
    | CallClosure(body: Expr)   // `(|| body)()`
    | DefaultCall               // `::core::default::Default::default()`
    | Given(e: Expr)            // an expression copied verbatim

  /** One entry of `Self { .. }`: `name` (shorthand) or `name: init`. */
  datatype FieldInit = Shorthand(name: Ident) | Explicit(name: Ident, init: Init)

  datatype Body = UnitBody | NamedBody(inits: seq<FieldInit>) | TupleBody(args: seq<Init>)

  datatype Impl = Impl(deps: Shape<Ty>, params: Pattern, body: Body)

  /** The parameter pattern fits `Deps`: `inject` ignores its argument
      exactly when `Deps` is `()`, and otherwise binds one name per element
      of `Deps`. */
  predicate WellFormedImpl(impl: Impl) {
    && WellFormedShape(impl.deps)
    && (impl.params.Ignore? <==> impl.deps.NoDeps?)
    && (impl.params.Bind? ==> |impl.params.names| == |Elements(impl.deps)|)
  }

  /** Why a generated `inject` would not type-check for a given argument. */
  datatype InjectError = DuplicateBinding | ShapeMismatch | Unbound(name: Ident)

  predicate Distinct<T(==)>(xs: seq<T>) {
    forall i, j :: 0 <= i < j < |xs| ==> xs[i] != xs[j]
  }

  type Env = map<Ident, Value>

  /** Binds `ns[i]` to `vs[i]`. */
  function BindAll(ns: seq<Ident>, vs: seq<Value>): (env: Env)
    requires |ns| == |vs|
    requires Distinct(ns)
    ensures env.Keys == set n | n in ns
    ensures forall i :: 0 <= i < |ns| ==> env[ns[i]] == vs[i]
  {
    if ns == [] then map[]
    else
      var rest := BindAll(ns[1..], vs[1..]);
      assert forall i :: 1 <= i < |ns| ==> ns[i] == ns[1..][i - 1];
      rest[ns[0] := vs[0]]
  }

  /** Matches the argument of `inject` against its parameter pattern.  A
      pattern of one name in parentheses binds the whole argument. */
  function Bindings(p: Pattern, v: Value): Result<Env, InjectError> {
    match p
    case Ignore => Success(map[])
    case Bind(ns) =>
      if !Distinct(ns) then Failure(DuplicateBinding)
      else if |ns| == 0 then (if v == UnitV then Success(map[]) else Failure(ShapeMismatch))
      else if |ns| == 1 then Success(map[ns[0] := v])
      else if v.TupleV? && |v.elems| == |ns| then Success(BindAll(ns, v.elems))
      else Failure(ShapeMismatch)
  }

  /** The pattern `( n1, ..., nk )` destructures `( v1, ..., vk )` positionally. */
  lemma BindingsOfShapeValue(ns: seq<Ident>, vs: seq<Value>)
    requires |ns| == |vs| >= 1
    requires Distinct(ns)
    ensures Bindings(Bind(ns), ShapeValue(vs)).Success?
    ensures forall i :: 0 <= i < |ns| ==> Bindings(Bind(ns), ShapeValue(vs)).value[ns[i]] == vs[i]
  {
  }

  /** A pattern that binds one name twice never matches, whatever the argument. */
  lemma DuplicateNamesNeverBind(ns: seq<Ident>, v: Value)
    requires !Distinct(ns)
    ensures Bindings(Bind(ns), v) == Failure(DuplicateBinding)
  {
  }

  function EvalInit(i: Init, env: Env): (r: Result<Value, InjectError>)
    ensures i.Param? ==> (r.Success? <==> i.name in env)
    ensures i.Param? && i.name in env ==> r.value == env[i.name]
  {
    match i
    case Param(n) => if n in env then Success(env[n]) else Failure(Unbound(n))
    case CallClosure(body) => Success(EvalExpr(body))
    case DefaultCall => Success(DefaultV)
    case Given(e) => Success(EvalExpr(e))
  }

  function EvalFieldInit(fi: FieldInit, env: Env): Result<NamedValue, InjectError> {
    match fi
    case Shorthand(n) => var v :- EvalInit(Param(n), env); Success(NamedValue(n, v))
    case Explicit(n, i) => var v :- EvalInit(i, env); Success(NamedValue(n, v))
  }

  /** Evaluates constructor arguments left to right; the first failure wins. */
  function EvalArgs(args: seq<Init>, env: Env): (r: Result<seq<Value>, InjectError>)
    ensures r.Success? <==> forall k :: 0 <= k < |args| ==> EvalInit(args[k], env).Success?
    ensures r.Success? ==> |r.value| == |args|
    ensures r.Success? ==> forall k :: 0 <= k < |args| ==> r.value[k] == EvalInit(args[k], env).value
  {
    if args == [] then Success([])
    else
      var v :- EvalInit(args[0], env);
      var vs :- EvalArgs(args[1..], env);
      Success([v] + vs)
  }

  /** Evaluates named initialisers left to right; the first failure wins. */
  function EvalFieldInits(inits: seq<FieldInit>, env: Env): (r: Result<seq<NamedValue>, InjectError>)
    ensures r.Success? <==> forall k :: 0 <= k < |inits| ==> EvalFieldInit(inits[k], env).Success?
    ensures r.Success? ==> |r.value| == |inits|
    ensures r.Success? ==> forall k :: 0 <= k < |inits| ==>
              r.value[k] == EvalFieldInit(inits[k], env).value && r.value[k].name == inits[k].name
  {
    if inits == [] then Success([])
    else
      var v :- EvalFieldInit(inits[0], env);
      var vs :- EvalFieldInits(inits[1..], env);
      Success([v] + vs)
  }

  /** The generated `fn inject(<params>: Self::Deps) -> Self { <body> }`
      applied to an argument. */
  function Inject(impl: Impl, deps: Value): (r: Result<Value, InjectError>)
    ensures Bindings(impl.params, deps).Failure? ==> r == Failure(Bindings(impl.params, deps).error)
    ensures r.Success? && impl.body.UnitBody? ==> r.value == UnitStructV
    ensures r.Success? && impl.body.NamedBody? ==>
              r.value.NamedStructV? && |r.value.fields| == |impl.body.inits|
              && forall k :: 0 <= k < |impl.body.inits| ==> r.value.fields[k].name == impl.body.inits[k].name
    ensures r.Success? && impl.body.TupleBody? ==> r.value.TupleStructV? && |r.value.elems| == |impl.body.args|
  {
    var env :- Bindings(impl.params, deps);
    match impl.body
    case UnitBody => Success(UnitStructV)
    case NamedBody(inits) => var fs :- EvalFieldInits(inits, env); Success(NamedStructV(fs))
    case TupleBody(args) => var vs :- EvalArgs(args, env); Success(TupleStructV(vs))
  }

  /** A tuple body whose arguments evaluate to `want` one by one builds the
      tuple struct of `want`. */
  lemma InjectTupleAll(impl: Impl, deps: Value, env: Env, want: seq<Value>)
    requires Bindings(impl.params, deps) == Success(env)
    requires impl.body.TupleBody? && |impl.body.args| == |want|
    requires forall k :: 0 <= k < |want| ==> EvalInit(impl.body.args[k], env) == Success(want[k])
    ensures Inject(impl, deps) == Success(TupleStructV(want))
  {
    var got := EvalArgs(impl.body.args, env).value;
    assert forall k :: 0 <= k < |want| ==> got[k] == want[k];
    assert got == want;
  }

  /** A struct literal whose initialisers evaluate to `want` one by one
      builds the named struct of `want`. */
  lemma InjectNamedAll(impl: Impl, deps: Value, env: Env, want: seq<NamedValue>)
    requires Bindings(impl.params, deps) == Success(env)
    requires impl.body.NamedBody? && |impl.body.inits| == |want|
    requires forall k :: 0 <= k < |want| ==> EvalFieldInit(impl.body.inits[k], env) == Success(want[k])
    ensures Inject(impl, deps) == Success(NamedStructV(want))
  {
    var got := EvalFieldInits(impl.body.inits, env).value;
    assert forall k :: 0 <= k < |want| ==> got[k] == want[k];
    assert got == want;
  }
}

=== FILE: injectable_macro.dfy ===
/**
 * The `injectable!` macro: a struct declaration whose dependencies are
 * listed as parameters and whose other fields carry an initialiser.  Seven
 * arms, tried in order, cover unit, named and tuple structs with zero, one
 * or several dependencies; every arm lays out the dependency fields first
 * and the local fields after them.
 */
module InjectableMacro {

  import opened Wrappers
  import opened Syntax
  import opened Values
  import opened Generated

  /** `name: Type` in the parameter list. */
  datatype MacroParam = MacroParam(name: Ident, ty: Ty)

  /** `name: Type = expr` in a named body. */
  datatype NamedLocal = NamedLocal(name: Ident, ty: Ty, init: Expr)

  /** `Type = expr` in a tuple body. */
  datatype TupleLocal = TupleLocal(ty: Ty, init: Expr)

  /** Nothing after the name, `{ .. }` or `( .. )`. */
  datatype MacroBody = UnitForm | NamedForm(named: seq<NamedLocal>) | TupleForm(positional: seq<TupleLocal>)

  /** `injectable!((params) => Name body)`; `trailingComma` records a comma
      after the last parameter. */
  datatype MacroInput = MacroInput(params: seq<MacroParam>, trailingComma: bool, name: Ident, body: MacroBody)

  datatype DeclField = DeclField(name: Ident, ty: Ty)

  /** The emitted struct declaration. */
  datatype StructDecl =
    | UnitStruct(name: Ident)
    | NamedStruct(name: Ident, fields: seq<DeclField>)
    | TupleStruct(name: Ident, tys: seq<Ty>)

  datatype Expansion = Expansion(decl: StructDecl, impl: Impl)

  datatype Arm = UnitArm | NamedNoDep | TupleNoDep | NamedOneDep | TupleOneDep | NamedMultiDep | TupleMultiDep

  /** No arm accepts the input. */
  datatype MacroError = NoRuleMatched

  /** The first arm whose pattern accepts the input.  Only the named
      several-dependency arm allows a trailing comma after the parameters,
      and no arm has dependencies without a struct body. */
  function SelectArm(input: MacroInput): (r: Option<Arm>)
    ensures r.None? <==> (input.body.UnitForm? && |input.params| > 0)
                         || (input.trailingComma && !(|input.params| >= 2 && input.body.NamedForm?))
    ensures r.Some? ==> (r.value == UnitArm <==> input.body.UnitForm?)
    ensures r.Some? && |input.params| == 0 ==> r.value in {UnitArm, NamedNoDep, TupleNoDep}
    ensures r.Some? && |input.params| == 1 ==> r.value in {NamedOneDep, TupleOneDep}
    ensures r.Some? && |input.params| >= 2 ==> r.value in {NamedMultiDep, TupleMultiDep}
  {
    var n := |input.params|;
    if input.trailingComma && !(n >= 2 && input.body.NamedForm?) then None
    else
      match input.body
      case UnitForm => if n == 0 then Some(UnitArm) else None
      case NamedForm(_) => Some(if n == 0 then NamedNoDep else if n == 1 then NamedOneDep else NamedMultiDep)
      case TupleForm(_) => Some(if n == 0 then TupleNoDep else if n == 1 then TupleOneDep else TupleMultiDep)
  }

  function ParamNames(ps: seq<MacroParam>): seq<Ident> {
    seq(|ps|, k requires 0 <= k < |ps| => ps[k].name)
  }

  function ParamTypes(ps: seq<MacroParam>): seq<Ty> {
    seq(|ps|, k requires 0 <= k < |ps| => ps[k].ty)
  }

  function ParamFields(ps: seq<MacroParam>): seq<DeclField> {
    seq(|ps|, k requires 0 <= k < |ps| => DeclField(ps[k].name, ps[k].ty))
  }

  function ParamShorthands(ps: seq<MacroParam>): seq<FieldInit> {
    seq(|ps|, k requires 0 <= k < |ps| => Shorthand(ps[k].name))
  }

  function ParamArgs(ps: seq<MacroParam>): seq<Init> {
    seq(|ps|, k requires 0 <= k < |ps| => Param(ps[k].name))
  }

  function NamedLocalFields(ls: seq<NamedLocal>): seq<DeclField> {
    seq(|ls|, k requires 0 <= k < |ls| => DeclField(ls[k].name, ls[k].ty))
  }

  function NamedLocalInits(ls: seq<NamedLocal>): seq<FieldInit> {
    seq(|ls|, k requires 0 <= k < |ls| => Explicit(ls[k].name, Given(ls[k].init)))
  }

  function TupleLocalTypes(ls: seq<TupleLocal>): seq<Ty> {
    seq(|ls|, k requires 0 <= k < |ls| => ls[k].ty)
  }

  function TupleLocalArgs(ls: seq<TupleLocal>): seq<Init> {
    seq(|ls|, k requires 0 <= k < |ls| => Given(ls[k].init))
  }

  /** The expansion of one arm. */
  function ExpandArm(arm: Arm, input: MacroInput): Expansion
    requires SelectArm(input) == Some(arm)
  {
    var ps := input.params;
    var name := input.name;
    match arm
    case UnitArm =>
      Expansion(UnitStruct(name), Impl(NoDeps, Ignore, UnitBody))
    case NamedNoDep =>
      var ls := input.body.named;
      Expansion(NamedStruct(name, NamedLocalFields(ls)),
                Impl(NoDeps, Ignore, NamedBody(NamedLocalInits(ls))))
    case TupleNoDep =>
      var ls := input.body.positional;
      Expansion(TupleStruct(name, TupleLocalTypes(ls)),
                Impl(NoDeps, Ignore, TupleBody(TupleLocalArgs(ls))))
    case NamedOneDep =>
      var ls := input.body.named;
      Expansion(NamedStruct(name, [DeclField(ps[0].name, ps[0].ty)] + NamedLocalFields(ls)),
                Impl(Single(ps[0].ty), Bind([ps[0].name]),
                     NamedBody([Shorthand(ps[0].name)] + NamedLocalInits(ls))))
    case TupleOneDep =>
      // this arm names its parameter `deps`, whatever the declared name
      var ls := input.body.positional;
      Expansion(TupleStruct(name, [ps[0].ty] + TupleLocalTypes(ls)),
                Impl(Single(ps[0].ty), Bind(["deps"]), TupleBody([Param("deps")] + TupleLocalArgs(ls))))
    case NamedMultiDep =>
      var ls := input.body.named;
      Expansion(NamedStruct(name, ParamFields(ps) + NamedLocalFields(ls)),
                Impl(Tuple(ParamTypes(ps)), Bind(ParamNames(ps)),
                     NamedBody(ParamShorthands(ps) + NamedLocalInits(ls))))
    case TupleMultiDep =>
      var ls := input.body.positional;
      Expansion(TupleStruct(name, ParamTypes(ps) + TupleLocalTypes(ls)),
                Impl(Tuple(ParamTypes(ps)), Bind(ParamNames(ps)),
                     TupleBody(ParamArgs(ps) + TupleLocalArgs(ls))))
  }

  /** `injectable!(..)`. */
  function Expand(input: MacroInput): (r: Result<Expansion, MacroError>)
    ensures r.Success? ==> WellFormedImpl(r.value.impl)
    ensures r.Success? ==> match input.body
                           case UnitForm => r.value.decl.UnitStruct? && r.value.impl.body.UnitBody?
                           case NamedForm(_) => r.value.decl.NamedStruct? && r.value.impl.body.NamedBody?
                           case TupleForm(_) => r.value.decl.TupleStruct? && r.value.impl.body.TupleBody?
    ensures r.Success? ==> r.value.decl.name == input.name
  {
    match SelectArm(input)
    case None => Failure(NoRuleMatched)
    case Some(arm) => Success(ExpandArm(arm, input))
  }
}

=== FILE: injectable_macro_props.dfy ===
/**
 * Properties of `injectable!`: whichever arm fires, the struct lays out the
 * dependencies first and the local fields after them, `Deps` is the
 * parenthesised list of the parameter types, and `inject` stores each
 * dependency in its field and each local field's expression in its own.
 */
module InjectableMacroProperties {

  import opened Wrappers
  import opened Syntax
  import opened Values
  import opened Generated
  import opened InjectableMacro
  import Container

  /** The pattern of each `macro_rules!` arm, read off its matcher on its
      own: how many parameters it takes, whether a comma may follow the last
      one, and which struct body follows the name. */
  predicate ArmMatches(arm: Arm, input: MacroInput) {
    var n := |input.params|;
    match arm
    // `() => $vis $name`
    case UnitArm => n == 0 && !input.trailingComma && input.body.UnitForm?
    // `() => $vis $name { .. }`
    case NamedNoDep => n == 0 && !input.trailingComma && input.body.NamedForm?
    // `() => $vis $name ( .. )`
    case TupleNoDep => n == 0 && !input.trailingComma && input.body.TupleForm?
    // `($param_name: $param_type) => $vis $name { .. }`
    case NamedOneDep => n == 1 && !input.trailingComma && input.body.NamedForm?
    // `($param_name: $param_type) => $vis $name ( .. )`
    case TupleOneDep => n == 1 && !input.trailingComma && input.body.TupleForm?
    // `($f_param: $f_type, $($r_param: $r_type),+ $(,)?) => $vis $name { .. }`
    case NamedMultiDep => n >= 2 && input.body.NamedForm?
    // `($f_param: $f_param_type, $($r_param: $r_param_type),+) => $vis $name ( .. )`
    case TupleMultiDep => n >= 2 && !input.trailingComma && input.body.TupleForm?
  }

  /** The arms in the order the macro lists them. */
  function ArmOrder(): seq<Arm> {
    [UnitArm, NamedNoDep, TupleNoDep, NamedOneDep, TupleOneDep, NamedMultiDep, TupleMultiDep]
  }

  /** Where an arm sits in the macro. */
  function ArmIndex(arm: Arm): (i: nat)
    ensures i < |ArmOrder()| && ArmOrder()[i] == arm
  {
    match arm
    case UnitArm => 0
    case NamedNoDep => 1
    case TupleNoDep => 2
    case NamedOneDep => 3
    case TupleOneDep => 4
    case NamedMultiDep => 5
    case TupleMultiDep => 6
  }

  /** `macro_rules!` semantics: the first arm, in order, whose pattern
      accepts the input. */
  function FirstMatch(arms: seq<Arm>, input: MacroInput): (r: Option<Arm>)
    ensures r.None? <==> forall i :: 0 <= i < |arms| ==> !ArmMatches(arms[i], input)
    ensures r.Some? ==> exists i :: 0 <= i < |arms| && arms[i] == r.value && ArmMatches(arms[i], input)
                                    && forall j :: 0 <= j < i ==> !ArmMatches(arms[j], input)
  {
    if arms == [] then None
    else if ArmMatches(arms[0], input) then Some(arms[0])
    else
      var r := FirstMatch(arms[1..], input);
      assert forall i :: 1 <= i < |arms| ==> arms[i] == arms[1..][i - 1];
      if r.Some? then
        var i :| 0 <= i < |arms[1..]| && arms[1..][i] == r.value && ArmMatches(arms[1..][i], input)
                 && forall j :: 0 <= j < i ==> !ArmMatches(arms[1..][j], input);
        assert arms[i + 1] == r.value;
        r
      else r
  }

  /** The arms' patterns are disjoint: no input is accepted by two arms. */
  lemma ArmsDisjoint(a1: Arm, a2: Arm, input: MacroInput)
    requires ArmMatches(a1, input) && ArmMatches(a2, input)
    ensures a1 == a2
  {
  }

  /** `SelectArm` is the macro's first-match rule: it returns the first arm,
      in source order, whose pattern accepts the input, and nothing when no
      arm does. */
  lemma SelectArmIsFirstMatch(input: MacroInput)
    ensures SelectArm(input) == FirstMatch(ArmOrder(), input)
  {
    var arms := ArmOrder();
    var r := FirstMatch(arms, input);
    match SelectArm(input)
    case None =>
      forall i | 0 <= i < |arms|
        ensures !ArmMatches(arms[i], input)
      {
      }
    case Some(a) =>
      assert ArmMatches(a, input);
      assert a in arms;
      assert r.Some?;
      ArmsDisjoint(a, r.value, input);
  }

  /** The macro accepts an input exactly when some arm's pattern does; in
      closed form, unless a unit form has parameters or a trailing comma
      follows the parameters where only the named several-dependency arm
      allows one. */
  lemma ExpandAccepts(input: MacroInput)
    ensures Expand(input).Success? <==> exists arm :: ArmMatches(arm, input)
    ensures Expand(input).Success? <==>
              !(input.body.UnitForm? && |input.params| > 0)
              && (!input.trailingComma || (|input.params| >= 2 && input.body.NamedForm?))
  {
    SelectArmIsFirstMatch(input);
    if exists arm :: ArmMatches(arm, input) {
      var arm :| ArmMatches(arm, input);
      var i := ArmIndex(arm);
    }
  }

  /** Layout: the parameters become the first fields, in order, followed by
      the local fields, in order. */
  lemma ExpandLayout(input: MacroInput)
    requires Expand(input).Success?
    ensures var d := Expand(input).value.decl; var ps := input.params;
            match input.body
            case UnitForm => d == UnitStruct(input.name)
            case NamedForm(ls) => d == NamedStruct(input.name, ParamFields(ps) + NamedLocalFields(ls))
            case TupleForm(ls) => d == TupleStruct(input.name, ParamTypes(ps) + TupleLocalTypes(ls))
  {
    var ps := input.params;
    if |ps| == 1 {
      assert ParamFields(ps) == [DeclField(ps[0].name, ps[0].ty)];
      assert ParamTypes(ps) == [ps[0].ty];
    } else if |ps| == 0 {
      assert ParamFields(ps) == [];
      assert ParamTypes(ps) == [];
    }
  }

  /** Body: a struct literal of the parameter shorthands followed by the
      local initialisers, or a constructor call on the dependency arguments
      followed by the local expressions. */
  lemma ExpandBody(input: MacroInput)
    requires Expand(input).Success?
    ensures var b := Expand(input).value.impl.body; var ps := input.params;
            match input.body
            case UnitForm => b == UnitBody
            case NamedForm(ls) => b == NamedBody(ParamShorthands(ps) + NamedLocalInits(ls))
            case TupleForm(ls) => b == TupleBody(DepArgs(input) + TupleLocalArgs(ls))
  {
    var ps := input.params;
    if |ps| == 1 {
      assert ParamShorthands(ps) == [Shorthand(ps[0].name)];
    } else if |ps| == 0 {
      assert ParamShorthands(ps) == [];
      assert ParamArgs(ps) == [];
    }
  }

  /** `Deps` is `()` without parameters, the parameter's own type (not a
      1-tuple) with one, and the tuple of the parameter types in order with
      more; `inject` ignores its argument exactly when there is none. */
  lemma ExpandDeps(input: MacroInput)
    requires Expand(input).Success?
    ensures Expand(input).value.impl.deps == ShapeOf(ParamTypes(input.params))
    ensures Expand(input).value.impl.params.Ignore? <==> input.params == []
  {
  }

  /** A service declared with the macro can be resolved only when it has at
      most `MaxTupleArity` parameters. */
  lemma ExpandResolvable(input: MacroInput)
    requires Expand(input).Success?
    ensures Container.HasResolveImpl(Expand(input).value.impl.deps) <==> |input.params| <= Container.MaxTupleArity
  {
    ExpandDeps(input);
    assert |ParamTypes(input.params)| == |input.params|;
  }

  /** The value `inject` gives the local fields, in order. */
  function NamedLocalValues(ls: seq<NamedLocal>): seq<NamedValue> {
    seq(|ls|, k requires 0 <= k < |ls| => NamedValue(ls[k].name, EvalExpr(ls[k].init)))
  }

  function TupleLocalValues(ls: seq<TupleLocal>): seq<Value> {
    seq(|ls|, k requires 0 <= k < |ls| => EvalExpr(ls[k].init))
  }

  function ParamValues(ps: seq<MacroParam>, vs: seq<Value>): seq<NamedValue>
    requires |ps| == |vs|
  {
    seq(|ps|, k requires 0 <= k < |ps| => NamedValue(ps[k].name, vs[k]))
  }

  /** The names `inject`'s parameter pattern binds, one per dependency. */
  function BoundNames(input: MacroInput): seq<Ident> {
    if SelectArm(input) == Some(TupleOneDep) then ["deps"] else ParamNames(input.params)
  }

  /** The parameter pattern binds dependency `k`'s name to `vs[k]`. */
  lemma ExpandBindings(input: MacroInput, vs: seq<Value>) returns (env: Env)
    requires Expand(input).Success?
    requires |vs| == |input.params|
    requires Distinct(ParamNames(input.params))
    ensures |BoundNames(input)| == |vs|
    ensures Bindings(Expand(input).value.impl.params, ShapeValue(vs)) == Success(env)
    ensures forall k :: 0 <= k < |vs| ==> BoundNames(input)[k] in env && env[BoundNames(input)[k]] == vs[k]
  {
    var e := Expand(input).value;
    var names := BoundNames(input);
    if |vs| == 0 {
      env := map[];
    } else {
      if |vs| == 1 {
        assert ParamNames(input.params) == [input.params[0].name];
      }
      assert e.impl.params == Bind(names);
      BindingsOfShapeValue(names, vs);
      env := Bindings(Bind(names), ShapeValue(vs)).value;
    }
  }

  /** Named form, away from the macro: a struct literal of the parameter
      shorthands and the local initialisers, with each parameter bound to
      its dependency, builds the parameters' values and then the locals'. */
  lemma NamedInjectFromInits(impl: Impl, v: Value, env: Env, ps: seq<MacroParam>, vs: seq<Value>, ls: seq<NamedLocal>)
    requires Bindings(impl.params, v) == Success(env)
    requires impl.body == NamedBody(ParamShorthands(ps) + NamedLocalInits(ls))
    requires |ps| == |vs|
    requires forall k :: 0 <= k < |ps| ==> ps[k].name in env && env[ps[k].name] == vs[k]
    ensures Inject(impl, v) == Success(NamedStructV(ParamValues(ps, vs) + NamedLocalValues(ls)))
  {
    var inits := ParamShorthands(ps) + NamedLocalInits(ls);
    var want := ParamValues(ps, vs) + NamedLocalValues(ls);
    forall k | 0 <= k < |want|
      ensures EvalFieldInit(inits[k], env) == Success(want[k])
    {
      if k >= |ps| {
        assert inits[k] == Explicit(ls[k - |ps|].name, Given(ls[k - |ps|].init));
      } else {
        assert inits[k] == Shorthand(ps[k].name);
      }
    }
    InjectNamedAll(impl, v, env, want);
  }

  lemma ExpandInjectNamed(input: MacroInput, vs: seq<Value>, ls: seq<NamedLocal>)
    requires Expand(input).Success? && input.body == NamedForm(ls)
    requires |vs| == |input.params|
    requires Distinct(ParamNames(input.params))
    ensures Inject(Expand(input).value.impl, ShapeValue(vs))
            == Success(NamedStructV(ParamValues(input.params, vs) + NamedLocalValues(ls)))
  {
    var ps := input.params;
    var env := ExpandBindings(input, vs);
    ExpandBody(input);
    assert BoundNames(input) == ParamNames(ps);
    assert forall k :: 0 <= k < |ps| ==> BoundNames(input)[k] == ps[k].name;
    NamedInjectFromInits(Expand(input).value.impl, ShapeValue(vs), env, ps, vs, ls);
  }

  /** The expressions `inject` passes for the dependencies of a tuple-form struct. */
  function DepArgs(input: MacroInput): seq<Init> {
    if SelectArm(input) == Some(TupleOneDep) then [Param("deps")] else ParamArgs(input.params)
  }

  lemma DepArgsValues(input: MacroInput, vs: seq<Value>, env: Env)
    requires Expand(input).Success? && input.body.TupleForm?
    requires |vs| == |input.params|
    requires |BoundNames(input)| == |vs|
    requires forall k :: 0 <= k < |vs| ==> BoundNames(input)[k] in env && env[BoundNames(input)[k]] == vs[k]
    ensures |DepArgs(input)| == |vs|
    ensures forall k :: 0 <= k < |vs| ==> EvalInit(DepArgs(input)[k], env) == Success(vs[k])
  {
    if SelectArm(input) != Some(TupleOneDep) {
      forall k | 0 <= k < |vs|
        ensures EvalInit(DepArgs(input)[k], env) == Success(vs[k])
      {
        assert DepArgs(input)[k] == Param(BoundNames(input)[k]);
      }
    }
  }

  /** Tuple form, away from the macro: dependency arguments evaluating to
      `vs` followed by the local expressions build `vs` and then the
      locals' values. */
  lemma TupleInjectFromArgs(impl: Impl, v: Value, env: Env, deps: seq<Init>, vs: seq<Value>, ls: seq<TupleLocal>)
    requires Bindings(impl.params, v) == Success(env)
    requires impl.body == TupleBody(deps + TupleLocalArgs(ls))
    requires |deps| == |vs|
    requires forall k :: 0 <= k < |vs| ==> EvalInit(deps[k], env) == Success(vs[k])
    ensures Inject(impl, v) == Success(TupleStructV(vs + TupleLocalValues(ls)))
  {
    var args := deps + TupleLocalArgs(ls);
    var want := vs + TupleLocalValues(ls);
    forall k | 0 <= k < |want|
      ensures EvalInit(args[k], env) == Success(want[k])
    {
      if k < |deps| {
        assert args[k] == deps[k];
      } else {
        assert args[k] == Given(ls[k - |deps|].init);
      }
    }
    InjectTupleAll(impl, v, env, want);
  }

  lemma ExpandInjectTuple(input: MacroInput, vs: seq<Value>, ls: seq<TupleLocal>)
    requires Expand(input).Success? && input.body == TupleForm(ls)
    requires |vs| == |input.params|
    requires Distinct(ParamNames(input.params))
    ensures Inject(Expand(input).value.impl, ShapeValue(vs)) == Success(TupleStructV(vs + TupleLocalValues(ls)))
  {
    var env := ExpandBindings(input, vs);
    DepArgsValues(input, vs, env);
    ExpandBody(input);
    TupleInjectFromArgs(Expand(input).value.impl, ShapeValue(vs), env, DepArgs(input), vs, ls);
  }

  /** Applied to the resolved dependencies `vs` (as `resolve_deps` delivers
      them), `inject` stores `vs[k]` in the field of parameter `k` and each
      local field's expression in its own field, dependencies first. */
  lemma ExpandInject(input: MacroInput, vs: seq<Value>)
    requires Expand(input).Success?
    requires |vs| == |input.params|
    requires Distinct(ParamNames(input.params))
    ensures var r := Inject(Expand(input).value.impl, ShapeValue(vs));
            match input.body
            case UnitForm => r == Success(UnitStructV)
            case NamedForm(ls) => r == Success(NamedStructV(ParamValues(input.params, vs) + NamedLocalValues(ls)))
            case TupleForm(ls) => r == Success(TupleStructV(vs + TupleLocalValues(ls)))
  {
    match input.body
    case UnitForm =>
    case NamedForm(ls) => ExpandInjectNamed(input, vs, ls);
    case TupleForm(ls) => ExpandInjectTuple(input, vs, ls);
  }
}

=== FILE: injectable_struct.dfy ===
/**
 * The `#[derive(Injectable)]` code generator: from a struct declaration
 * whose fields may carry `#[inject(...)]`, an `impl Injectable` whose
 * `Deps` are the types of the unmarked fields, in declaration order, and
 * whose `inject` fills marked fields from their attribute.
 */
module InjectableStruct {

  import opened Wrappers
  import opened Syntax
  import opened SnakeCase
  import opened Values
  import opened Generated

  /** One case per panic of the generator. */
  datatype DeriveError =
    | NotAStruct                   // the input is an enum or a union
    | InjectNotList                // `#[inject]` or `#[inject = ..]`
    | InvalidInjectExpr            // `#[inject(..)]` whose tokens are not an expression
    | MissingFieldIdent            // `unwrap` of the name of a named field
    | UnsupportedInjectFieldType   // a marked tuple field whose type is not a path
    | UnsupportedDepFieldType      // an unmarked tuple field whose type is not a path

  /** The panic message of each error. `InjectNotList` and
      `InvalidInjectExpr` come from `expect`, which panics with
      `"<msg>: <err:?>"`; for those two the string here is the prefix of the
      panic text, before the parser's error. The others are the whole text. */
  function Message(e: DeriveError): string {
    match e
    case NotAStruct => "Injectable can only be derived on structs."
    case InjectNotList => "expected #[inject(...)]"
    case InvalidInjectExpr => "expected valid closure like #[inject(|| expr)]"
    case MissingFieldIdent => "called `Option::unwrap()` on a `None` value"
    case UnsupportedInjectFieldType => "Unsupported type for unnamed inject field"
    case UnsupportedDepFieldType => "Unsupported type format for unnamed DI"
  }

  datatype InjectableStruct = InjectableStruct(ident: Ident, kind: StructKind)

  /** The fields of a struct declaration, in order; none for a unit struct. */
  function DeclaredFields(fields: Fields): seq<Field> {
    match fields
    case NamedFields(fs) => fs
    case UnnamedFields(fs) => fs
    case UnitFields => []
  }

  /** `InjectableStruct::new`: only structs are accepted. */
  function New(input: DeriveInput): (r: Result<InjectableStruct, DeriveError>)
    ensures r.Failure? <==> !input.data.StructData?
    ensures r.Failure? ==> r.error == NotAStruct
    ensures r.Success? ==> r.value.ident == input.ident
    ensures r.Success? ==> FieldList(r.value) == DeclaredFields(input.data.fields)
    ensures r.Success? ==> (r.value.kind.Named? <==> input.data.fields.NamedFields?)
    ensures r.Success? ==> (r.value.kind.Unit? <==> input.data.fields.UnitFields?)
  {
    match input.data
    case StructData(fields) =>
      var kind := match fields
        case NamedFields(fs) => Named(fs)
        case UnnamedFields(fs) => Unnamed(fs)
        case UnitFields => Unit;
      Success(InjectableStruct(input.ident, kind))
    case _ => Failure(NotAStruct)
  }

  /** `fields()`. */
  function FieldList(s: InjectableStruct): seq<Field> {
    match s.kind
    case Named(fs) => fs
    case Unnamed(fs) => fs
    case Unit => []
  }

  /** The first attribute whose path is the identifier `inject`. */
  function FindInject(attrs: seq<Attribute>): Option<Attribute> {
    if attrs == [] then None
    else if IsIdent(attrs[0].path, "inject") then Some(attrs[0])
    else FindInject(attrs[1..])
  }

  /** `FindInject` finds nothing exactly when no attribute is `inject`, and
      otherwise the first one. */
  lemma {:induction false} FindInjectFindsFirst(attrs: seq<Attribute>)
    ensures FindInject(attrs).None? <==> forall k :: 0 <= k < |attrs| ==> !IsIdent(attrs[k].path, "inject")
    ensures FindInject(attrs).Some? ==>
              exists k :: 0 <= k < |attrs| && attrs[k] == FindInject(attrs).value && IsIdent(attrs[k].path, "inject")
                          && forall j :: 0 <= j < k ==> !IsIdent(attrs[j].path, "inject")
  {
    if attrs != [] && !IsIdent(attrs[0].path, "inject") {
      FindInjectFindsFirst(attrs[1..]);
      assert forall k :: 1 <= k < |attrs| ==> attrs[k] == attrs[1..][k - 1];
      if FindInject(attrs).Some? {
        var k :| 0 <= k < |attrs[1..]| && attrs[1..][k] == FindInject(attrs).value && IsIdent(attrs[1..][k].path, "inject")
                 && forall j :: 0 <= j < k ==> !IsIdent(attrs[1..][j].path, "inject");
        assert attrs[k + 1] == attrs[1..][k];
      }
    }
  }

  /** A field is computed locally exactly when it carries `#[inject(...)]`. */
  predicate IsLocal(f: Field) {
    FindInject(f.attrs).Some?
  }

  /** The expression of an `inject` attribute; `parse_args` and the
      `require_list` + `parse2` fallback accept the same inputs: a list whose
      tokens form an expression. */
  function InjectExpr(a: Attribute): (r: Result<Expr, DeriveError>)
    ensures r.Success? <==> a.meta.ListMeta? && a.meta.tokens.ExprTokens?
    ensures r.Success? ==> r.value == a.meta.tokens.expr
    ensures r.Failure? && !a.meta.ListMeta? ==> r.error == InjectNotList
    ensures r.Failure? && a.meta.ListMeta? ==> r.error == InvalidInjectExpr
  {
    match a.meta
    case ListMeta(ExprTokens(e)) => Success(e)
    case ListMeta(Unparsable) => Failure(InvalidInjectExpr)
    case _ => Failure(InjectNotList)
  }

  /** The value of a locally computed field: once parentheses are stripped,
      a closure is called and anything else yields the default value. */
  function FactoryInit(e: Expr): (r: Init)
    ensures r.CallClosure? || r.DefaultCall?
  {
    match StripParens(e)
    case Closure(body) => CallClosure(body)
    case _ => DefaultCall
  }

  /** Any number of enclosing parentheses leaves the factory unchanged: a
      closure under them is called, and any other expression under them
      becomes `Default::default()`. Since every expression is some
      parentheses around a non-parenthesised core (`ParenDepth`), this
      decides the factory of every expression. */
  lemma FactoryInitIgnoresParens(n: nat, e: Expr)
    ensures FactoryInit(Parens(n, e)) == FactoryInit(e)
    ensures FactoryInit(Parens(n, Closure(e))) == CallClosure(e)
    ensures !e.Paren? && !e.Closure? ==> FactoryInit(Parens(n, e)) == DefaultCall
  {
    StripParensOfParens(n, e);
    StripParensOfParens(n, Closure(e));
  }

  /** How a field is named in the generated code: by its own name in a
      named struct, by the snake case of its type's last path segment in a
      tuple struct. */
  datatype Naming = ByFieldName | ByTypeName

  function NamingOf(kind: StructKind): Naming {
    if kind.Named? then ByFieldName else ByTypeName
  }

  /** The name a field gets; `nonPath` is the panic for a tuple field whose
      type is not a path. */
  function FieldName(naming: Naming, f: Field, nonPath: DeriveError): (r: Result<Ident, DeriveError>)
    ensures naming.ByFieldName? ==> (r.Success? <==> f.ident.Some?)
    ensures naming.ByFieldName? && r.Success? ==> r.value == f.ident.value
    ensures naming.ByFieldName? && r.Failure? ==> r.error == MissingFieldIdent
    ensures naming.ByTypeName? ==> (r.Success? <==> f.ty.PathTy?)
    ensures naming.ByTypeName? && r.Success? ==> r.value == ToSnakeCase(f.ty.last)
    ensures naming.ByTypeName? && r.Failure? ==> r.error == nonPath
  {
    match naming
    case ByFieldName => if f.ident.Some? then Success(f.ident.value) else Failure(MissingFieldIdent)
    case ByTypeName => if f.ty.PathTy? then Success(ToSnakeCase(f.ty.last)) else Failure(nonPath)
  }

  /** What one loop iteration of `parse_dependencies` contributes. */
  datatype FieldPart = DepPart(ty: Ty, name: Ident) | LocalPart(name: Ident, init: Init)

  /** One iteration of the loop of `parse_dependencies`: the attribute's
      expression is checked before the field's name. */
  function ParseField(naming: Naming, f: Field): (r: Result<FieldPart, DeriveError>)
    ensures r.Success? ==> (r.value.DepPart? <==> !IsLocal(f))
    ensures r.Success? && r.value.DepPart? ==> r.value.ty == f.ty
    ensures r.Success? ==> FieldName(naming, f, UnsupportedDepFieldType) == Success(r.value.name)
    ensures naming.ByTypeName? && !f.ty.PathTy? ==> r.Failure?
    ensures !IsLocal(f) ==> (r.Success? <==> FieldName(naming, f, UnsupportedDepFieldType).Success?)
    ensures IsLocal(f) ==> (r.Success? <==> InjectExpr(FindInject(f.attrs).value).Success?
                                             && FieldName(naming, f, UnsupportedInjectFieldType).Success?)
    ensures IsLocal(f) && r.Success? ==> r.value.init == FactoryInit(InjectExpr(FindInject(f.attrs).value).value)
  {
    match FindInject(f.attrs)
    case Some(attr) =>
      var e :- InjectExpr(attr);
      var name :- FieldName(naming, f, UnsupportedInjectFieldType);
      Success(LocalPart(name, FactoryInit(e)))
    case None =>
      var name :- FieldName(naming, f, UnsupportedDepFieldType);
      Success(DepPart(f.ty, name))
  }

  /** The loop of `parse_dependencies`, pushing one part per field; the
      first field that panics decides the error. */
  function ParseFields(naming: Naming, fs: seq<Field>): (r: Result<seq<FieldPart>, DeriveError>)
    ensures r.Success? <==> forall i :: 0 <= i < |fs| ==> ParseField(naming, fs[i]).Success?
    ensures r.Success? ==> |r.value| == |fs|
    ensures r.Success? ==> forall i :: 0 <= i < |fs| ==> ParseField(naming, fs[i]) == Success(r.value[i])
    ensures r.Failure? ==> exists i :: 0 <= i < |fs| && ParseField(naming, fs[i]) == Failure(r.error)
                                       && forall j :: 0 <= j < i ==> ParseField(naming, fs[j]).Success?
  {
    if |fs| == 0 then Success([])
    else
      var prefix := fs[..|fs| - 1];
      assert forall i :: 0 <= i < |prefix| ==> prefix[i] == fs[i];
      var rest :- ParseFields(naming, prefix);
      var part :- ParseField(naming, fs[|fs| - 1]);
      Success(rest + [part])
  }

  /** The parts that came from unmarked (`dep == true`) or marked fields, in order. */
  function Select(parts: seq<FieldPart>, dep: bool): (r: seq<FieldPart>)
    ensures forall k :: 0 <= k < |r| ==> r[k].DepPart? == dep
  {
    if parts == [] then []
    else (if parts[0].DepPart? == dep then [parts[0]] else []) + Select(parts[1..], dep)
  }

  /** The four vectors `parse_dependencies` returns. */
  datatype Parsed = Parsed(depTypes: seq<Ty>, depTokens: seq<Ident>, factoryTokens: seq<FieldInit>, factoryExprs: seq<Init>)

  function Split(parts: seq<FieldPart>): Parsed {
    var deps := Select(parts, true);
    var locals := Select(parts, false);
    Parsed(seq(|deps|, k requires 0 <= k < |deps| => deps[k].ty),
           seq(|deps|, k requires 0 <= k < |deps| => deps[k].name),
           seq(|locals|, k requires 0 <= k < |locals| => Explicit(locals[k].name, locals[k].init)),
           seq(|locals|, k requires 0 <= k < |locals| => locals[k].init))
  }

  /** `parse_dependencies`. */
  function ParseDependencies(s: InjectableStruct): Result<Parsed, DeriveError> {
    var parts :- ParseFields(NamingOf(s.kind), FieldList(s));
    Success(Split(parts))
  }

  /** The parameter of `inject`: `_` without dependencies, otherwise the
      dependency names in parentheses. */
  function InjectParams(depTokens: seq<Ident>): (p: Pattern)
    ensures p.Ignore? <==> depTokens == []
    ensures p.Bind? ==> p.names == depTokens
  {
    if depTokens == [] then Ignore else Bind(depTokens)
  }

  /** The dependency names as struct-literal shorthands (`name`). */
  function ShorthandInits(names: seq<Ident>): seq<FieldInit> {
    seq(|names|, k requires 0 <= k < |names| => Shorthand(names[k]))
  }

  /** The dependency names as constructor arguments. */
  function NameArgs(names: seq<Ident>): seq<Init> {
    seq(|names|, k requires 0 <= k < |names| => Param(names[k]))
  }

  /** `into_token_stream`, as written: a tuple struct's constructor takes
      all dependency names first and all local values after them. */
  function IntoTokenStream(s: InjectableStruct): (r: Result<Impl, DeriveError>)
    ensures r.Success? <==> forall i :: 0 <= i < |FieldList(s)| ==> ParseField(NamingOf(s.kind), FieldList(s)[i]).Success?
    ensures r.Success? ==> WellFormedImpl(r.value) && BodyFitsKind(s.kind, r.value.body)
  {
    var p :- ParseDependencies(s);
    var params := InjectParams(p.depTokens);
    match s.kind
    case Named(_) =>
      Success(Impl(ShapeOf(p.depTypes), params,
                   NamedBody(ShorthandInits(p.depTokens) + p.factoryTokens)))
    case Unnamed(_) =>
      Success(Impl(ShapeOf(p.depTypes), params,
                   TupleBody(NameArgs(p.depTokens) + p.factoryExprs)))
    case Unit => Success(Impl(NoDeps, Ignore, UnitBody))
  }

  /** The constructor follows the declaration: a struct literal for a named
      struct, a call for a tuple struct, `Self` for a unit struct. */
  predicate BodyFitsKind(kind: StructKind, body: Body) {
    match kind
    case Named(_) => body.NamedBody?
    case Unnamed(_) => body.TupleBody?
    case Unit => body.UnitBody?
  }

  /** The derive: `new` followed by `into_token_stream`. */
  function Derive(input: DeriveInput): (r: Result<Impl, DeriveError>)
    ensures r.Success? ==> input.data.StructData? && WellFormedImpl(r.value)
    ensures r.Success? ==> (r.value.body.NamedBody? <==> input.data.fields.NamedFields?)
                           && (r.value.body.UnitBody? <==> input.data.fields.UnitFields?)
  {
    var s :- New(input);
    IntoTokenStream(s)
  }

  /** The constructor argument for one field of a tuple struct, in its
      declared position. */
  function ArgOf(part: FieldPart): Init {
    match part
    case DepPart(_, name) => Param(name)
    case LocalPart(_, init) => init
  }

  /** The constructor arguments in declaration order. */
  function ArgsOf(parts: seq<FieldPart>): seq<Init> {
    seq(|parts|, i requires 0 <= i < |parts| => ArgOf(parts[i]))
  }

  /** `into_token_stream` with the tuple constructor's arguments in
      declaration order; otherwise identical to `IntoTokenStream`. */
  function IntoTokenStreamInOrder(s: InjectableStruct): (r: Result<Impl, DeriveError>)
    ensures r.Success? ==> WellFormedImpl(r.value) && BodyFitsKind(s.kind, r.value.body)
  {
    var parts :- ParseFields(NamingOf(s.kind), FieldList(s));
    var p := Split(parts);
    if s.kind.Unnamed? then
      Success(Impl(ShapeOf(p.depTypes), InjectParams(p.depTokens),
                   TupleBody(ArgsOf(parts))))
    else IntoTokenStream(s)
  }

  function DeriveInOrder(input: DeriveInput): (r: Result<Impl, DeriveError>)
    ensures r.Success? ==> input.data.StructData? && WellFormedImpl(r.value)
    ensures r.Success? ==> (r.value.body.NamedBody? <==> input.data.fields.NamedFields?)
                           && (r.value.body.UnitBody? <==> input.data.fields.UnitFields?)
  {
    var s :- New(input);
    IntoTokenStreamInOrder(s)
  }
}

=== FILE: injectable_struct_props.dfy ===
/**
 * Properties of the `Injectable` derive: which fields become dependencies,
 * how they are named, what `inject` builds, and when the derive panics.
 */
module InjectableStructProperties {

  import opened Wrappers
  import opened Syntax
  import opened SnakeCase
  import opened Values
  import opened Generated
  import opened InjectableStruct

  /** The positions `i >= from` of the unmarked (`dep`) or marked
      (`!dep`) fields: each such position exactly once, ascending. */
  function FieldIndices(fs: seq<Field>, dep: bool, from: nat): (r: seq<nat>)
    requires from <= |fs|
    decreases |fs| - from
    ensures forall k :: 0 <= k < |r| ==> from <= r[k] < |fs| && !IsLocal(fs[r[k]]) == dep
  {
    if from == |fs| then []
    else (if !IsLocal(fs[from]) == dep then [from] else []) + FieldIndices(fs, dep, from + 1)
  }

  /** The positions are listed in ascending order, so each at most once. */
  lemma {:induction false} FieldIndicesAscending(fs: seq<Field>, dep: bool, from: nat)
    requires from <= |fs|
    decreases |fs| - from
    ensures forall k, l :: 0 <= k < l < |FieldIndices(fs, dep, from)| ==>
              FieldIndices(fs, dep, from)[k] < FieldIndices(fs, dep, from)[l]
  {
    if from < |fs| {
      var r := FieldIndices(fs, dep, from);
      var rest := FieldIndices(fs, dep, from + 1);
      FieldIndicesAscending(fs, dep, from + 1);
      var head := if !IsLocal(fs[from]) == dep then [from] else [];
      assert r == head + rest;
      forall k, l | 0 <= k < l < |r|
        ensures r[k] < r[l]
      {
        if k < |head| {
          assert r[l] == rest[l - 1];
        } else {
          assert r[k] == rest[k - |head|] && r[l] == rest[l - |head|];
        }
      }
    }
  }

  /** Completeness: every position `i >= from` of the right kind is listed. */
  lemma {:induction false} FieldIndicesCover(fs: seq<Field>, dep: bool, from: nat, i: nat) returns (k: nat)
    requires from <= i < |fs| && !IsLocal(fs[i]) == dep
    decreases |fs| - from
    ensures k < |FieldIndices(fs, dep, from)| && FieldIndices(fs, dep, from)[k] == i
  {
    var here := !IsLocal(fs[from]) == dep;
    var rest := FieldIndices(fs, dep, from + 1);
    assert FieldIndices(fs, dep, from) == (if here then [from] else []) + rest;
    if i == from {
      k := 0;
    } else {
      var j := FieldIndicesCover(fs, dep, from + 1, i);
      k := if here then j + 1 else j;
    }
  }

  function DepIndices(fs: seq<Field>): seq<nat> {
    FieldIndices(fs, true, 0)
  }

  function LocalIndices(fs: seq<Field>): seq<nat> {
    FieldIndices(fs, false, 0)
  }

  /** The value the derive gives a marked field. */
  function LocalInit(f: Field): Init
    requires IsLocal(f)
  {
    match InjectExpr(FindInject(f.attrs).value)
    case Success(e) => FactoryInit(e)
    case Failure(_) => DefaultCall
  }

  /** A marked field's part carries the field's initialiser. */
  lemma LocalPartInit(naming: Naming, f: Field, part: FieldPart)
    requires ParseField(naming, f) == Success(part)
    requires IsLocal(f)
    ensures part.LocalPart? && part.init == LocalInit(f)
  {
  }

  /** `parts` is what the loop produced for `fs`. */
  predicate Produced(naming: Naming, fs: seq<Field>, parts: seq<FieldPart>) {
    |parts| == |fs| && forall i {:trigger ParseField(naming, fs[i])} :: 0 <= i < |fs| ==> ParseField(naming, fs[i]) == Success(parts[i])
  }

  /** Part `i` is a dependency exactly when field `i` is unmarked. */
  predicate SameKinds(fs: seq<Field>, parts: seq<FieldPart>) {
    |parts| == |fs| && forall i :: 0 <= i < |fs| ==> parts[i].DepPart? == !IsLocal(fs[i])
  }

  lemma ProducedKinds(naming: Naming, fs: seq<Field>, parts: seq<FieldPart>)
    requires Produced(naming, fs, parts)
    ensures SameKinds(fs, parts)
  {
    forall i | 0 <= i < |fs|
      ensures parts[i].DepPart? == !IsLocal(fs[i])
    {
      assert ParseField(naming, fs[i]) == Success(parts[i]);
    }
  }

  /** Selecting dependency (or local) parts picks exactly the parts at the
      dependency (or local) field positions, in order. */
  lemma {:induction false} SelectAtIndices(fs: seq<Field>, parts: seq<FieldPart>, dep: bool, from: nat)
    requires SameKinds(fs, parts)
    requires from <= |fs|
    decreases |fs| - from
    ensures var idx := FieldIndices(fs, dep, from);
            Select(parts[from..], dep) == seq(|idx|, k requires 0 <= k < |idx| => parts[idx[k]])
  {
    var idx := FieldIndices(fs, dep, from);
    if from == |fs| {
      assert parts[from..] == [];
    } else {
      SelectAtIndices(fs, parts, dep, from + 1);
      var rest := FieldIndices(fs, dep, from + 1);
      var tail := seq(|rest|, k requires 0 <= k < |rest| => parts[rest[k]]);
      var here := parts[from..];
      assert here[0] == parts[from] && here[1..] == parts[from + 1..];
      var keep := parts[from].DepPart? == dep;
      assert keep == (!IsLocal(fs[from]) == dep);
      assert Select(here, dep) == (if keep then [parts[from]] else []) + tail;
      assert idx == (if keep then [from] else []) + rest;
      if keep {
        SeqConsIndexed(parts, from, rest);
      }
    }
  }

  /** Indexing `parts` by `[h] + rest` is `parts[h]` followed by indexing by `rest`. */
  lemma SeqConsIndexed(parts: seq<FieldPart>, h: nat, rest: seq<nat>)
    requires h < |parts|
    requires forall k :: 0 <= k < |rest| ==> rest[k] < |parts|
    ensures var idx := [h] + rest;
            seq(|idx|, k requires 0 <= k < |idx| => parts[idx[k]])
            == [parts[h]] + seq(|rest|, k requires 0 <= k < |rest| => parts[rest[k]])
  {
  }

  lemma SelectAtAllIndices(naming: Naming, fs: seq<Field>, parts: seq<FieldPart>, dep: bool)
    requires Produced(naming, fs, parts)
    ensures var idx := FieldIndices(fs, dep, 0);
            Select(parts, dep) == seq(|idx|, k requires 0 <= k < |idx| => parts[idx[k]])
  {
    assert parts[0..] == parts;
    ProducedKinds(naming, fs, parts);
    SelectAtIndices(fs, parts, dep, 0);
  }

  function NamingOfFields(fields: Fields): Naming {
    if fields.NamedFields? then ByFieldName else ByTypeName
  }

  /** Unfolds a successful derive into the parts the field loop produced. */
  lemma DeriveParts(input: DeriveInput) returns (parts: seq<FieldPart>)
    requires Derive(input).Success? || DeriveInOrder(input).Success?
    ensures input.data.StructData?
    ensures Produced(NamingOfFields(input.data.fields), DeclaredFields(input.data.fields), parts)
    ensures ParseFields(NamingOfFields(input.data.fields), DeclaredFields(input.data.fields)) == Success(parts)
  {
    var s := New(input).value;
    assert NamingOf(s.kind) == NamingOfFields(input.data.fields);
    parts := ParseFields(NamingOf(s.kind), FieldList(s)).value;
  }

  /** `Deps` and the parameter pattern of a successful derive, from the
      loop's parts. */
  lemma DeriveHeader(input: DeriveInput, impl: Impl) returns (parts: seq<FieldPart>)
    requires Derive(input) == Success(impl) || DeriveInOrder(input) == Success(impl)
    ensures input.data.StructData?
    ensures Produced(NamingOfFields(input.data.fields), DeclaredFields(input.data.fields), parts)
    ensures impl.deps == ShapeOf(Split(parts).depTypes)
    ensures impl.params == InjectParams(Split(parts).depTokens)
  {
    parts := DeriveParts(input);
    if input.data.fields.UnitFields? {
      assert parts == [];
      assert Select(parts, true) == [];
    }
  }

  /** The dependency part at each dependency position carries the field's
      type and the `k`-th dependency name. */
  lemma DepPartsAtIndices(naming: Naming, fs: seq<Field>, parts: seq<FieldPart>)
    requires Produced(naming, fs, parts)
    ensures var idx := DepIndices(fs); var names := Split(parts).depTokens;
            && |names| == |idx|
            && forall k :: 0 <= k < |idx| ==> parts[idx[k]] == DepPart(fs[idx[k]].ty, names[k])
  {
    var deps := Select(parts, true);
    var idx := DepIndices(fs);
    SelectAtAllIndices(naming, fs, parts, true);
    forall k | 0 <= k < |idx|
      ensures parts[idx[k]] == DepPart(fs[idx[k]].ty, deps[k].name)
    {
      assert deps[k] == parts[idx[k]];
      assert ParseField(naming, fs[idx[k]]) == Success(parts[idx[k]]);
    }
  }

  /** Classification: the `Deps` elements are the types of the fields
      without `#[inject]`, each exactly once and in declaration order
      (`DepIndices` lists precisely those positions, ascending); the shape
      is `()`, the bare type or a tuple of two or more. */
  lemma DeriveDependencies(input: DeriveInput, impl: Impl)
    requires Derive(input) == Success(impl)
    ensures input.data.StructData?
    ensures WellFormedShape(impl.deps)
    ensures var fs := DeclaredFields(input.data.fields); var idx := DepIndices(fs);
            Elements(impl.deps) == seq(|idx|, k requires 0 <= k < |idx| => fs[idx[k]].ty)
  {
    var parts := DeriveHeader(input, impl);
    var fs := DeclaredFields(input.data.fields);
    DepPartsAtIndices(NamingOfFields(input.data.fields), fs, parts);
    var idx := DepIndices(fs);
    var tys := Split(parts).depTypes;
    forall k | 0 <= k < |idx|
      ensures tys[k] == fs[idx[k]].ty
    {
      assert parts[idx[k]] == DepPart(fs[idx[k]].ty, Split(parts).depTokens[k]);
      assert Select(parts, true)[k] == parts[idx[k]] by {
        SelectAtAllIndices(NamingOfFields(input.data.fields), fs, parts, true);
      }
    }
  }

  /** The parameter pattern: `_` exactly when there is no dependency;
      otherwise the dependency names in declaration order (field names in a
      named struct, snake-cased type names in a tuple struct). */
  lemma DeriveParams(input: DeriveInput, impl: Impl)
    requires Derive(input) == Success(impl)
    ensures input.data.StructData?
    ensures var fs := DeclaredFields(input.data.fields); var idx := DepIndices(fs);
            && (impl.params.Ignore? <==> |idx| == 0)
            && (impl.params.Bind? ==>
                  |impl.params.names| == |idx|
                  && forall k :: 0 <= k < |idx| ==>
                       FieldName(NamingOfFields(input.data.fields), fs[idx[k]], UnsupportedDepFieldType)
                       == Success(impl.params.names[k]))
  {
    var parts := DeriveHeader(input, impl);
    var naming := NamingOfFields(input.data.fields);
    var fs := DeclaredFields(input.data.fields);
    DepPartsAtIndices(naming, fs, parts);
    var idx := DepIndices(fs);
    var names := Split(parts).depTokens;
    forall k | 0 <= k < |idx|
      ensures FieldName(naming, fs[idx[k]], UnsupportedDepFieldType) == Success(names[k])
    {
      assert ParseField(naming, fs[idx[k]]) == Success(parts[idx[k]]);
    }
  }

  /** A unit struct: `Deps = ()`, `_` and `Self`. */
  lemma DeriveUnit(ident: Ident)
    ensures Derive(DeriveInput(ident, StructData(UnitFields))) == Success(Impl(NoDeps, Ignore, UnitBody))
  {
  }

  function InitNames(inits: seq<FieldInit>): seq<Ident> {
    seq(|inits|, k requires 0 <= k < |inits| => inits[k].name)
  }

  function PartNames(parts: seq<FieldPart>): seq<Ident> {
    seq(|parts|, k requires 0 <= k < |parts| => parts[k].name)
  }

  /** Dependencies and locals together are all the parts. */
  lemma {:induction false} SelectPartitionsNames(parts: seq<FieldPart>)
    ensures multiset(PartNames(Select(parts, true))) + multiset(PartNames(Select(parts, false)))
            == multiset(PartNames(parts))
  {
    if parts != [] {
      var h := parts[0];
      var t := parts[1..];
      SelectPartitionsNames(t);
      var d := if h.DepPart? then [h] else [];
      var l := if h.DepPart? then [] else [h];
      assert Select(parts, true) == d + Select(t, true);
      assert Select(parts, false) == l + Select(t, false);
      assert parts == [h] + t;
      PartNamesAppend([h], t);
      PartNamesAppend(d, Select(t, true));
      PartNamesAppend(l, Select(t, false));
    }
  }

  lemma PartNamesAppend(a: seq<FieldPart>, b: seq<FieldPart>)
    ensures PartNames(a + b) == PartNames(a) + PartNames(b)
  {
  }

  /** Unfolds a successful derive into the loop's parts and the body
      `into_token_stream` builds from them. */
  lemma DeriveBody(input: DeriveInput, impl: Impl) returns (parts: seq<FieldPart>)
    requires Derive(input) == Success(impl)
    ensures input.data.StructData?
    ensures Produced(NamingOfFields(input.data.fields), DeclaredFields(input.data.fields), parts)
    ensures var p := Split(parts);
            match input.data.fields
            case NamedFields(_) => impl.body == NamedBody(ShorthandInits(p.depTokens) + p.factoryTokens)
            case UnnamedFields(_) => impl.body == TupleBody(NameArgs(p.depTokens) + p.factoryExprs)
            case UnitFields => impl.body == UnitBody
  {
    parts := DeriveParts(input);
  }

  /** The struct literal built from the parts of a named struct. */
  lemma NamedInitsOfParts(fs: seq<Field>, parts: seq<FieldPart>)
    requires Produced(ByFieldName, fs, parts)
    ensures var p := Split(parts); var inits := ShorthandInits(p.depTokens) + p.factoryTokens;
            var idx := DepIndices(fs); var loc := LocalIndices(fs);
            && |inits| == |idx| + |loc|
            && (forall k :: 0 <= k < |idx| ==> fs[idx[k]].ident.Some? && inits[k] == Shorthand(fs[idx[k]].ident.value))
            && (forall k :: 0 <= k < |loc| ==>
                  fs[loc[k]].ident.Some? && inits[|idx| + k] == Explicit(fs[loc[k]].ident.value, LocalInit(fs[loc[k]])))
  {
    NamedDepInits(fs, parts);
    NamedLocalInits(fs, parts);
    NamedInitsJoin(fs, ShorthandInits(Split(parts).depTokens), Split(parts).factoryTokens);
  }

  /** Joins the dependency shorthands and the local initialisers. */
  lemma NamedInitsJoin(fs: seq<Field>, deps: seq<FieldInit>, locals: seq<FieldInit>)
    requires |deps| == |DepIndices(fs)| && |locals| == |LocalIndices(fs)|
    requires forall k :: 0 <= k < |DepIndices(fs)| ==>
               fs[DepIndices(fs)[k]].ident.Some? && deps[k] == Shorthand(fs[DepIndices(fs)[k]].ident.value)
    requires forall k :: 0 <= k < |LocalIndices(fs)| ==>
               fs[LocalIndices(fs)[k]].ident.Some?
               && locals[k] == Explicit(fs[LocalIndices(fs)[k]].ident.value, LocalInit(fs[LocalIndices(fs)[k]]))
    ensures |deps + locals| == |DepIndices(fs)| + |LocalIndices(fs)|
    ensures forall k :: 0 <= k < |DepIndices(fs)| ==>
              fs[DepIndices(fs)[k]].ident.Some? && (deps + locals)[k] == Shorthand(fs[DepIndices(fs)[k]].ident.value)
    ensures forall k :: 0 <= k < |LocalIndices(fs)| ==>
              fs[LocalIndices(fs)[k]].ident.Some?
              && (deps + locals)[|DepIndices(fs)| + k]
                 == Explicit(fs[LocalIndices(fs)[k]].ident.value, LocalInit(fs[LocalIndices(fs)[k]]))
  {
    var idx := DepIndices(fs);
    var loc := LocalIndices(fs);
    var all := deps + locals;
    forall k | 0 <= k < |idx|
      ensures fs[idx[k]].ident.Some? && all[k] == Shorthand(fs[idx[k]].ident.value)
    {
      assert all[k] == deps[k];
    }
    forall k | 0 <= k < |loc|
      ensures fs[loc[k]].ident.Some? && all[|idx| + k] == Explicit(fs[loc[k]].ident.value, LocalInit(fs[loc[k]]))
    {
      assert all[|idx| + k] == locals[k];
    }
  }

  lemma NamedDepInits(fs: seq<Field>, parts: seq<FieldPart>)
    requires Produced(ByFieldName, fs, parts)
    ensures var p := Split(parts); var idx := DepIndices(fs);
            && |p.depTokens| == |idx|
            && forall k :: 0 <= k < |idx| ==>
                 fs[idx[k]].ident.Some? && ShorthandInits(p.depTokens)[k] == Shorthand(fs[idx[k]].ident.value)
  {
    var deps := Select(parts, true);
    var idx := DepIndices(fs);
    SelectAtAllIndices(ByFieldName, fs, parts, true);
    forall k | 0 <= k < |idx|
      ensures fs[idx[k]].ident.Some? && deps[k].name == fs[idx[k]].ident.value
    {
      assert deps[k] == parts[idx[k]];
      NamedPart(fs[idx[k]], deps[k]);
    }
  }

  lemma NamedLocalInits(fs: seq<Field>, parts: seq<FieldPart>)
    requires Produced(ByFieldName, fs, parts)
    ensures var p := Split(parts); var loc := LocalIndices(fs);
            && |p.factoryTokens| == |loc|
            && forall k :: 0 <= k < |loc| ==>
                 fs[loc[k]].ident.Some? && p.factoryTokens[k] == Explicit(fs[loc[k]].ident.value, LocalInit(fs[loc[k]]))
  {
    var locals := Select(parts, false);
    var loc := LocalIndices(fs);
    SelectAtAllIndices(ByFieldName, fs, parts, false);
    forall k | 0 <= k < |loc|
      ensures fs[loc[k]].ident.Some? && locals[k].name == fs[loc[k]].ident.value && locals[k].init == LocalInit(fs[loc[k]])
    {
      assert locals[k] == parts[loc[k]];
      NamedPart(fs[loc[k]], locals[k]);
      LocalPartInit(ByFieldName, fs[loc[k]], locals[k]);
    }
  }

  /** In a named struct a field's part carries the field's own name. */
  lemma NamedPart(f: Field, part: FieldPart)
    requires ParseField(ByFieldName, f) == Success(part)
    ensures f.ident.Some? && part.name == f.ident.value
  {
  }

  /** A named struct: dependencies by shorthand, in order, then marked
      fields as `name: value`, in order. */
  lemma DeriveNamedBody(ident: Ident, fs: seq<Field>, impl: Impl)
    requires Derive(DeriveInput(ident, StructData(NamedFields(fs)))) == Success(impl)
    ensures impl.body.NamedBody?
    ensures var idx := DepIndices(fs); var loc := LocalIndices(fs); var inits := impl.body.inits;
            && |inits| == |idx| + |loc|
            && (forall k :: 0 <= k < |idx| ==> fs[idx[k]].ident.Some? && inits[k] == Shorthand(fs[idx[k]].ident.value))
            && (forall k :: 0 <= k < |loc| ==>
                  fs[loc[k]].ident.Some? && inits[|idx| + k] == Explicit(fs[loc[k]].ident.value, LocalInit(fs[loc[k]])))
  {
    var input := DeriveInput(ident, StructData(NamedFields(fs)));
    var parts := DeriveBody(input, impl);
    assert DeclaredFields(input.data.fields) == fs;
    assert NamingOfFields(input.data.fields) == ByFieldName;
    NamedInitsOfParts(fs, parts);
  }

  /** The names the struct literal initialises are the dependency parts'
      names followed by the local parts' names. */
  lemma InitNamesOfSplit(parts: seq<FieldPart>)
    ensures var p := Split(parts);
            InitNames(ShorthandInits(p.depTokens) + p.factoryTokens)
            == PartNames(Select(parts, true)) + PartNames(Select(parts, false))
  {
  }

  /** In a named struct the parts carry the field names, in order. */
  lemma NamedPartNames(fs: seq<Field>, parts: seq<FieldPart>)
    requires Produced(ByFieldName, fs, parts)
    ensures forall i :: 0 <= i < |fs| ==> fs[i].ident.Some?
    ensures PartNames(parts) == seq(|fs|, i requires 0 <= i < |fs| && fs[i].ident.Some? => fs[i].ident.value)
  {
    forall i | 0 <= i < |fs|
      ensures fs[i].ident.Some? && parts[i].name == fs[i].ident.value
    {
      NamedPart(fs[i], parts[i]);
    }
  }

  /** A named struct initialises every field exactly once, under its own name. */
  lemma DeriveNamedInitialisesEachFieldOnce(ident: Ident, fs: seq<Field>, impl: Impl)
    requires Derive(DeriveInput(ident, StructData(NamedFields(fs)))) == Success(impl)
    ensures forall i :: 0 <= i < |fs| ==> fs[i].ident.Some?
    ensures impl.body.NamedBody?
    ensures multiset(InitNames(impl.body.inits))
            == multiset(seq(|fs|, i requires 0 <= i < |fs| && fs[i].ident.Some? => fs[i].ident.value))
  {
    var input := DeriveInput(ident, StructData(NamedFields(fs)));
    var parts := DeriveBody(input, impl);
    assert DeclaredFields(input.data.fields) == fs;
    assert NamingOfFields(input.data.fields) == ByFieldName;
    InitNamesOfSplit(parts);
    SelectPartitionsNames(parts);
    NamedPartNames(fs, parts);
  }

  /** The constructor arguments built from the parts of a tuple struct. */
  lemma TupleArgsOfParts(fs: seq<Field>, parts: seq<FieldPart>)
    requires Produced(ByTypeName, fs, parts)
    ensures forall i :: 0 <= i < |fs| ==> fs[i].ty.PathTy?
    ensures var p := Split(parts); var args := NameArgs(p.depTokens) + p.factoryExprs;
            var idx := DepIndices(fs); var loc := LocalIndices(fs);
            && |args| == |idx| + |loc|
            && (forall k :: 0 <= k < |idx| ==> args[k] == Param(ToSnakeCase(fs[idx[k]].ty.last)))
            && (forall k :: 0 <= k < |loc| ==> args[|idx| + k] == LocalInit(fs[loc[k]]))
  {
    var p := Split(parts);
    var deps := Select(parts, true);
    var locals := Select(parts, false);
    var idx := DepIndices(fs);
    var loc := LocalIndices(fs);
    SelectAtAllIndices(ByTypeName, fs, parts, true);
    SelectAtAllIndices(ByTypeName, fs, parts, false);
    forall i | 0 <= i < |fs|
      ensures fs[i].ty.PathTy?
    {
      assert ParseField(ByTypeName, fs[i]) == Success(parts[i]);
    }
    var args := NameArgs(p.depTokens) + p.factoryExprs;
    forall k | 0 <= k < |idx|
      ensures args[k] == Param(ToSnakeCase(fs[idx[k]].ty.last))
    {
      assert deps[k] == parts[idx[k]];
      assert ParseField(ByTypeName, fs[idx[k]]) == Success(parts[idx[k]]);
      assert args[k] == Param(p.depTokens[k]);
    }
    forall k | 0 <= k < |loc|
      ensures args[|idx| + k] == LocalInit(fs[loc[k]])
    {
      assert locals[k] == parts[loc[k]];
      LocalPartInit(ByTypeName, fs[loc[k]], locals[k]);
      assert args[|idx| + k] == p.factoryExprs[k];
    }
  }

  /** A tuple struct, as written: the dependency names in order, then the
      local values in order, wherever the marked fields were declared. */
  lemma DeriveTupleBody(ident: Ident, fs: seq<Field>, impl: Impl)
    requires Derive(DeriveInput(ident, StructData(UnnamedFields(fs)))) == Success(impl)
    ensures forall i :: 0 <= i < |fs| ==> fs[i].ty.PathTy?
    ensures impl.body.TupleBody?
    ensures var idx := DepIndices(fs); var loc := LocalIndices(fs); var args := impl.body.args;
            && |args| == |idx| + |loc|
            && (forall k :: 0 <= k < |idx| ==> args[k] == Param(ToSnakeCase(fs[idx[k]].ty.last)))
            && (forall k :: 0 <= k < |loc| ==> args[|idx| + k] == LocalInit(fs[loc[k]]))
  {
    var input := DeriveInput(ident, StructData(UnnamedFields(fs)));
    var parts := DeriveBody(input, impl);
    assert DeclaredFields(input.data.fields) == fs;
    assert NamingOfFields(input.data.fields) == ByTypeName;
    TupleArgsOfParts(fs, parts);
  }

  /** A tuple struct, corrected: argument `i` is field `i`'s value. */
  lemma DeriveInOrderTupleBody(ident: Ident, fs: seq<Field>, impl: Impl)
    requires DeriveInOrder(DeriveInput(ident, StructData(UnnamedFields(fs)))) == Success(impl)
    ensures impl.body.TupleBody?
    ensures |impl.body.args| == |fs|
    ensures forall i :: 0 <= i < |fs| ==>
              impl.body.args[i] == if IsLocal(fs[i]) then LocalInit(fs[i]) else Param(ToSnakeCase(fs[i].ty.last))
  {
    var input := DeriveInput(ident, StructData(UnnamedFields(fs)));
    var parts := DeriveParts(input);
  }

  /** The correction changes nothing but the tuple constructor. */
  lemma DeriveInOrderAgrees(input: DeriveInput)
    ensures DeriveInOrder(input).Success? <==> Derive(input).Success?
    ensures DeriveInOrder(input).Failure? ==> DeriveInOrder(input).error == Derive(input).error
    ensures DeriveInOrder(input).Success? ==>
              && DeriveInOrder(input).value.deps == Derive(input).value.deps
              && DeriveInOrder(input).value.params == Derive(input).value.params
    ensures DeriveInOrder(input).Success? && !input.data.fields.UnnamedFields? ==>
              DeriveInOrder(input) == Derive(input)
  {
  }

  /** Only structs are accepted, and every other failure is a field's panic. */
  lemma DeriveRejectsExactlyNonStructs(input: DeriveInput)
    ensures Derive(input) == Failure(NotAStruct) <==> !input.data.StructData?
  {
    if input.data.StructData? && Derive(input).Failure? {
      var naming := NamingOfFields(input.data.fields);
      var fs := DeclaredFields(input.data.fields);
      var s := New(input).value;
      assert NamingOf(s.kind) == naming;
      var i :| 0 <= i < |fs| && ParseField(naming, fs[i]) == Failure(Derive(input).error);
      ParseFieldNeverNotAStruct(naming, fs[i]);
    }
  }

  lemma ParseFieldNeverNotAStruct(naming: Naming, f: Field)
    ensures ParseField(naming, f) != Failure(NotAStruct)
  {
  }

  /** A struct is rejected exactly when one of its fields panics, and the
      first such field decides the message. */
  lemma DeriveFailsOnFirstBadField(input: DeriveInput)
    requires input.data.StructData?
    ensures var naming := NamingOfFields(input.data.fields); var fs := DeclaredFields(input.data.fields);
            && (Derive(input).Failure? <==> exists i :: 0 <= i < |fs| && ParseField(naming, fs[i]).Failure?)
            && (Derive(input).Failure? ==>
                  exists i :: 0 <= i < |fs| && ParseField(naming, fs[i]) == Failure(Derive(input).error)
                              && forall j :: 0 <= j < i ==> ParseField(naming, fs[j]).Success?)
  {
    var s := New(input).value;
    assert NamingOf(s.kind) == NamingOfFields(input.data.fields);
  }

  /** The panic a failing field raises. A marked field's attribute is
      checked before its name, so a malformed attribute decides the message
      whatever the field's type; only then does a marked positional field of
      non-path type panic with the inject message, while an unmarked one
      panics with the dependency message. */
  lemma ParseFieldErrors(naming: Naming, f: Field)
    ensures IsLocal(f) && InjectExpr(FindInject(f.attrs).value).Failure? ==>
              ParseField(naming, f) == Failure(InjectExpr(FindInject(f.attrs).value).error)
    ensures IsLocal(f) && InjectExpr(FindInject(f.attrs).value).Success? && naming.ByTypeName? && !f.ty.PathTy? ==>
              ParseField(naming, f) == Failure(UnsupportedInjectFieldType)
    ensures IsLocal(f) && InjectExpr(FindInject(f.attrs).value).Success? && naming.ByFieldName? && f.ident.None? ==>
              ParseField(naming, f) == Failure(MissingFieldIdent)
    ensures !IsLocal(f) && naming.ByTypeName? && !f.ty.PathTy? ==>
              ParseField(naming, f) == Failure(UnsupportedDepFieldType)
    ensures !IsLocal(f) && naming.ByFieldName? && f.ident.None? ==>
              ParseField(naming, f) == Failure(MissingFieldIdent)
  {
  }

  /** The panic of a single-field tuple struct is its field's panic. */
  lemma SingleFieldDeriveError(ident: Ident, f: Field)
    ensures var r := Derive(DeriveInput(ident, StructData(UnnamedFields([f]))));
            && (r.Failure? <==> ParseField(ByTypeName, f).Failure?)
            && (r.Failure? ==> r.error == ParseField(ByTypeName, f).error)
  {
    var input := DeriveInput(ident, StructData(UnnamedFields([f])));
    assert DeclaredFields(input.data.fields) == [f];
    DeriveFailsOnFirstBadField(input);
  }

  /** A tuple-struct field whose type is not a path makes the derive panic,
      marked or not. */
  lemma TupleFieldNeedsPathType(ident: Ident, fs: seq<Field>, i: nat)
    requires i < |fs| && !fs[i].ty.PathTy?
    ensures Derive(DeriveInput(ident, StructData(UnnamedFields(fs)))).Failure?
  {
    DeriveFailsOnFirstBadField(DeriveInput(ident, StructData(UnnamedFields(fs))));
  }

  /** `attr.parse_args()`: the attribute must be a list, and its tokens are
      parsed as an expression. */
  function ParseArgs(a: Attribute): Option<Expr> {
    if a.meta.ListMeta? && a.meta.tokens.ExprTokens? then Some(a.meta.tokens.expr) else None
  }

  /** `attr.meta.require_list()`: the tokens of a list attribute. */
  function RequireList(a: Attribute): Option<Tokens> {
    if a.meta.ListMeta? then Some(a.meta.tokens) else None
  }

  /** `syn::parse2(tokens)` at type `Expr`. */
  function Parse2(t: Tokens): Option<Expr> {
    if t.ExprTokens? then Some(t.expr) else None
  }

  /** The attribute's expression as the loop obtains it: `parse_args`, and
      on its failure `require_list` (panicking with `InjectNotList`)
      followed by `parse2` (panicking with `InvalidInjectExpr`). */
  function InjectExprChain(a: Attribute): Result<Expr, DeriveError> {
    match ParseArgs(a)
    case Some(e) => Success(e)
    case None =>
      match RequireList(a)
      case None => Failure(InjectNotList)
      case Some(tokens) =>
        match Parse2(tokens)
        case Some(e) => Success(e)
        case None => Failure(InvalidInjectExpr)
  }

  /** The single-step `InjectExpr` used by the derive agrees with the
      fallback chain on every attribute: the fallback can only ever fail,
      and it fails with the message matching the attribute's shape. */
  lemma InjectExprIsFallbackChain(a: Attribute)
    ensures InjectExpr(a) == InjectExprChain(a)
    ensures ParseArgs(a).None? && InjectExprChain(a).Success? ==> false
  {
  }

  /** A tuple struct's dependency name loses nothing for a type name
      without underscores: the type's last path segment is recovered from
      the generated name and the case of its first letter. */
  lemma TupleFieldNameRecoversType(f: Field, nonPath: DeriveError)
    requires f.ty.PathTy?
    requires forall k :: 0 <= k < |f.ty.last| ==> f.ty.last[k] != '_'
    ensures FieldName(ByTypeName, f, nonPath).Success?
    ensures FromSnakeCase(FieldName(ByTypeName, f, nonPath).value,
                          f.ty.last != [] && IsUppercase(f.ty.last[0])) == f.ty.last
  {
    SnakeCaseRoundTrip(f.ty.last);
  }
}

=== FILE: scenarios.dfy ===
/**
 * The scenarios of the `Injectable` trait tests and of the derive, worked
 * through the model: a two-level chain resolved through a real container,
 * the five `injectable!` services, and the tuple-struct derive whose
 * arguments come out in the wrong order.
 */
module Scenarios {

  import opened Wrappers
  import opened Syntax
  import opened Values
  import opened Generated
  import opened Container
  import opened ContainerProperties
  import opened InjectableMacro
  import opened InjectableMacroProperties
  import InjectableStruct
  import opened InjectableStructProperties
  import SnakeCase
  import DeriveSemantics

  function TypeNamed(name: Ident): Ty {
    PathTy([], name, [])
  }

  /** `struct Dummy2(i32)` whose `inject` ignores `()` and yields `Dummy2(10)`. */
  function Dummy2Decl<W>(): Decl<W> {
    Decl(NoDeps, (v: Value, w: W) => (TupleStructV([IntV(10)]), w))
  }

  /** `struct Dummy(Dummy2)` whose `inject` wraps its dependency. */
  function DummyDecl<W>(): Decl<W> {
    Decl(Single(TypeNamed("Dummy2")), (v: Value, w: W) => (TupleStructV([v]), w))
  }

  function DummyGraph<W>(): Graph<W> {
    map[TypeNamed("Dummy") := DummyDecl(), TypeNamed("Dummy2") := Dummy2Decl()]
  }

  function DummyRank(): map<Ty, nat> {
    map[TypeNamed("Dummy") := 1, TypeNamed("Dummy2") := 0]
  }

  /** The chain is accepted, and `container.resolve::<Dummy>().0.0 == 10`. */
  lemma ResolvesDummyThroughContainer<W>(w: W)
    ensures Ranked(DummyGraph<W>(), DummyRank())
    ensures Resolve(New(), DummyGraph<W>(), DummyRank(), TypeNamed("Dummy"), w)
            == (TupleStructV([TupleStructV([IntV(10)])]), w)
  {
    var g := DummyGraph<W>();
    assert Elements(g[TypeNamed("Dummy")].deps) == [TypeNamed("Dummy2")];
    assert Ranked(g, DummyRank());
  }

  function I32(): Ty {
    TypeNamed("i32")
  }

  /** The derive test's `TestService`, whose `Deps = (i32)` has no impl
      because `i32` is not `Injectable`. */
  function TestServiceDecl<W>(): Decl<W> {
    Decl(Single(I32()), (v: Value, w: W) => (NamedStructV([NamedValue("a", v)]), w))
  }

  /** An unresolvable implementation elsewhere in scope does not stop
      `resolve::<Dummy>()`: only what `Dummy` reaches must resolve. */
  lemma ResolvesDummyBesideUnresolvable<W>(w: W)
    ensures var g := DummyGraph<W>()[TypeNamed("TestService") := TestServiceDecl()];
            && Ranked(g, DummyRank())
            && Resolve(New(), g, DummyRank(), TypeNamed("Dummy"), w)
               == (TupleStructV([TupleStructV([IntV(10)])]), w)
  {
    var g := DummyGraph<W>()[TypeNamed("TestService") := TestServiceDecl()];
    ResolvesDummyThroughContainer(w);
    ResolveReadsOnlyRanked(New(), DummyGraph<W>(), g, DummyRank(), TypeNamed("Dummy"), w);
  }

  function Dummy2Of(n: int): Value {
    TupleStructV([IntV(n)])
  }

  /** `injectable!(() => NoDepWithField { a: i32 = 5 })`: `inject(())` sets `a` to 5. */
  lemma NoDepWithFieldInjects()
    ensures var input := MacroInput([], false, "NoDepWithField", NamedForm([NamedLocal("a", I32(), Lit(5))]));
            && Expand(input).Success?
            && Inject(Expand(input).value.impl, UnitV) == Success(NamedStructV([NamedValue("a", IntV(5))]))
  {
    var input := MacroInput([], false, "NoDepWithField", NamedForm([NamedLocal("a", I32(), Lit(5))]));
    ExpandInject(input, []);
    assert ShapeValue([]) == UnitV;
    assert ParamValues(input.params, []) + NamedLocalValues(input.body.named) == [NamedValue("a", IntV(5))];
  }

  /** `injectable!((d: Dummy2) => OneDepWithField { a: i32 = 5 })`:
      `inject(Dummy2(20))` stores the dependency in `d` and 5 in `a`. */
  lemma OneDepWithFieldInjects()
    ensures var input := MacroInput([MacroParam("d", TypeNamed("Dummy2"))], false, "OneDepWithField",
                                    NamedForm([NamedLocal("a", I32(), Lit(5))]));
            && Expand(input).Success?
            && Inject(Expand(input).value.impl, Dummy2Of(20))
               == Success(NamedStructV([NamedValue("d", Dummy2Of(20)), NamedValue("a", IntV(5))]))
  {
    var input := MacroInput([MacroParam("d", TypeNamed("Dummy2"))], false, "OneDepWithField",
                            NamedForm([NamedLocal("a", I32(), Lit(5))]));
    ExpandInject(input, [Dummy2Of(20)]);
    assert ShapeValue([Dummy2Of(20)]) == Dummy2Of(20);
    assert ParamValues(input.params, [Dummy2Of(20)]) + NamedLocalValues(input.body.named)
           == [NamedValue("d", Dummy2Of(20)), NamedValue("a", IntV(5))];
  }

  lemma MultiDepValues(ps: seq<MacroParam>, vs: seq<Value>, ls: seq<NamedLocal>)
    requires ps == [MacroParam("a", TypeNamed("Dummy2")), MacroParam("b", TypeNamed("Dummy2"))]
    requires vs == [Dummy2Of(7), Dummy2Of(8)] && ls == [NamedLocal("x", I32(), Lit(5))]
    ensures ParamValues(ps, vs) + NamedLocalValues(ls)
            == [NamedValue("a", Dummy2Of(7)), NamedValue("b", Dummy2Of(8)), NamedValue("x", IntV(5))]
  {
    assert ParamValues(ps, vs) == [NamedValue("a", Dummy2Of(7)), NamedValue("b", Dummy2Of(8))];
    assert NamedLocalValues(ls) == [NamedValue("x", IntV(5))];
  }

  /** `injectable!((a: Dummy2, b: Dummy2) => MultiDepWithField { x: i32 = 5 })`:
      `inject((Dummy2(7), Dummy2(8)))` gives `a.0 == 7`, `b.0 == 8`, `x == 5`. */
  lemma MultiDepWithFieldInjects()
    ensures var input := MacroInput([MacroParam("a", TypeNamed("Dummy2")), MacroParam("b", TypeNamed("Dummy2"))],
                                    false, "MultiDepWithField", NamedForm([NamedLocal("x", I32(), Lit(5))]));
            && Expand(input).Success?
            && Expand(input).value.impl.deps == Tuple([TypeNamed("Dummy2"), TypeNamed("Dummy2")])
            && Inject(Expand(input).value.impl, TupleV([Dummy2Of(7), Dummy2Of(8)]))
               == Success(NamedStructV([NamedValue("a", Dummy2Of(7)), NamedValue("b", Dummy2Of(8)),
                                        NamedValue("x", IntV(5))]))
  {
    var ps := [MacroParam("a", TypeNamed("Dummy2")), MacroParam("b", TypeNamed("Dummy2"))];
    var input := MacroInput(ps, false, "MultiDepWithField", NamedForm([NamedLocal("x", I32(), Lit(5))]));
    var vs := [Dummy2Of(7), Dummy2Of(8)];
    var ls := [NamedLocal("x", I32(), Lit(5))];
    TwoParams(ps[0], ps[1]);
    assert ShapeValue(vs) == TupleV(vs);
    assert SelectArm(input) == Some(NamedMultiDep);
    ExpandInjectNamed(input, vs, ls);
    ExpandDeps(input);
    MultiDepValues(ps, vs, ls);
  }

  /** The names and types of a two-parameter list, in order. */
  lemma TwoParams(a: MacroParam, b: MacroParam)
    ensures ParamNames([a, b]) == [a.name, b.name]
    ensures ParamTypes([a, b]) == [a.ty, b.ty]
  {
  }

  /** `#[inject(|| 1)]`. */
  function InjectOne(): Attribute {
    Attribute(["inject"], ListMeta(ExprTokens(Closure(Lit(1)))))
  }

  /** The field `#[inject(|| 1)] L` of a tuple struct. */
  function LocalField(l: Ident): Field {
    Field(None, TypeNamed(l), [InjectOne()])
  }

  /** The field `D` of a tuple struct. */
  function DepField(d: Ident): Field {
    Field(None, TypeNamed(d), [])
  }

  function LocalOne(l: Ident): InjectableStruct.FieldPart {
    InjectableStruct.LocalPart(SnakeCase.ToSnakeCase(l), CallClosure(Lit(1)))
  }

  function DepOne(d: Ident): InjectableStruct.FieldPart {
    InjectableStruct.DepPart(TypeNamed(d), SnakeCase.ToSnakeCase(d))
  }

  /** `struct S(#[inject(|| 1)] L, D)`: a local field declared before a
      dependency. */
  function LocalBeforeDep(l: Ident, d: Ident): DeriveInput {
    DeriveInput("S", StructData(UnnamedFields([LocalField(l), DepField(d)])))
  }

  /** Each field of `LocalBeforeDep` on its own, named by its type. */
  lemma LocalBeforeDepFieldParts(l: Ident, d: Ident)
    ensures InjectableStruct.ParseField(InjectableStruct.ByTypeName, LocalField(l)) == Success(LocalOne(l))
    ensures InjectableStruct.ParseField(InjectableStruct.ByTypeName, DepField(d)) == Success(DepOne(d))
  {
    assert InjectableStruct.FindInject(LocalField(l).attrs) == Some(InjectOne());
    assert InjectableStruct.FindInject(DepField(d).attrs) == None;
  }

  /** The two fields of `LocalBeforeDep` parse to a local part and a
      dependency part, in declaration order. */
  lemma LocalBeforeDepParts(l: Ident, d: Ident)
    ensures InjectableStruct.New(LocalBeforeDep(l, d)).Success?
    ensures var s := InjectableStruct.New(LocalBeforeDep(l, d)).value;
            InjectableStruct.ParseFields(InjectableStruct.NamingOf(s.kind), InjectableStruct.FieldList(s))
            == Success([LocalOne(l), DepOne(d)])
  {
    var fs := [LocalField(l), DepField(d)];
    var s := InjectableStruct.New(LocalBeforeDep(l, d)).value;
    assert InjectableStruct.NamingOf(s.kind) == InjectableStruct.ByTypeName;
    assert InjectableStruct.FieldList(s) == fs;
    LocalBeforeDepFieldParts(l, d);
    var r := InjectableStruct.ParseFields(InjectableStruct.ByTypeName, fs);
    assert InjectableStruct.ParseField(InjectableStruct.ByTypeName, fs[0]) == Success(LocalOne(l));
    assert InjectableStruct.ParseField(InjectableStruct.ByTypeName, fs[1]) == Success(DepOne(d));
    assert r.Success?;
    assert r.value[0] == LocalOne(l) && r.value[1] == DepOne(d);
    assert r.value == [LocalOne(l), DepOne(d)];
  }

  /** Selecting from two parts keeps those of the asked-for kind, in order. */
  lemma SelectTwo(a: InjectableStruct.FieldPart, b: InjectableStruct.FieldPart, dep: bool)
    ensures InjectableStruct.Select([a, b], dep)
            == (if a.DepPart? == dep then [a] else []) + (if b.DepPart? == dep then [b] else [])
  {
    assert [a, b][1..] == [b];
    assert [b][1..] == [];
    assert InjectableStruct.Select([], dep) == [];
    assert InjectableStruct.Select([b], dep) == (if b.DepPart? == dep then [b] else []);
  }

  /** The four vectors built from the parts of `LocalBeforeDep`. */
  lemma LocalBeforeDepSplit(l: Ident, d: Ident)
    ensures InjectableStruct.Split([LocalOne(l), DepOne(d)])
            == InjectableStruct.Parsed([TypeNamed(d)], [SnakeCase.ToSnakeCase(d)],
                                       [Explicit(SnakeCase.ToSnakeCase(l), CallClosure(Lit(1)))], [CallClosure(Lit(1))])
  {
    var parts := [LocalOne(l), DepOne(d)];
    SelectTwo(LocalOne(l), DepOne(d), true);
    SelectTwo(LocalOne(l), DepOne(d), false);
    var split := InjectableStruct.Split(parts);
    assert split.depTypes == [TypeNamed(d)];
    assert split.depTokens == [SnakeCase.ToSnakeCase(d)];
    assert split.factoryTokens == [Explicit(SnakeCase.ToSnakeCase(l), CallClosure(Lit(1)))];
    assert split.factoryExprs == [CallClosure(Lit(1))];
  }

  /** `parse_dependencies` on `LocalBeforeDep` finds the dependency `d: D`
      and the local `l` field. */
  lemma LocalBeforeDepParsed(l: Ident, d: Ident)
    ensures InjectableStruct.New(LocalBeforeDep(l, d)).Success?
    ensures InjectableStruct.ParseDependencies(InjectableStruct.New(LocalBeforeDep(l, d)).value)
            == Success(InjectableStruct.Parsed([TypeNamed(d)], [SnakeCase.ToSnakeCase(d)],
                                               [Explicit(SnakeCase.ToSnakeCase(l), CallClosure(Lit(1)))], [CallClosure(Lit(1))]))
  {
    LocalBeforeDepParts(l, d);
    LocalBeforeDepSplit(l, d);
  }

  /** `Self(d, (|| 1)())`, with `d` the snake case of the dependency type. */
  function SwappedImpl(d: Ident): Impl {
    var name := SnakeCase.ToSnakeCase(d);
    Impl(Single(TypeNamed(d)), Bind([name]), TupleBody([Param(name), CallClosure(Lit(1))]))
  }

  /** `Self((|| 1)(), d)`. */
  function InOrderImpl(d: Ident): Impl {
    var name := SnakeCase.ToSnakeCase(d);
    Impl(Single(TypeNamed(d)), Bind([name]), TupleBody([CallClosure(Lit(1)), Param(name)]))
  }

  /** The derive as written for `LocalBeforeDep`. */
  lemma LocalBeforeDepDerive(l: Ident, d: Ident)
    ensures InjectableStruct.Derive(LocalBeforeDep(l, d)) == Success(SwappedImpl(d))
  {
    LocalBeforeDepParsed(l, d);
    var st := InjectableStruct.New(LocalBeforeDep(l, d)).value;
    assert st.kind.Unnamed?;
    assert ShapeOf([TypeNamed(d)]) == Single(TypeNamed(d));
    var p := InjectableStruct.ParseDependencies(st).value;
    assert InjectableStruct.NameArgs(p.depTokens) + p.factoryExprs == SwappedImpl(d).body.args;
  }

  /** The corrected derive for `LocalBeforeDep`. */
  lemma LocalBeforeDepDeriveInOrder(l: Ident, d: Ident)
    ensures InjectableStruct.DeriveInOrder(LocalBeforeDep(l, d)) == Success(InOrderImpl(d))
  {
    LocalBeforeDepParts(l, d);
    LocalBeforeDepSplit(l, d);
    var parts := [LocalOne(l), DepOne(d)];
    var st := InjectableStruct.New(LocalBeforeDep(l, d)).value;
    assert st.kind.Unnamed?;
    assert ShapeOf([TypeNamed(d)]) == Single(TypeNamed(d));
    assert InjectableStruct.ArgsOf(parts) == InOrderImpl(d).body.args;
  }

  /** A two-argument constructor whose arguments evaluate to `a` and `b`
      builds the tuple struct `(a, b)`. */
  lemma InjectPair(impl: Impl, dep: Value, env: Env, a: Value, b: Value)
    requires Bindings(impl.params, dep) == Success(env)
    requires impl.body.TupleBody? && |impl.body.args| == 2
    requires EvalInit(impl.body.args[0], env) == Success(a)
    requires EvalInit(impl.body.args[1], env) == Success(b)
    ensures Inject(impl, dep) == Success(TupleStructV([a, b]))
  {
    InjectTupleAll(impl, dep, env, [a, b]);
  }

  /** As written, the derive on `struct S(#[inject(|| 1)] L, D)` emits
      `Self(d, (|| 1)())`: the dependency lands in the `L` field and the `1`
      in the `D` field, whatever `L` and `D` are. */
  lemma TupleDeriveSwapsFields(l: Ident, d: Ident, dep: Value)
    ensures InjectableStruct.Derive(LocalBeforeDep(l, d)) == Success(SwappedImpl(d))
    ensures Inject(SwappedImpl(d), dep) == Success(TupleStructV([dep, IntV(1)]))
  {
    LocalBeforeDepDerive(l, d);
    SwappedInjects(d, dep);
  }

  /** The swapped `inject` puts the dependency first. */
  lemma SwappedInjects(d: Ident, dep: Value)
    ensures Inject(SwappedImpl(d), dep) == Success(TupleStructV([dep, IntV(1)]))
  {
    var env := map[SnakeCase.ToSnakeCase(d) := dep];
    assert Bindings(SwappedImpl(d).params, dep) == Success(env);
    InjectPair(SwappedImpl(d), dep, env, dep, IntV(1));
  }

  /** Corrected, the arguments follow the declaration: `Self((|| 1)(), d)`. */
  lemma TupleDeriveInOrderKeepsFields(l: Ident, d: Ident, dep: Value)
    ensures InjectableStruct.DeriveInOrder(LocalBeforeDep(l, d)) == Success(InOrderImpl(d))
    ensures Inject(InOrderImpl(d), dep) == Success(TupleStructV([IntV(1), dep]))
  {
    LocalBeforeDepDeriveInOrder(l, d);
    InOrderInjects(d, dep);
  }

  /** The in-order `inject` keeps the marked field first. */
  lemma InOrderInjects(d: Ident, dep: Value)
    ensures Inject(InOrderImpl(d), dep) == Success(TupleStructV([IntV(1), dep]))
  {
    var env := map[SnakeCase.ToSnakeCase(d) := dep];
    assert Bindings(InOrderImpl(d).params, dep) == Success(env);
    InjectPair(InOrderImpl(d), dep, env, IntV(1), dep);
  }

  /** `#[inject(n)]`: a marked field whose expression is not a closure. */
  function InjectLit(n: int): Attribute {
    Attribute(["inject"], ListMeta(ExprTokens(Lit(n))))
  }

  /** `#[derive(Injectable)] struct S { #[inject(n)] a: T }`: the derive
      accepts it, and `inject(())` gives `a` the value `Default::default()`,
      not `n`, since only closures are called. */
  lemma NonClosureInjectDefaults(a: Ident, t: Ty, n: int)
    ensures var fs := [Field(Some(a), t, [InjectLit(n)])];
            var input := DeriveInput("S", StructData(NamedFields(fs)));
            && InjectableStruct.Derive(input).Success?
            && var r := Inject(InjectableStruct.Derive(input).value, UnitV);
               r.Success? && FieldOf(r.value, a) == Some(DefaultV)
  {
    var f := Field(Some(a), t, [InjectLit(n)]);
    var fs := [f];
    var input := DeriveInput("S", StructData(NamedFields(fs)));
    assert InjectableStruct.FindInject(f.attrs) == Some(InjectLit(n));
    assert InjectableStruct.ParseField(InjectableStruct.ByFieldName, f).Success?;
    assert InjectableStruct.DeclaredFields(input.data.fields) == fs;
    DeriveFailsOnFirstBadField(input);
    var impl := InjectableStruct.Derive(input).value;
    assert DepIndices(fs) == [] by {
      assert FieldIndices(fs, true, 1) == [];
    }
    assert ShapeValue([]) == UnitV;
    DeriveSemantics.DeriveNamedInject("S", fs, impl, []);
    assert DeriveSemantics.LocalValue(f) == DefaultV;
  }

  /** `#[derive(Injectable)] struct TestService { a: i32 }`. */
  lemma DeriveNamedService()
    ensures InjectableStruct.Derive(DeriveInput("TestService", StructData(NamedFields([Field(Some("a"), I32(), [])]))))
            == Success(Impl(Single(I32()), Bind(["a"]), NamedBody([Shorthand("a")])))
  {
    var fs := [Field(Some("a"), I32(), [])];
    var part := InjectableStruct.DepPart(I32(), "a");
    assert InjectableStruct.ParseField(InjectableStruct.ByFieldName, fs[0]) == Success(part);
    var r := InjectableStruct.ParseFields(InjectableStruct.ByFieldName, fs);
    assert r.Success? && r.value[0] == part;
    assert r.value == [part];
    assert [part][1..] == [];
    var input := DeriveInput("TestService", StructData(NamedFields(fs)));
    var st := InjectableStruct.New(input).value;
    assert st.kind.Named? && InjectableStruct.FieldList(st) == fs;
    assert InjectableStruct.Select([part], true) == [part];
    assert InjectableStruct.Select([part], false) == [];
    var split := InjectableStruct.Split([part]);
    assert split.depTypes == [I32()] && split.depTokens == ["a"] && split.factoryTokens == [];
    var p := InjectableStruct.ParseDependencies(st).value;
    assert p == split;
    assert ShapeOf([I32()]) == Single(I32());
    assert InjectableStruct.ShorthandInits(p.depTokens) + p.factoryTokens
           == [Shorthand("a")];
    assert InjectableStruct.Select([part], true) == [part];
    assert InjectableStruct.Select([part], false) == [];
  }

  /** Deriving on an enum panics with the struct-only message. */
  lemma DeriveOnEnumPanics()
    ensures InjectableStruct.Derive(DeriveInput("E", EnumData)) == Failure(InjectableStruct.NotAStruct)
    ensures InjectableStruct.Message(InjectableStruct.NotAStruct) == "Injectable can only be derived on structs."
  {
  }

  /** `struct S(#[inject] (u8, u8))`, `struct S(#[inject(|| 1)] (u8, u8))`
      and `struct S((u8, u8))`: a bare `#[inject]` panics with
      "expected #[inject(...)]" although the type is not a path either; with
      a valid closure the marked field panics with the inject message, and
      unmarked with the dependency message. */
  lemma TupleFieldPanicMessages()
    ensures InjectableStruct.Derive(DeriveInput("S", StructData(UnnamedFields([Field(None, PairTy(), [BareInject()])]))))
            == Failure(InjectableStruct.InjectNotList)
    ensures InjectableStruct.Derive(DeriveInput("S", StructData(UnnamedFields([Field(None, PairTy(), [InjectOne()])]))))
            == Failure(InjectableStruct.UnsupportedInjectFieldType)
    ensures InjectableStruct.Derive(DeriveInput("S", StructData(UnnamedFields([Field(None, PairTy(), [])]))))
            == Failure(InjectableStruct.UnsupportedDepFieldType)
  {
    var bare := Field(None, PairTy(), [BareInject()]);
    var one := Field(None, PairTy(), [InjectOne()]);
    var dep := Field(None, PairTy(), []);
    assert InjectableStruct.FindInject(bare.attrs) == Some(BareInject());
    assert InjectableStruct.FindInject(one.attrs) == Some(InjectOne());
    assert InjectableStruct.FindInject(dep.attrs) == None;
    ParseFieldErrors(InjectableStruct.ByTypeName, bare);
    ParseFieldErrors(InjectableStruct.ByTypeName, one);
    ParseFieldErrors(InjectableStruct.ByTypeName, dep);
    SingleFieldDeriveError("S", bare);
    SingleFieldDeriveError("S", one);
    SingleFieldDeriveError("S", dep);
  }

  /** The tuple type `(u8, u8)`, which is not a path. */
  function PairTy(): Ty {
    OtherTy("(u8, u8)")
  }

  /** `#[inject]` without an argument list. */
  function BareInject(): Attribute {
    Attribute(["inject"], PathMeta)
  }
}

=== FILE: snake_case.dfy ===
/**
 * The identifier transformer the derive uses to name positional
 * dependencies: an underscore before every uppercase character except the
 * first, and ASCII-only lowering of that character.
 */
module SnakeCase {

  /** Uppercase characters: ASCII `A`-`Z` and the Latin-1 uppercase letters
      U+00C0-U+00DE except the multiplication sign U+00D7. */
  predicate IsUppercase(c: char) {
    ('A' <= c <= 'Z') || ('À' <= c <= 'Þ' && c != '×')
  }

  predicate IsAsciiUppercase(c: char) {
    'A' <= c <= 'Z'
  }

  predicate IsAsciiLowercase(c: char) {
    'a' <= c <= 'z'
  }

  /** Lowers ASCII uppercase letters only; every other character is kept. */
  function ToAsciiLowercase(c: char): (r: char)
    ensures !IsAsciiUppercase(r)
    ensures IsAsciiUppercase(c) ==> IsAsciiLowercase(r)
    ensures IsAsciiUppercase(c) ==> r as int - 'a' as int == c as int - 'A' as int
    ensures !IsAsciiUppercase(c) ==> r == c
  {
    if IsAsciiUppercase(c) then (c as int + 32) as char else c
  }

  /** Raises ASCII lowercase letters only; the inverse of `ToAsciiLowercase`
      on uppercase characters. */
  function ToAsciiUppercase(c: char): (r: char)
    ensures IsAsciiLowercase(c) ==> IsAsciiUppercase(r)
    ensures !IsAsciiLowercase(c) ==> r == c
  {
    if IsAsciiLowercase(c) then (c as int - 32) as char else c
  }

  lemma UppercaseSurvivesLowering(c: char)
    requires IsUppercase(c)
    ensures ToAsciiUppercase(ToAsciiLowercase(c)) == c
  {
  }

  /** Number of uppercase characters in `s`. */
  function UppercaseCount(s: seq<char>): nat {
    if s == [] then 0
    else (if IsUppercase(s[0]) then 1 else 0) + UppercaseCount(s[1..])
  }

  /** Number of occurrences of `c` in `s`. */
  function Occurrences(s: seq<char>, c: char): nat {
    if s == [] then 0
    else (if s[0] == c then 1 else 0) + Occurrences(s[1..], c)
  }

  /** The characters at positions 1.. of the input: every uppercase one
      becomes `_` followed by its lowered form. */
  function SnakeTail(t: seq<char>): (r: seq<char>)
    ensures |r| == |t| + UppercaseCount(t)
    ensures Occurrences(r, '_') == Occurrences(t, '_') + UppercaseCount(t)
    ensures forall k :: 0 <= k < |r| ==> !IsAsciiUppercase(r[k])
  {
    if t == [] then []
    else
      var head := SnakeChar(t[0]);
      var rest := SnakeTail(t[1..]);
      assert Occurrences(head + rest, '_') == Occurrences(head, '_') + Occurrences(rest, '_') by {
        OccurrencesAppend(head, rest, '_');
      }
      head + rest
  }

  /** `to_snake_case`: the character at index 0 is lowered without an
      underscore, every later uppercase character gets one.  The result is
      longer than the input by exactly the number of uppercase characters
      after the first position and holds no ASCII uppercase letter. */
  function ToSnakeCase(s: seq<char>): (r: seq<char>)
    ensures s == [] ==> r == []
    ensures s != [] ==> |r| == |s| + UppercaseCount(s[1..])
    ensures s != [] ==> Occurrences(r, '_') == Occurrences(s, '_') + UppercaseCount(s[1..])
    ensures s != [] ==> r[0] == ToAsciiLowercase(s[0])
    ensures forall k :: 0 <= k < |r| ==> !IsAsciiUppercase(r[k])
  {
    if s == [] then []
    else
      var first := if IsUppercase(s[0]) then ToAsciiLowercase(s[0]) else s[0];
      var rest := SnakeTail(s[1..]);
      assert Occurrences([first] + rest, '_') == Occurrences([first], '_') + Occurrences(rest, '_') by {
        OccurrencesAppend([first], rest, '_');
      }
      assert s == [s[0]] + s[1..];
      assert Occurrences(s, '_') == Occurrences([s[0]], '_') + Occurrences(s[1..], '_') by {
        OccurrencesAppend([s[0]], s[1..], '_');
      }
      [first] + rest
  }

  lemma {:induction false} OccurrencesAppend(a: seq<char>, b: seq<char>, c: char)
    ensures Occurrences(a + b, c) == Occurrences(a, c) + Occurrences(b, c)
  {
    if a != [] {
      assert (a + b)[1..] == a[1..] + b;
      OccurrencesAppend(a[1..], b, c);
    } else {
      assert a + b == b;
    }
  }

  /** What one character after index 0 becomes: `_` and its lowered form
      when it is uppercase, itself otherwise. */
  function SnakeChar(c: char): (r: seq<char>)
    ensures IsUppercase(c) ==> r == ['_', ToAsciiLowercase(c)]
    ensures !IsUppercase(c) ==> r == [c]
  {
    if IsUppercase(c) then ['_', ToAsciiLowercase(c)] else [c]
  }

  /** `SnakeChar(c)` sits in `r` starting at index `j`. */
  predicate PlacedAt(r: seq<char>, j: nat, c: char) {
    j + |SnakeChar(c)| <= |r| && r[j..j + |SnakeChar(c)|] == SnakeChar(c)
  }

  /** The tail is transformed character by character: splitting the input
      splits the output at the matching place. */
  lemma {:induction false} SnakeTailAppend(a: seq<char>, b: seq<char>)
    ensures SnakeTail(a + b) == SnakeTail(a) + SnakeTail(b)
  {
    if a == [] {
      assert a + b == b;
    } else {
      assert (a + b)[0] == a[0];
      assert (a + b)[1..] == a[1..] + b;
      SnakeTailAppend(a[1..], b);
    }
  }

  /** Where input character `k` of a tail lands: it becomes
      `SnakeChar(t[k])`, placed after the `k` characters before it and one
      underscore for each uppercase character among them. Together with the
      length, this fixes every character of the output, underscores in the
      input included. */
  lemma SnakeTailAt(t: seq<char>, k: nat)
    requires k < |t|
    ensures PlacedAt(SnakeTail(t), k + UppercaseCount(t[..k]), t[k])
  {
    SnakeTailSplitAt(t, k);
    var x := SnakeTail(t[..k]);
    assert |x| == k + UppercaseCount(t[..k]);
    PlacedAtMiddle(SnakeTail(t), x, t[k], SnakeTail(t[k + 1..]), k + UppercaseCount(t[..k]));
  }

  /** The image of `c` between `x` and `z` is placed right after `x`. */
  lemma PlacedAtMiddle(r: seq<char>, x: seq<char>, c: char, z: seq<char>, j: nat)
    requires r == x + (SnakeChar(c) + z) && j == |x|
    ensures PlacedAt(r, j, c)
  {
    MiddleSlice(x, SnakeChar(c), z);
  }

  /** The tail of `t` is the tail of the part before `k`, then the image of
      character `k`, then the tail of the rest. */
  lemma SnakeTailSplitAt(t: seq<char>, k: nat)
    requires k < |t|
    ensures SnakeTail(t) == SnakeTail(t[..k]) + (SnakeChar(t[k]) + SnakeTail(t[k + 1..]))
  {
    SplitAround(t, k);
    SnakeTailAppend(t[..k], [t[k]] + t[k + 1..]);
    SnakeTailAppend([t[k]], t[k + 1..]);
    assert [t[k]][1..] == [];
  }

  /** A sequence is its part before `k`, its element `k`, and the rest. */
  lemma SplitAround<T>(t: seq<T>, k: nat)
    requires k < |t|
    ensures t == t[..k] + ([t[k]] + t[k + 1..])
  {
    assert t[k..] == [t[k]] + t[k + 1..];
    assert t == t[..k] + t[k..];
  }

  /** The middle part of a three-way concatenation is found after the first. */
  lemma MiddleSlice<T>(x: seq<T>, y: seq<T>, z: seq<T>)
    ensures (x + (y + z))[|x|..|x| + |y|] == y
  {
    var w := x + (y + z);
    forall i | 0 <= i < |y|
      ensures w[|x|..|x| + |y|][i] == y[i]
    {
      assert w[|x| + i] == (y + z)[i];
    }
  }

  /** `to_snake_case` character by character, underscores in the input
      included: character 0 becomes its lowered form at index 0, and
      character `k >= 1` becomes `SnakeChar(s[k])` at index `k` plus the
      number of uppercase characters among positions 1..k-1. */
  lemma ToSnakeCasePositions(s: seq<char>)
    ensures s != [] ==> ToSnakeCase(s)[0] == ToAsciiLowercase(s[0])
    ensures forall k :: 1 <= k < |s| ==>
              PlacedAt(ToSnakeCase(s), k + UppercaseCount(s[1..k]), s[k])
  {
    forall k | 1 <= k < |s|
      ensures PlacedAt(ToSnakeCase(s), k + UppercaseCount(s[1..k]), s[k])
    {
      ToSnakeCaseAt(s, k);
    }
  }

  /** `ToSnakeCasePositions` for one character `k >= 1`. */
  lemma ToSnakeCaseAt(s: seq<char>, k: nat)
    requires 1 <= k < |s|
    ensures PlacedAt(ToSnakeCase(s), k + UppercaseCount(s[1..k]), s[k])
  {
    var t := s[1..];
    SnakeTailAt(t, k - 1);
    assert t[..k - 1] == s[1..k];
    assert t[k - 1] == s[k];
    var first := if IsUppercase(s[0]) then ToAsciiLowercase(s[0]) else s[0];
    assert ToSnakeCase(s) == [first] + SnakeTail(t);
    ShiftSlice(first, SnakeTail(t), k - 1 + UppercaseCount(s[1..k]), |SnakeChar(s[k])|);
  }

  /** Putting one element in front shifts every slice by one. */
  lemma ShiftSlice<T>(a: T, u: seq<T>, j: nat, n: nat)
    requires j + n <= |u|
    ensures ([a] + u)[j + 1..j + 1 + n] == u[j..j + n]
  {
    assert ([a] + u)[1..] == u;
  }

  /** Reverses `SnakeTail`: an underscore is dropped and the character after
      it is raised. */
  function PascalTail(r: seq<char>): seq<char> {
    if r == [] then []
    else if r[0] == '_' && |r| >= 2 then [ToAsciiUppercase(r[1])] + PascalTail(r[2..])
    else [r[0]] + PascalTail(r[1..])
  }

  /** Reverses `ToSnakeCase`, given whether the first character was uppercase. */
  function FromSnakeCase(r: seq<char>, upperFirst: bool): seq<char> {
    if r == [] then []
    else [if upperFirst then ToAsciiUppercase(r[0]) else r[0]] + PascalTail(r[1..])
  }

  lemma {:induction false} SnakeTailRoundTrip(t: seq<char>)
    requires forall k :: 0 <= k < |t| ==> t[k] != '_'
    ensures PascalTail(SnakeTail(t)) == t
  {
    if t != [] {
      SnakeTailRoundTrip(t[1..]);
      var rest := SnakeTail(t[1..]);
      if IsUppercase(t[0]) {
        var r := ['_', ToAsciiLowercase(t[0])] + rest;
        assert SnakeTail(t) == r;
        assert r[2..] == rest;
        UppercaseSurvivesLowering(t[0]);
      } else {
        var r := [t[0]] + rest;
        assert SnakeTail(t) == r;
        assert r[1..] == rest;
      }
    }
  }

  /** Round trip: on names without underscores, no information is lost. */
  lemma SnakeCaseRoundTrip(s: seq<char>)
    requires forall k :: 0 <= k < |s| ==> s[k] != '_'
    ensures FromSnakeCase(ToSnakeCase(s), s != [] && IsUppercase(s[0])) == s
  {
    if s != [] {
      SnakeTailRoundTrip(s[1..]);
      var r := ToSnakeCase(s);
      assert r[1..] == SnakeTail(s[1..]);
      if IsUppercase(s[0]) {
        UppercaseSurvivesLowering(s[0]);
      }
    }
  }

  /** Different type names can share a snake-case name: `aB` and `a_b`. */
  lemma SnakeCaseNotInjective()
    ensures ToSnakeCase("aB") == ToSnakeCase("a_b") == "a_b"
  {
    assert "aB"[1..] == "B";
    assert "B"[1..] == [];
    assert SnakeTail("B") == "_b";
    assert "a_b"[1..] == "_b";
    assert "_b"[1..] == "b";
    assert "b"[1..] == [];
    assert SnakeTail("b") == "b";
    assert SnakeTail("_b") == "_b";
  }
}

=== FILE: syntax.dfy ===
/**
 * The abstract derive input: the parts of a parsed struct (or enum/union)
 * declaration that the `Injectable` derive looks at.  Generics, visibility
 * and spans are not represented.
 */
module Syntax {

  import opened Wrappers

  type Ident = string

  /** A type as written on a field: a path whose last segment carries the
      name (a parsed path always has at least one segment), or anything
      else (references, arrays, tuples, ...). */
  datatype Ty =
    | PathTy(leading: seq<Ident>, last: Ident, args: seq<Ty>)
    | OtherTy(text: string)

  /** An already-parsed expression, as far as the generators distinguish it. */
  datatype Expr =
    | Closure(body: Expr)
    | Paren(inner: Expr)
    | Lit(n: int)
    | OtherExpr(text: string)

  /** The tokens between the parentheses of an attribute list. */
  datatype Tokens = ExprTokens(expr: Expr) | Unparsable

  /** The three attribute shapes: `#[p]`, `#[p(...)]` and `#[p = v]`. */
  datatype Meta = PathMeta | ListMeta(tokens: Tokens) | NameValueMeta

  datatype Attribute = Attribute(path: seq<Ident>, meta: Meta)

  datatype Field = Field(ident: Option<Ident>, ty: Ty, attrs: seq<Attribute>)

  datatype Fields = NamedFields(named: seq<Field>) | UnnamedFields(unnamed: seq<Field>) | UnitFields

  datatype Data = StructData(fields: Fields) | EnumData | UnionData

  datatype DeriveInput = DeriveInput(ident: Ident, data: Data)

  /** The three struct shapes the derive distinguishes. */
  datatype StructKind = Named(named: seq<Field>) | Unnamed(unnamed: seq<Field>) | Unit

  /** True when an attribute path is exactly the single identifier `name`. */
  predicate IsIdent(path: seq<Ident>, name: Ident) {
    path == [name]
  }

  /** Removes every enclosing pair of parentheses. */
  function StripParens(e: Expr): (r: Expr)
    ensures !r.Paren?
    ensures !e.Paren? ==> r == e
  {
    if e.Paren? then StripParens(e.inner) else e
  }

  /** `e` wrapped in `n` pairs of parentheses. */
  function Parens(n: nat, e: Expr): Expr {
    if n == 0 then e else Paren(Parens(n - 1, e))
  }

  /** Every expression is some number of parentheses around a
      non-parenthesised core. */
  lemma {:induction false} ParenDepth(e: Expr) returns (n: nat, core: Expr)
    ensures !core.Paren? && e == Parens(n, core)
  {
    if e.Paren? {
      var m, c := ParenDepth(e.inner);
      n, core := m + 1, c;
    } else {
      n, core := 0, e;
    }
  }

  /** Stripping removes exactly the wrapping parentheses, however many. */
  lemma {:induction false} StripParensOfParens(n: nat, e: Expr)
    ensures StripParens(Parens(n, e)) == StripParens(e)
  {
    if n > 0 {
      StripParensOfParens(n - 1, e);
    }
  }
}

=== FILE: values.dfy ===
/**
 * Run-time values produced by generated `inject` functions and by
 * resolution, and the evaluation of the expressions the generators copy
 * into those functions.
 */
module Values {

  import opened Wrappers
  import opened Syntax

  datatype Value =
    | UnitV                                  // `()`
    | IntV(i: int)                           // an integer literal's value
    | TupleV(elems: seq<Value>)              // a tuple of two or more values
    | ClosureV(body: Expr)                   // a closure that was not called
    | OpaqueV(text: string)                  // the value of an expression the model does not interpret
    | DefaultV                               // `Default::default()` of the expected type
    | UnitStructV                            // `Self` of a unit struct
    | NamedStructV(fields: seq<NamedValue>)  // `Self { .. }`, fields in initialiser order
    | TupleStructV(elems: seq<Value>)        // `Self( .. )`

  datatype NamedValue = NamedValue(name: Ident, value: Value)

  /** The value of an expression; closures are values until called. */
  function EvalExpr(e: Expr): (v: Value)
    ensures e.Lit? ==> v == IntV(e.n)
  {
    match e
    case Lit(n) => IntV(n)
    case Paren(inner) => EvalExpr(inner)
    case Closure(body) => ClosureV(body)
    case OtherExpr(text) => OpaqueV(text)
  }

  /** Parentheses do not change a value. */
  lemma {:induction false} EvalIgnoresParens(e: Expr)
    ensures EvalExpr(e) == EvalExpr(StripParens(e))
  {
    if e.Paren? {
      EvalIgnoresParens(e.inner);
    }
  }

  /** The value of the first field called `name` of a named struct value. */
  function FieldOf(v: Value, name: Ident): Option<Value> {
    if v.NamedStructV? then FieldIn(v.fields, name) else None
  }

  function FieldIn(fs: seq<NamedValue>, name: Ident): Option<Value> {
    if fs == [] then None
    else if fs[0].name == name then Some(fs[0].value)
    else FieldIn(fs[1..], name)
  }
}

=== FILE: wrappers.dfy ===
/** Failure-compatible result types used by the generators and the evaluator. */
module Wrappers {

  datatype Option<+T> = None | Some(value: T)

  /** Either a value or an error; usable with `:-`. */
  datatype Result<+R, +E> = Success(value: R) | Failure(error: E) {

    predicate IsFailure() {
      Failure?
    }

    function PropagateFailure<U>(): Result<U, E>
      requires Failure?
    {
      Failure(error)
    }

    function Extract(): R
      requires Success?
    {
      value
    }
  }
}
